=== FILE: README.md ===
# RMG Premium Listings — a Dafny model of the listing engine

The plugin shows "premium listing" cards for rehab centres on WordPress pages. It has five parts, and this project models the core of each as pure Dafny functions with proved contracts:

- **The ranking score.** Every listing gets a Premium+ pacing score. Free listings score 1000 and Premium listings 2000. A Premium+ listing with views left in its budget scores between 3000 and 3999, and the score rewards a large budget and a healthy burn-down.
- **The query.** `ES_Query` builds an Elasticsearch query for the page:
  - it works out the page type, the location and the state filter;
  - it sorts by tier, pacing score, distance-boosted points, a seeded random tiebreak and distance;
  - it can add term filters, or build one tab per selected term;
  - it caches the result for 15 minutes, per request and in a transient;
  - it registers the IDs of every card it returns.
- **The registry.** A per-page-load registry (`Cards_Registry`) records which listing IDs were already shown under which display context. A later block with `exclude_displayed` set excludes them.
- **The REST endpoint.** It normalises its parameters, counts the cards the query and the HTML produced, and reports warnings. The embed page decodes, validates and defaults a base64 configuration and turns it into renderer arguments.
- **The browser scripts.** The front-end tab manager handles selection and arrow-key navigation. The placeholder loader fetches location-based blocks one after another and carries the displayed IDs forward. The editor's taxonomy dropdown handles term selection and its summary text.

Outside calls become function parameters, which the contracts quantify over:

| Stands for | Parameter |
|---|---|
| `md5` | `KeyOracles.md5` |
| `wp_parse_url` | `KeyOracles.urlPath` |
| `sanitize_title` | `titleSlug` |
| `log10` | `lg` (assumed non-negative and non-decreasing) |
| the address parser | `parseAddress` |
| JSON and base64 decoding | `decode` |
| the clock, `wp_rand` and the interval filter | `Env` |
| Elasticsearch | the hits handed to the processing functions |
| the REST server seen from the browser | `respond` |

PHP values are modelled by `PhpValue.Value`, which covers null, bool, int, float, string, and an ordered array with string keys. The model spells out PHP's `empty()`, `??`, `(array)`, `absint`, `intval`, PHP 8 loose comparison, `array_unique` and `%` on negative numbers.

## Model

| member | source | states |
|---|---|---|
| Pacing.ParseLevelStoredForms | inc/es/class-es-utils.php:51-63 | The `premium` meta gives its tier from an ACF button group's `value` or from a number or numeric string; an absent field, a button group without `value` or non-numeric text gives Free (0). |
| Pacing.Calculate | inc/es/class-es-utils.php:37-152 | The tier is the argument when given, else the `premium` meta; Free scores 1000 and Premium 2000, and Premium+ scores in 3000..3999 exactly when its counters (each argument, else its `(int)`-cast meta) show a positive effective budget with views left. |
| Pacing.ExplicitArgsOverrideMeta | inc/es/class-es-utils.php:49-88 | With the tier and all three counters passed explicitly, two listings with different meta score the same, unless the remaining count is 0, the budget positive and their views consumed differ. |
| Pacing.Remaining | inc/es/class-es-utils.php:79-94 | Zero remaining with nothing consumed counts as the whole effective budget (budget plus override); a negative count becomes 0. |
| Pacing.MultiplierBands | inc/es/class-es-utils.php:99-119 | The cross-multiplied comparisons select 0.3, 0.6, 0.85 and 1.0 exactly on the ratio bands below 10%, below 25%, below 50% and at least 50%. |
| Pacing.MultiplierMonotone | inc/es/class-es-utils.php:109-119 | With a fixed budget, more views left never lowers the burn-down multiplier. |
| Pacing.RemainingBoost | inc/es/class-es-utils.php:125 | The bonus for remaining views lies between 0 and 100 and is either the cap or 20·log10(remaining + 1). |
| Pacing.PacedBudgetScore | inc/es/class-es-utils.php:103-122 | The damped budget score of an active listing is never negative. |
| Pacing.RawScore | inc/es/class-es-utils.php:122-126 | The uncapped Premium+ score is never negative. |
| Pacing.Score | inc/es/class-es-utils.php:66-142 | Free scores 1000, Premium 2000; Premium+ scores in 3000..3999 exactly when it has a positive effective budget and views left, and otherwise falls back to 2000. |
| Pacing.StoredScore | inc/es/class-es-utils.php:154-196 | The value the save hook stores (static 2000/1000 for Premium and Free) agrees with the calculator called without explicit arguments. |
| Pacing.ScoreMonotoneInRemaining | inc/es/class-es-utils.php:97-129 | For one budget, a Premium+ listing with more views left never scores lower. |
| Pacing.PenaltyOutweighsBonus | inc/es/class-es-utils.php:103-129 | With a 1000-view budget, 40 views left (multiplier 0.3) scores strictly below 600 left (multiplier 1.0): the burn-down penalty dominates the remaining-views bonus. |
| Registry.SanitizeKey | inc/es/class-cards-registry.php:47 | `sanitize_key` keeps only lower-case letters, digits, `_` and `-`, and keeps every input character that lower-cases to one of them. |
| Registry.SanitizeKeyIdempotent | inc/es/class-cards-registry.php:47 | Sanitising a sanitised key changes nothing. |
| Registry.ContextKey | inc/es/class-cards-registry.php:42-59 | A REST request uses its non-empty `display_context`, sanitised, else the md5 of its non-empty referer's path ("/" when the URL has none); any other request, or a REST request with neither, uses the md5 of its URI ("/" when missing). |
| Registry.Displayed | inc/es/class-cards-registry.php:114-129 | An unknown context has no displayed IDs. |
| Registry.Register | inc/es/class-cards-registry.php:74-100 | Registering nothing changes nothing; otherwise the context's list becomes duplicate-free and holds exactly its old IDs plus the new ones, and every other context is untouched. |
| Registry.Clear | inc/es/class-cards-registry.php:142-151 | Clearing without a context empties every context; clearing one context empties it and leaves the others as they were. |
| Registry.ValidPreserved | inc/es/class-cards-registry.php:94-151 | Registering and clearing keep every context's list free of duplicates. |
| Registry.RegisterAppends | inc/es/class-cards-registry.php:94-99 | Registration only appends: the IDs already shown stay in front, in their order. |
| Registry.RegisterIdempotent | inc/es/class-cards-registry.php:94-99 | Registering the same IDs twice is the same as registering them once. |
| Registry.RegisterBatches | inc/es/class-cards-registry.php:94-99 | Registering two batches one after the other gives the same list as registering their concatenation. |
| QueryBuilder.PageType | inc/es/class-es-query.php:328-362 | An explicit context page type wins; then a city gives "city" and a state gives "state"; otherwise the page type comes from WordPress and is one of city, state, rehab-center or default. |
| QueryBuilder.PageTypeFromWordPress | inc/es/class-es-query.php:342-361 | Without a context, a location-term archive is "city" exactly when the term has a parent and "state" exactly when it has none; a single rehab-center post is "rehab-center". |
| QueryBuilder.LocationData | inc/es/class-es-query.php:368-384 | The visitor's location is used on the default page; city and rehab-center pages use the taxonomy's centre; any other page type has no location. |
| QueryBuilder.StateSlug | inc/es/class-es-query.php:701-721 | Only state and city pages have a state slug: the context's state when given, else the queried term's slug. |
| QueryBuilder.SortCriteria | inc/es/class-es-query.php:743-866 | The sort is tier, pacing score, then distance-boosted points (plain points without a centre), then the seeded random tiebreak, and, with a centre outside state pages, a final ascending geo-distance stage. |
| QueryBuilder.ExcludeIds | inc/es/class-es-query.php:638-647 | The excluded IDs are duplicate-free, never 0, and are exactly the requested exclusions plus the current post on a rehab-center page. |
| QueryBuilder.BaseQueryShape | inc/es/class-es-query.php:624-694 | The query fetches three times the card count, requires published listings, adds the state-slug term exactly when the state filter applies, adds the geo-distance filter exactly when a centre is used, and sorts by the sort pipeline. |
| QueryBuilder.BaseQueryMustNot | inc/es/class-es-query.php:638-657 | The query has a must-not clause exactly when some non-zero ID is excluded or the page is a rehab-center post. |
| QueryBuilder.StateAndGeoExclusive | inc/es/class-es-query.php:660-685 | The state-slug filter and the geo-distance filter never apply together. |
| QueryBuilder.FloorDiv | inc/es/class-es-query.php:892 | `floor(a / b)` is the integer quotient rounded down, for either sign of `b`. |
| QueryBuilder.SeedAsWritten | inc/es/class-es-query.php:873-893 | As written: a bypass, or an interval filter returning 0, falls back to the random number. |
| QueryBuilder.SeedAsWrittenIsConstant | inc/es/class-es-query.php:882-892 | As written, from timestamp 810000 on, the seed is always 900. |
| QueryBuilder.SeedAsWrittenIgnoresWindows | inc/es/class-es-query.php:882-892 | As written, two timestamps in different 15-minute windows get the same seed. |
| QueryBuilder.Seed | inc/es/class-es-query.php:873-893 | Corrected: the seed is the index of the interval the current time falls in, or the random number under a bypass or a zero interval. |
| QueryBuilder.SeedWindows | inc/es/class-es-query.php:873-893 | Corrected: the seed is constant within a 15-minute window and goes up by one from one window to the next. |
| QueryBuilder.MatchAll | inc/es/class-es-query.php:540-544 | One match clause per term of a group, on the group's field, in term order. |
| QueryBuilder.TermFiltersMember | inc/es/class-es-query.php:528-550 | A clause is a term filter exactly when it matches some selected term of some group on that group's field. |
| QueryBuilder.AddTermsFilter | inc/es/class-es-query.php:500-521 | Without selected terms the query is unchanged; otherwise one "should, minimum 1" clause holding every term filter is appended and nothing else changes. |
| QueryBuilder.PutTermsKeys | inc/es/class-es-query.php:606-614 | Adding a group's terms keeps the existing tab keys, adds one `group_slug` key per term, and adds nothing else. |
| QueryBuilder.ExtractAllTermsProps | inc/es/class-es-query.php:590-617 | Every selected term of every group has a tab, and each tab's label is its term and its field is its group's field. |
| QueryBuilder.MsearchQueries | inc/es/class-es-query.php:557-582 | Each tab's search is the base query plus exactly one match on that tab's field and term, in tab order. |
| Orchestrator.UcFirst | inc/es/class-es-query.php:1245 | The first character is upper-cased and every other character is kept. |
| Orchestrator.ProcessAwards | inc/es/class-es-query.php:1239-1255 | The first winner whose rank and name are both non-empty supplies the award and "Top 10 Rehab In " followed by the name with its name capitalised; the second pair is used only when the first is incomplete. |
| Orchestrator.AwardsIff | inc/es/class-es-query.php:1239-1255 | A card has an award exactly when one of the two winner pairs is complete; the award and description are empty together, and a description always starts with the prefix. |
| Orchestrator.IsPremium | inc/es/class-es-query.php:1263-1265 | Premium means exactly "Premium" or "Premium+". |
| Orchestrator.CardOf | inc/es/class-es-query.php:1182-1232 | A card takes its ID from the hit (0 when missing), its image from the featured image or else the image URL, is premium by level, accepts insurance when the insurance field is non-empty, and carries no tab. |
| Orchestrator.TransformHits | inc/es/class-es-query.php:1162-1173 | One card per hit, in hit order. |
| Orchestrator.ProcessQueryResults | inc/es/class-es-query.php:1001-1044 | A failed search gives no cards; otherwise the cards are a prefix of the transformed hits whose length is the card count capped by the number of hits. |
| Orchestrator.Tag | inc/es/class-es-query.php:1089-1098 | Every card of a tab gets that tab's key, label, group and term, and nothing else about it changes. |
| Orchestrator.Rotate | inc/es/class-es-query.php:1100-1105 | A tab with more than two cards whose first two include an earlier tab's leader is rotated left by two; otherwise it is unchanged; either way it is a permutation. |
| Orchestrator.ProcessTabbedShape | inc/es/class-es-query.php:1053-1125 | A failed multi-search gives no tabs; otherwise tab labels are distinct and every tab holds a permutation of the tagged, sliced cards of one response whose term has that label. |
| Orchestrator.DisplayedIds | inc/es/class-es-query.php:277-293 | The registered IDs are duplicate-free and are exactly the card IDs, across all tabs for tabbed data. |
| Orchestrator.GroupsOf | inc/es/class-es-query.php:236 | Each selected-terms group keeps its key and becomes its list of term strings. |
| Orchestrator.TermFilterAsWrittenNeverApplies | inc/es/class-es-query.php:451 | As written, no accepted action type ("none", "filter", "tabs") switches on the term filter; the corrected test switches it on exactly for "filter". |
| Orchestrator.Exclusions | inc/es/class-es-query.php:246-257 | Without `exclude_displayed` the exclusions are the explicit IDs; with it they are duplicate-free and hold exactly the explicit IDs plus those already registered for the display context. |
| Orchestrator.InitProcessingHit | inc/es/class-es-query.php:216-218 | When the cache may be read, a key in the request cache returns its data and changes nothing. |
| Orchestrator.InitTransientHit | inc/es/class-es-query.php:221-227 | An unexpired transient, not in the request cache, returns its data and is copied into the request cache. |
| Orchestrator.InitMiss | inc/es/class-es-query.php:273-274 | A miss, or a call with `exclude_displayed` or the bypass flag, is the miss path for the call's key: it computes fresh data and writes it to the caches; the new entry is readable again exactly when caching may be read. |
| Orchestrator.Miss | inc/es/class-es-query.php:273-309 | A miss returns its data and stores it under its key in the request cache and, expiring 15 minutes later, in the transient cache; the result comes wrapped with its IDs exactly for a REST call with non-empty data, and no other display context of the registry changes. |
| Orchestrator.InitRegistersDisplayed | inc/es/class-es-query.php:277-309 | Empty fresh data registers nothing; otherwise the display context gains exactly the data's IDs, a REST call also gets those IDs back, and no other context changes. |
| Orchestrator.InitRegistryGrows | inc/es/class-es-query.php:295-301 | `init` never removes an ID from any context of the registry. |
| Orchestrator.ExcludedIncludesRegistry | inc/es/class-es-query.php:249-257 | With `exclude_displayed`, every non-zero ID registered for the display context reaches the query's must-not list. |
| Orchestrator.CacheKeyIgnores | inc/es/class-es-query.php:183-196 | Changing an argument the cache key ignores (other than `context`) leaves the key the same. |
| Orchestrator.CacheKeyContext | inc/es/class-es-query.php:199-213 | A `context` change that keeps page type, state and city leaves the cache key the same. |
| Orchestrator.KeyOf | inc/es/class-es-query.php:183-212 | The cache key drops exactly the eleven ignored arguments and keeps every other one. Under a bypass its seed is the random number. As written, with the default interval and from timestamp 810000 on, the seed is always 900. Corrected, it is the index of the current window. |
| Orchestrator.ParamsOf | inc/es/class-es-query.php:229-256 | The query uses the same seed, page type and centre as the cache key. It excludes exactly the explicit IDs plus, with `exclude_displayed`, the IDs registered for the display context. A state slug is only set on a state or city page. |
| Orchestrator.FlatQuery | inc/es/class-es-query.php:446-453 | As written, none of the accepted action types adds the term filter. Corrected, the base query changes exactly for "filter" with a term clause. Either way the only change is one added term clause. |
| Orchestrator.Fetch | inc/es/class-es-query.php:258-270 | Fresh data is tabbed exactly in tabbed mode; a flat result holds at most the requested number of cards. |
| Orchestrator.Init | inc/es/class-es-query.php:168-320 | After `init`, the request cache holds the returned data under the call's key. Without cache reads the data is fetched fresh. The result comes wrapped with its IDs only for a REST call with non-empty data. |
| Renderer.MergeFromKeys | inc/class-cards-renderer.php:192-203 | Merging arguments keeps the defaults' keys, in order, as a prefix. |
| Renderer.MergeFromEntries | inc/class-cards-renderer.php:192-203 | After the merge loop, a key the arguments lack keeps its default, and a given key holds its value, merged recursively when both sides are arrays. |
| Renderer.ParseArgsSpec | inc/class-cards-renderer.php:182-206 | The recursive merge keeps the defaults' key order, takes given values over defaults (merging nested arrays), and a non-array or empty argument gives the defaults. |
| Renderer.ParseArgsNonArrayDefaults | inc/class-cards-renderer.php:184-189 | Non-array defaults give the arguments themselves, or an empty array when those are not an array either. |
| Renderer.DefaultArgs | inc/class-cards-renderer.php:57-99 | The defaults hold the requested card count and do not require location data. |
| Renderer.PreparedContextEntry | inc/class-cards-renderer.php:162-165 | A non-array context entry the caller gives is the entry the prepared arguments carry. |
| Renderer.PlaceholderOfGivenContext | inc/class-cards-renderer.php:113-123 | Without a user location, the placeholder is rendered exactly when the given context sets `requires_location_data` to `true`. |
| Renderer.PrepareArgsCardCount | inc/class-cards-renderer.php:154-165 | The card count is the caller's when given; otherwise 8 for the slider layout and 3 for any other. |
| Renderer.NoPlaceholderByDefault | inc/class-cards-renderer.php:115-123 | A caller that passes no context never gets the location placeholder. |
| Renderer.HasSelectedTerms | inc/class-cards-renderer.php:478-480 | Null has no terms; an array of arrays has terms exactly when some group is non-empty; any other input makes `array_merge` fail (None). |
| Renderer.GroupsHaveTerm | inc/class-cards-renderer.php:478-480 | Over groups that are all arrays, the result is whether some group is non-empty; a non-array group makes it fail. |
| Renderer.CardLabels | inc/class-cards-renderer.php:460-464 | The labels collected are exactly the non-empty tab labels the cards carry. |
| Renderer.ExtractSelectedTerms | inc/class-cards-renderer.php:448-470 | The extracted labels contain no duplicate. |
| Renderer.ExtractSelectedTermsTabs | inc/class-cards-renderer.php:451-458 | In tabs mode a label is extracted exactly when some card of some tab carries it and it is non-empty. |
| Renderer.HyphenateKeepsLetters | inc/class-cards-renderer.php:762 | Inserting hyphens at camel-case boundaries adds nothing but hyphens. |
| Renderer.HyphenateLength | inc/class-cards-renderer.php:762 | Exactly one hyphen is added per lower-to-upper boundary. |
| Renderer.OptionClass | inc/class-cards-renderer.php:762 | An option's class has no upper-case letter. |
| Renderer.OptionClasses | inc/class-cards-renderer.php:757-768 | A class is produced exactly for each truthy option, hyphenated and lower-cased, and never more classes than options. |
| Renderer.PhpMod | inc/class-cards-renderer.php:782-786 | PHP's `%` agrees with the mathematical remainder on non-negative numbers and always lies strictly between -b and b. |
| Renderer.OrdinalSuffixSpec | inc/class-cards-renderer.php:776-799 | On non-negative ranks the suffix follows the English rule ("th" in the teens, otherwise by the last digit) and repeats every hundred; a negative rank always gets "th". |
| Renderer.RankedPlaceShape | inc/class-cards-renderer.php:776-802 | A non-numeric rank gives the empty string; a numeric one gives text starting "Ranked ". |
| Endpoint.PrepareCardOptions | inc/rest/class-rmg-premium-listings-cards-endpoint.php:339-346 | The card options are exactly the four display switches, in order, each a boolean. |
| Endpoint.CardOptionsDefaults | inc/rest/class-rmg-premium-listings-cards-endpoint.php:339-346 | A missing switch defaults to false for the background and true for the other three; a boolean is kept. |
| Endpoint.PrepareContext | inc/rest/class-rmg-premium-listings-cards-endpoint.php:354-360 | The context has exactly post ID, post type and the location flag. The post ID is the `absint` of the given one, or 0 when missing. A given post-type string is kept, and a missing one gives "". The flag is the truth value of the given entry, so a missing one gives false. |
| Endpoint.PrepareContextDrops | inc/rest/class-rmg-premium-listings-cards-endpoint.php:354-360 | Every other context key, such as state, city or page type, is dropped. |
| Endpoint.Clamp | inc/rest/class-rmg-premium-listings-cards-endpoint.php:375 | The clamped value lies in the range and equals the input when the input already does. |
| Endpoint.PrepareHeadline | inc/rest/class-rmg-premium-listings-cards-endpoint.php:368-377 | The headline has exactly show, text, alignment and tag, and the tag is an integer from 1 to 6. |
| Endpoint.PrepareHeadlineValues | inc/rest/class-rmg-premium-listings-cards-endpoint.php:368-377 | The alignment is a listed one or `true` (the loose `in_array` lets `true` through); a string outside the list becomes "left"; an in-range tag is kept and a missing one is 2. |
| Endpoint.TextValues | inc/rest/class-rmg-premium-listings-cards-endpoint.php:398 | Each term keeps its key and becomes its string value. |
| Endpoint.PrepareGroups | inc/rest/class-rmg-premium-listings-cards-endpoint.php:385-403 | The prepared terms have exactly the listed groups, in order, each prepared from the given group. |
| Endpoint.PreparedGroup | inc/rest/class-rmg-premium-listings-cards-endpoint.php:397-399 | A non-array group becomes empty; an array keeps its keys with every value turned into a string. |
| Endpoint.SanitizeHtmlClass | inc/rest/class-rmg-premium-listings-cards-endpoint.php:297 | A sanitised class holds only letters, digits, `_` and `-`. A valid class comes back unchanged, and text without `%` keeps exactly its class characters. |
| Endpoint.KeepClassCharsAppend | inc/rest/class-rmg-premium-listings-cards-endpoint.php:297 | Keeping the class characters distributes over concatenation, so they keep their order. |
| Endpoint.SanitizeHtmlClassIdempotent | inc/rest/class-rmg-premium-listings-cards-endpoint.php:297 | Sanitising a sanitised class changes nothing. |
| Endpoint.HtmlClasses | inc/rest/class-rmg-premium-listings-cards-endpoint.php:297 | Each wrapper class is sanitised in place, keeping its key. |
| Endpoint.AbsInts | inc/rest/class-rmg-premium-listings-cards-endpoint.php:296 | Each value becomes its `absint`, keeping its key. |
| Endpoint.PrepareWrapperAttributes | inc/rest/class-rmg-premium-listings-cards-endpoint.php:411-425 | Every kept attribute key is non-empty and already a sanitised key. A key is present exactly when it is non-empty and some attribute's key sanitises to it. Its value is the text of the last such attribute. |
| Endpoint.LastAttrAt | inc/rest/class-rmg-premium-listings-cards-endpoint.php:417-422 | When no later attribute sanitises to the same key, an attribute's value is the one that key keeps. |
| Endpoint.PrepareWrapperAttributesKeeps | inc/rest/class-rmg-premium-listings-cards-endpoint.php:411-425 | An attribute whose key sanitises to a non-empty key is kept under that key as text, unless a later attribute takes the same key. |
| Endpoint.BaseArgs | inc/rest/class-rmg-premium-listings-cards-endpoint.php:283-313 | The entries always set are exactly the fifteen base keys, in order. |
| Endpoint.PutGiven | inc/rest/class-rmg-premium-listings-cards-endpoint.php:315-328 | An optional entry is set only when its parameter is non-empty, and no other entry changes. |
| Endpoint.PrepareArgsKeepsBase | inc/rest/class-rmg-premium-listings-cards-endpoint.php:283-331 | The optional entries never overwrite a base entry. |
| Endpoint.PrepareArgsCardCount | inc/rest/class-rmg-premium-listings-cards-endpoint.php:284-289 | In `prepare_args` taken alone, the card count the query reads is the absolute value of an integer given, else 8 for a slider and 3 otherwise. Over REST the schema has already filled in 3, so the 8 is not reached (see Endpoint.DispatchCardCount). |
| Endpoint.PrepareArgsContext | inc/rest/class-rmg-premium-listings-cards-endpoint.php:304 | The query sees no page type, state or city from a REST call. |
| Endpoint.PrepareArgsExcluded | inc/rest/class-rmg-premium-listings-cards-endpoint.php:296 | The excluded IDs the query reads are the `absint` of each given value, in order. |
| Endpoint.PrepareArgsLocation | inc/rest/class-rmg-premium-listings-cards-endpoint.php:315-318 | A location entry is present exactly when one was given, and it is the normalised location. |
| Endpoint.RequestArgsLocation | inc/rest/class-rmg-premium-listings-cards-endpoint.php:53-60 | With `fetch_location` the header location replaces the given one before normalising. |
| Endpoint.TabCardCountIds | inc/rest/class-rmg-premium-listings-cards-endpoint.php:69-76 | Summing the tab lengths counts exactly the IDs flattened across the tabs. |
| Endpoint.CountCardsIsCards | inc/rest/class-rmg-premium-listings-cards-endpoint.php:68-81 | On unwrapped data the count is the number of cards, flat or summed over tabs, and it is 0 exactly when there are no cards. |
| Endpoint.QueryCardCountAsWrittenIsTwo | inc/rest/class-rmg-premium-listings-cards-endpoint.php:64-81 | As written, a fresh REST list outside tabs mode counts as 2 cards, however many it holds; the corrected count is the number of cards. |
| Endpoint.QueryCardCountCountsCards | inc/rest/class-rmg-premium-listings-cards-endpoint.php:68-81 | Corrected: the count is the number of cards, wrapped or not, and it equals the as-written count on unwrapped data. |
| Endpoint.ExtractDisplayedIds | inc/rest/class-rmg-premium-listings-cards-endpoint.php:451-472 | The extracted IDs are duplicate-free and never 0. |
| Endpoint.ExtractDisplayedIdsRegistered | inc/rest/class-rmg-premium-listings-cards-endpoint.php:451-472 | On unwrapped data, the IDs extracted are exactly the non-zero IDs the query registered. |
| Endpoint.QueryDisplayedIdsAsWrittenLosesIds | inc/rest/class-rmg-premium-listings-cards-endpoint.php:153 | As written, a fresh REST list outside tabs mode yields no IDs even though its cards have some; the corrected extraction finds them. |
| Endpoint.QueryDisplayedIdsRegistered | inc/rest/class-rmg-premium-listings-cards-endpoint.php:451-472 | Corrected: the IDs from the query are exactly the non-zero registered IDs, and they equal the as-written result on unwrapped data. |
| Endpoint.ActiveGroups | inc/rest/class-rmg-premium-listings-cards-endpoint.php:129-133 | The active groups are exactly the groups whose terms are truthy. |
| Endpoint.ShortfallSpec | inc/rest/class-rmg-premium-listings-cards-endpoint.php:117-150 | A shortfall warning appears exactly when fewer cards were rendered than requested, and it comes first; "no cards from query" appears exactly when, in addition, the query counted none. |
| Endpoint.PageWarningsSpec | inc/rest/class-rmg-premium-listings-cards-endpoint.php:160-165 | "Empty HTML" appears exactly when the HTML is empty, and "no card elements" exactly when it is non-empty without card markers. |
| Endpoint.WarningsSpec | inc/rest/class-rmg-premium-listings-cards-endpoint.php:117-165 | The combined warnings have each of these properties, and a fully rendered, non-empty page has no warning at all. |
| Endpoint.GetListingCardsMeta | inc/rest/class-rmg-premium-listings-cards-endpoint.php:39-165 | The response reports the requested card count and the cards rendered, and warns of a shortfall exactly when fewer were rendered than requested. The query count is the number of result cards for a cached result and under the corrected revision; as written, a fresh REST result outside tabs mode reports 2. |
| Endpoint.GetListingCardsMiscount | inc/rest/class-rmg-premium-listings-cards-endpoint.php:39-81 | End to end, as written: a REST request outside tabs mode that misses the cache and finds cards reports 2 cards from the query, while its data holds as many cards as the search returned. |
| Endpoint.WithDefaults | inc/rest/class-rmg-premium-listings-cards-endpoint.php:507-588 | A parameter the request gives is kept, and one it leaves out takes the default of its schema entry. |
| Endpoint.SchemaInteger | inc/rest/class-rmg-premium-listings-cards-endpoint.php:514-519 | An integer is accepted as itself, a non-numeric value (`null`, booleans and arrays included) is refused, and an accepted value is its `(int)` value. |
| Endpoint.SchemaIntegerSixPointZero | inc/rest/class-rmg-premium-listings-cards-endpoint.php:514-519 | The text "6.0" is accepted as the integer 6. |
| Endpoint.SchemaIntegerOneEOne | inc/rest/class-rmg-premium-listings-cards-endpoint.php:514-519 | The text "1e1" is accepted as the integer 10. |
| Endpoint.SchemaIntegerFraction | inc/rest/class-rmg-premium-listings-cards-endpoint.php:514-519 | The number 2.5 is refused as an integer. |
| Endpoint.DefaultAccepted | inc/rest/class-rmg-premium-listings-cards-endpoint.php:507-588 | The default of `action_type`, `card_count` and `layout` is each one the schema accepts. |
| Endpoint.RefusedWithDefaults | inc/rest/class-rmg-premium-listings-cards-endpoint.php:507-588 | Filling in the defaults refuses exactly the checked parameters the request itself gives a refused value. |
| Endpoint.RefusedParams | inc/rest/class-rmg-premium-listings-cards-endpoint.php:507-588 | The reported parameters are exactly those given a value the schema refuses. |
| Endpoint.RouteParams | inc/rest/class-rmg-premium-listings-cards-endpoint.php:507-588 | The callback's parameters exist exactly when no checked parameter is refused; otherwise every refused one is reported. Accepted parameters keep each given value, fill in each default, and carry `card_count` as an integer in 1..60. |
| Endpoint.Dispatch | inc/rest/class-rmg-premium-listings-cards-endpoint.php:20-31 | A request is answered exactly when no checked parameter is refused. Otherwise it gets status 400 naming exactly the refused parameters, and the cache is untouched. |
| Endpoint.RequestArgsCardCount | inc/rest/class-rmg-premium-listings-cards-endpoint.php:284-289 | A non-negative integer `card_count` parameter is the card count the query reads. |
| Endpoint.RoutedCardCount | inc/rest/class-rmg-premium-listings-cards-endpoint.php:514-519 | For accepted parameters the query reads a card count in 1..60: the request's integer, or 3 when it gives none, whatever the layout. |
| Endpoint.DispatchCardCount | inc/rest/class-rmg-premium-listings-cards-endpoint.php:514-519 | An answered request reports a card count in 1..60, equal to the request's integer or else 3, so the slider default of 8 is never reached over REST. |
| Embed.Trim | inc/class-embed.php:117 | The result is an infix `s[i..j]` of the input, where `s[..i]` and `s[j..]` are all trim characters and the result neither starts nor ends with one. So exactly the leading and trailing trim characters are removed. |
| Embed.TrimTrimmed | inc/class-embed.php:117 | Trimming an already trimmed string changes nothing. |
| Embed.SanitizeCssColorSpec | inc/class-embed.php:116-136 | A colour survives, trimmed, exactly when it is a hex colour of 3, 4, 6 or 8 digits or a `linear-gradient(...)`; anything else, including empty input, becomes "". |
| Embed.SanitizeCssColorIdempotent | inc/class-embed.php:116-136 | Sanitising a sanitised colour changes nothing. |
| Embed.DefaultConfig | inc/class-embed.php:167-195 | The default configuration has exactly the eight block settings, in order. |
| Embed.MergeOverSpec | inc/class-embed.php:159 | Merging a decoded configuration over the defaults keeps every default key, takes each given value, and keeps the default elsewhere. |
| Embed.DecodeConfigSpec | inc/class-embed.php:144-160 | An empty parameter or an undecodable one gives the defaults; a decoded array overrides the defaults key by key. |
| Embed.ValidateConfigSpec | inc/class-embed.php:322-359 | A configuration is returned unchanged exactly when layout, action type and headline are valid; otherwise every broken rule, and only those, is reported. |
| Embed.DefaultConfigValid | inc/class-embed.php:167-195 | The default configuration passes validation. |
| Embed.EmbedContext | inc/class-embed.php:269-280 | The embed context has exactly its listed keys, in order. |
| Embed.BuildRenderArgs | inc/class-embed.php:282-302 | The render arguments have exactly their listed keys, in order. |
| Embed.BuildRenderArgsSpec | inc/class-embed.php:254-303 | An embed shows 8 cards for a slider and 3 otherwise, requires location data exactly when neither state nor city is given, and passes the derived page type. |
| Embed.EmbedPageTypeSpec | inc/class-embed.php:259-264 | The page type is "city" when a city is given, else "state" when a state is given, else "home". |
| Embed.EmbedPlaceholderIffHome | inc/class-embed.php:259-267 | An embed renders the location placeholder instead of querying exactly when its page type is "home", that is, when neither state nor city is given. |
| Embed.EmbedPageTypeReachesQuery | inc/class-embed.php:259-264 | An embed with a state or a city passes the placeholder gate, and the query's page type is the embed's derived one, "state" or "city". |
| Phone.Digits | inc/class-helpers.php:128 | The digit string holds only digits and is never longer than the input. |
| Phone.DigitsAppend | inc/class-helpers.php:128 | The digits of a concatenation are the concatenated digits. |
| Phone.FormatPhoneKeepsDigits | inc/class-helpers.php:126-154 | Formatting never adds, drops or reorders a digit. |
| Phone.FormatPhoneLayout | inc/class-helpers.php:131-153 | Ten digits become "(ddd) ddd-dddd", eleven become "d (ddd) ddd-dddd", and any other count returns the input unchanged. |
| Phone.FormatPhoneIdempotent | inc/class-helpers.php:126-154 | Formatting a formatted number changes nothing. |
| Assets.BuildSuffix | inc/class-asset-manager.php:158 | The suffix found is a build suffix the name ends with; when none is found, the name ends with none of them. |
| Assets.StripBuildSuffix | inc/class-asset-manager.php:158 | A name without a build suffix is unchanged. Otherwise the result followed by the suffix found is the name. |
| Assets.FirstSegment | inc/class-asset-manager.php:161 | The first segment is a prefix without `-` that stops at the first `-`. |
| Assets.ExtractBaseNameSpec | inc/class-asset-manager.php:156-168 | One build suffix is removed, and the name is cut to its first `-` segment exactly when that segment is a context key. |
| Assets.SuffixesEndAlike | inc/class-asset-manager.php:158 | A name ends with at most one of the build suffixes. |
| Assets.ExactKeyIsPrefixRule | inc/class-asset-manager.php:176-190 | The exact-key lookup never decides anything the prefix rule would not. |
| Assets.LoadingContexts | inc/class-asset-manager.php:176-190 | A file loads in the editor unless its name starts with "view", on the front end for "view" or for names starting with neither "editor" nor "admin", and in the admin only for "admin". |
| Assets.ContextsOfStrippedName | inc/class-asset-manager.php:142-168 | Cutting the name to its first segment never changes where the file loads. |
| Assets.EnqueueSingleSpec | inc/class-asset-manager.php:199-264 | A script without an asset file is skipped and a stylesheet never is; the handle names the context and file; a missing asset file gives no dependencies at the plugin version; jQuery is appended for the `admin` script only; only scripts get the footer flag. |
| Assets.EnqueueByTypeMember | inc/class-asset-manager.php:115-133 | A file is enqueued exactly when it loads in the current context and, for a script, its asset file exists. |
| TaxonomyDropdown.GroupKeys | src/components/taxonomy-dropdown/index.js:34-65 | One key per group, in order. |
| TaxonomyDropdown.GroupKeysDistinct | src/components/taxonomy-dropdown/index.js:34-65 | The six group keys are distinct. |
| TaxonomyDropdown.AggregationKey | src/components/taxonomy-dropdown/index.js:75-77 | An aggregation key contains no `.`, `[` or `]` and is never longer than its field. |
| TaxonomyDropdown.AggregationKeyOfPlain | src/components/taxonomy-dropdown/index.js:75-77 | A field without dots or brackets is its own aggregation key. |
| TaxonomyDropdown.AggregationKeyIdempotent | src/components/taxonomy-dropdown/index.js:75-77 | Deriving the key twice changes nothing. |
| TaxonomyDropdown.AggregationKeyPositions | src/components/taxonomy-dropdown/index.js:75-77 | Without brackets the key has the field's length and differs only where the field has a dot, which becomes `_`. |
| TaxonomyDropdown.Without | src/components/taxonomy-dropdown/index.js:268-270 | Filtering removes exactly the occurrences of the term. |
| TaxonomyDropdown.WithoutMultiset | src/components/taxonomy-dropdown/index.js:268-270 | Every other value keeps its number of occurrences, and the term has none left. |
| TaxonomyDropdown.WithoutAppend | src/components/taxonomy-dropdown/index.js:268-270 | Filtering distributes over concatenation, so the kept values stay in their order. |
| TaxonomyDropdown.OnlySelection | src/components/taxonomy-dropdown/index.js:282-287 | Single-select gives every group an empty list except the chosen one, which holds just the term. |
| TaxonomyDropdown.HandleSelectionMulti | src/components/taxonomy-dropdown/index.js:258-279 | Multi-select changes only the target group. For a selected term, the group becomes the current list filtered of it, keeping order and multiplicity. Any other term is appended. |
| TaxonomyDropdown.ToggleTwice | src/components/taxonomy-dropdown/index.js:258-279 | Toggling an unselected term twice restores its group. |
| TaxonomyDropdown.HandleSelectionSingle | src/components/taxonomy-dropdown/index.js:280-288 | Single-select gives exactly the six groups, the chosen one holding just the term. |
| TaxonomyDropdown.TotalCountsTwo | src/components/taxonomy-dropdown/index.js:210-220 | The selections of two different keys are both counted in the total. |
| TaxonomyDropdown.GetDisplayTextSpec | src/components/taxonomy-dropdown/index.js:208-246 | No selection shows the placeholder; one selected term shows "Group: label", or the raw value when the term is not loaded; more show "N options selected". |
| TaxonomyDropdown.SingleTextFinds | src/components/taxonomy-dropdown/index.js:226-240 | With one selection, the first group that has it names the group and the term. |
| TaxonomyDropdown.SingleOutsideGroups | src/components/taxonomy-dropdown/index.js:226-245 | One selection under a key that is not a group falls through to "1 options selected". |
| ListingView.MarkTabsSelects | src/listing-cards/view.js:247-253 | After selecting a tab, it is the only selected tab (active, `aria-selected`, tabindex -1) and every other tab is unselected. |
| ListingView.ShowPanelsVisibility | src/listing-cards/view.js:256-262 | A panel is visible, neither hidden nor aria-hidden, exactly when its id is the selected tab's `aria-controls`. |
| ListingView.LastSelectionWins | src/listing-cards/view.js:245-253 | Tab states after a selection do not depend on any earlier selection. |
| ListingView.LastShowWins | src/listing-cards/view.js:255-262 | Panel states after a selection do not depend on any earlier selection. |
| ListingView.AtMostOnePanelVisible | src/listing-cards/view.js:256-262 | With distinct panel ids, at most one panel is visible after a selection. |
| ListingView.SelectTab | src/listing-cards/view.js:245-262 | The two loops leave exactly the selected states, and only the chosen tab is active. |
| ListingView.InitSpec | src/listing-cards/view.js:223-238 | With no tabs nothing changes; otherwise the first tab is selected. |
| ListingView.KeyTarget | src/listing-cards/view.js:317-327 | Exactly the two arrows, Home and End move, always to an existing tab. |
| ListingView.KeyTargetRotates | src/listing-cards/view.js:318-322 | Right moves to the next tab and left to the previous one, wrapping around. |
| ListingView.ArrowsInverse | src/listing-cards/view.js:318-322 | ArrowRight and ArrowLeft undo each other. |
| ListingView.HandleKeyNavSpec | src/listing-cards/view.js:313-333 | Other keys change nothing; Home selects the first tab, End the last, and an arrow selects its target. |
| ListingView.InitSliderSpec | src/listing-cards/view.js:95-130 | An initialised track is refused; otherwise a slider that constructs is marked and registered under a non-empty panel id, and a failing one leaves everything as it was. |
| ListingView.InitSliderOnce | src/listing-cards/view.js:96-98 | A second initialisation of the same track is refused and changes nothing. |
| ListingView.ExtendExclusionsSpec | src/listing-cards/view.js:357-367 | A placeholder that excludes displayed listings gets the accumulated IDs added to its own, without duplicates; otherwise nothing changes. |
| ListingView.AccumulateSpec | src/listing-cards/view.js:393-403 | A response's displayed IDs are appended to the accumulated ones, without duplicates. |
| ListingView.LoadAccumulates | src/listing-cards/view.js:341-403 | The accumulated IDs are duplicate-free and exactly the IDs earlier responses reported as displayed. |
| ListingView.LoadExcludesEarlier | src/listing-cards/view.js:341-403 | Every placeholder that excludes displayed listings sends every ID an earlier response reported, and every request asks for the visitor's location. |
| ListingView.LoadLocationBasedListings | src/listing-cards/view.js:341-410 | The sequential loop reaches one outcome per placeholder, hides those whose arguments do not parse, and keeps the accumulated IDs duplicate-free. |
| Common.Dedup | inc/es/class-cards-registry.php:94-99 | `array_unique` gives a duplicate-free list holding exactly the input's values. |
| Common.DedupOrder | inc/es/class-cards-registry.php:94-99 | The kept values are in the order of their first occurrence. |
| PhpValue.StrToIntOfIntToString | inc/rest/class-rmg-premium-listings-cards-endpoint.php:289 | Reading back the decimal text of an integer gives the integer. |
| PhpValue.NumericPrefixOfIntToString | inc/class-embed.php:349 | The decimal text of every integer is a numeric string whose value is that integer. |
| PhpValue.NumericSixPointZero | inc/class-embed.php:349 | "6.0" is a numeric string of value 6. |
| PhpValue.NumericOneEOne | inc/class-embed.php:349 | "1e1" is a numeric string of value 10, and its integer cast is 10. |
| PhpValue.NumericTrailingText | inc/es/class-es-utils.php:56-58 | "12abc" starts with the number 12 but is not numeric. |
| PhpValue.LeadingSpaceThree | inc/class-embed.php:349 | Leading white space is skipped: " 3" is numeric with value 3. |
| PhpValue.NumericLetters | inc/class-embed.php:349 | "abc" does not start with a number. |
| PhpValue.NumericNone | inc/es/class-es-utils.php:56-58 | A lone point or the empty string is no number, and "abc" casts to 0. |
| Embed.TagStringExamples | inc/class-embed.php:349 | Under PHP 8 comparison the headline tag "6.0" and " 3" are in range, while "1e1", "0" and "abc" are out of range. |

## Left out

- Hooks, filters and actions are left out. This covers `rmg_premium_listings_render_args`, the interval filter's name, `add_action` wiring and the `register_rest_route` call itself. The route's argument schema is modelled by Endpoint.RouteParams.
- HTML rendering is left out: templates, SVG icons, the placeholder markup and `wp_localize_script`. The endpoint's rendered HTML enters the model only as "empty or not" and a number of card markers.
- `extract_ids_from_html` is left out. Its output goes only into debug notes.
- Debug notes, `error_log` output and the `WP_DEBUG` branches are left out.
- The outside calls named above are parameters, and nothing is assumed about them beyond what `LogLike` states for `lg`. These are `md5`, `sanitize_title`, `log10`, address parsing, JSON and base64 coding, the Elasticsearch transport, `file_exists`/`require` of asset files, `uniqid`, `time`, `wp_rand`, the request headers and the browser's `fetch`.
- `encode_config` is left out, because JSON and base64 encoding are not modelled. The decoding side takes the decoder as a parameter.
- `sanitize_text_field` is treated as the identity on strings. Its HTML-stripping rules are not modelled.
- Floating point is left out: the latitude and longitude values, `slides_to_show` and ratings. The pacing multiplier is computed exactly, on rationals, by cross-multiplication.
- Exceptions are not modelled. `init` returns `[]` on any exception.
- Arguments of the wrong PHP type reaching `init` directly are left out. `init` assumes `card_count` and the like are integers or missing.
- Endpoint.RouteParams: only `card_count`, `action_type` and `layout` are validated. The type checks and coercions of the other schema entries (such as "false" becoming `false` for a boolean) are not modelled, and neither is the 500 response when the renderer class is missing.
- Orchestrator.KeyOf: the key is a record of its parts, not the md5 of their JSON. `array_merge` lets the request URI, seed, location, state, city and page type overwrite arguments of the same names. The model keeps those arguments and the computed parts side by side, so two calls that differ only in such an argument get different keys here but the same key in the plugin.
- Orchestrator.KeyOf: under a bypass or a zero interval the plugin draws `wp_rand` separately for the cache key and for the sort. The model draws once and uses the same number for both.
- PhpValue.NumericPrefix: numbers are exact rationals. Float rounding, `INF`, and integer strings beyond 64 bits (which PHP reads as floats) are not modelled.
- Pacing.StoredScore: returns the score only. The `update_post_meta` write and its boolean result are not modelled.
- Registry.Register: the `intval` cast of the IDs is not modelled, because callers pass integers already.
- PHP array keys after `array_unique`, and the renumbering done by `array_merge`, are left out. Lists are modelled as sequences of values.
- QueryBuilder.LocationData: `get_taxonomy_location_data` and the queried object are parameters. The term-meta lookups behind them are not modelled.
- Renderer.RankedPlaceShape: ranks are integers. Non-integer numeric strings such as "2.5" are not modelled.
- TaxonomyDropdown.GetDisplayTextSpec: a selection entry that is truthy but not an array is counted as 0. Its `length` is not read. JavaScript prototype keys are ignored.
- The term fetch of the taxonomy dropdown is left out, because it is a network call. So are its loading and error states and the dropdown's rendering.
- DOM events, focus, smooth scrolling, the impression tracker, timers and slider recalculation in the listing view are left out.
- The listing view's `tabindex` values are modelled as the code sets them: the active tab gets "-1" and the inactive ones "0", the reverse of the usual roving-tabindex pattern. Which one was intended cannot be decided from the code, so this is not listed as a finding.
- The endpoint's `init` is called twice for one REST request, once directly and once inside the renderer. Only the first call's state change is modelled.

## Findings

| source | as written | input that shows it | evidently intended | confidence | as-written member | corrected member |
|---|---|---|---|---|---|---|
| inc/es/class-es-query.php:882-892 | The seed divides the time by the interval, where the interval is itself `floor(time / 900)`. The seed is therefore `floor(t / floor(t / 900))`, which is 900 for every timestamp from 810000 on. | t = 1700000000 and t = 1700000900 give the same seed, 900. | The seed is the number of the 15-minute window: `floor(t / 900)`. | not executed | QueryBuilder.SeedAsWrittenIsConstant | QueryBuilder.SeedWindows |
| inc/es/class-es-query.php:451 | The flat query adds the term filter only for action type "filtered". | The block, the REST schema and the embed validator only accept "none", "filter" and "tabs". | The filter applies for "filter". | not executed | Orchestrator.TermFilterAsWrittenNeverApplies | Orchestrator.UsesTermFilter |
| inc/rest/class-rmg-premium-listings-cards-endpoint.php:64-81 | The card count of the query reads `init`'s REST result as if it were the card list. Outside tabs mode, that result `{cards, displayed_ids}` has two entries. | Action type "none" with five fresh cards is counted as 2. | The count is the number of cards in `cards`. | not executed | Endpoint.QueryCardCountAsWrittenIsTwo | Endpoint.QueryCardCountCountsCards |
| inc/rest/class-rmg-premium-listings-cards-endpoint.php:153 | `extract_displayed_ids` is applied to the REST result `{cards, displayed_ids}`, whose entries have no `id` column. | Action type "none" with a card of ID 42 extracts no IDs. | The IDs are extracted from `cards`. | not executed | Endpoint.QueryDisplayedIdsAsWrittenLosesIds | Endpoint.QueryDisplayedIdsRegistered |

The pipeline runs in one of two revisions, `Common.Revision`, chosen by the `revision` field of `Orchestrator.Env`. `AsWritten` is the plugin's behaviour: `Orchestrator.KeyOf` and `Orchestrator.ParamsOf` use `QueryBuilder.SeedAsWritten`, `Orchestrator.FlatQuery` uses `Orchestrator.UsesTermFilterAsWritten`, and `Endpoint.GetListingCards` reports `Endpoint.QueryCardCountAsWritten`. `Corrected` uses `QueryBuilder.Seed`, `Orchestrator.UsesTermFilter` and `Endpoint.QueryCardCount` in their place. The contracts of these members state what each revision does. The response's `displayed_ids` come from the rendered HTML, so the fourth finding only affects the diagnostics.

=== FILE: assets.dfy ===
/**
 * The asset manager: which built CSS and JavaScript files load in which
 * context (front end, admin, block editor), and how each is enqueued.
 */
module Assets {
  import opened Common

  const CONTEXT_FRONTEND := "frontend"
  const CONTEXT_ADMIN := "admin"
  const CONTEXT_EDITOR := "editor"

  /** The plugin version, used when an asset file gives none. */
  const PLUGIN_VERSION := "1.0.0"

  const HANDLE_PREFIX := "rmg-premium-listings-"

  /** The loading contexts of each file-name key (the class's context table). */
  function FileContexts(k: string): Option<seq<string>> {
    if k == "view" then Some([CONTEXT_FRONTEND])
    else if k == "editor" then Some([CONTEXT_EDITOR])
    else if k == "admin" then Some([CONTEXT_ADMIN, CONTEXT_EDITOR])
    else if k == "index" then Some([CONTEXT_FRONTEND, CONTEXT_EDITOR])
    else None
  }

  /** The contexts of a file no key matches. */
  const DEFAULT_CONTEXTS: seq<string> := [CONTEXT_FRONTEND, CONTEXT_EDITOR]

  /** The build suffixes stripped before matching. */
  const BUILD_SUFFIXES: seq<string> := [".min", ".bundle", ".dist", ".prod", ".dev"]

  datatype AssetType = Css | Js

  /** What an asset type is enqueued with. */
  datatype TypeConfig = TypeConfig(extension: string, requireAssetFile: bool, inFooter: bool)

  function ConfigOf(t: AssetType): TypeConfig {
    match t
    case Css => TypeConfig(".css", false, false)
    case Js => TypeConfig(".js", true, true)
  }

  predicate IsContextKey(k: string) {
    FileContexts(k).Some?
  }

  predicate IsPrefix(p: string, s: string) {
    |p| <= |s| && s[..|p|] == p
  }

  predicate EndsWith(s: string, suffix: string) {
    |suffix| <= |s| && s[|s| - |suffix|..] == suffix
  }

  // ---------------------------------------------------------------------------
  // Base names

  /** The first build suffix `name` ends with, if any. */
  function BuildSuffix(name: string, suffixes: seq<string>): (r: Option<string>)
    ensures r.Some? ==> r.value in suffixes && EndsWith(name, r.value)
    ensures r.None? ==> forall x :: x in suffixes ==> !EndsWith(name, x)
  {
    if |suffixes| == 0 then None
    else if EndsWith(name, suffixes[0]) then Some(suffixes[0])
    else BuildSuffix(name, suffixes[1..])
  }

  /** The name without a trailing `.min`, `.bundle`, `.dist`, `.prod` or `.dev`. */
  function StripBuildSuffix(name: string): (r: string)
    ensures |r| <= |name| && IsPrefix(r, name)
    ensures BuildSuffix(name, BUILD_SUFFIXES).None? ==> r == name
    ensures BuildSuffix(name, BUILD_SUFFIXES).Some? ==> r + BuildSuffix(name, BUILD_SUFFIXES).value == name
  {
    match BuildSuffix(name, BUILD_SUFFIXES)
    case None => name
    case Some(x) => name[..|name| - |x|]
  }

  /** The part of `s` before its first `-` (all of it without one), as `explode( '-', s )[0]`. */
  function FirstSegment(s: string): (p: string)
    ensures IsPrefix(p, s) && '-' !in p
    ensures |p| < |s| ==> s[|p|] == '-'
  {
    if |s| == 0 || s[0] == '-' then "" else [s[0]] + FirstSegment(s[1..])
  }

  /**
   * `extract_base_name`: the name without its build suffix, cut to its first
   * `-` segment when that segment is a context key.
   */
  function ExtractBaseName(filename: string): (base: string)
  {
    var stripped := StripBuildSuffix(filename);
    var first := FirstSegment(stripped);
    if IsContextKey(first) then first else stripped
  }

  /**
   * One build suffix is removed, and the name is cut to its first segment
   * exactly when that segment is a context key.
   */
  lemma ExtractBaseNameSpec(filename: string, stem: string, suffix: string)
    requires suffix in BUILD_SUFFIXES && filename == stem + suffix
    ensures StripBuildSuffix(filename) == stem
    ensures IsContextKey(FirstSegment(stem)) ==> ExtractBaseName(filename) == FirstSegment(stem)
    ensures !IsContextKey(FirstSegment(stem)) ==> ExtractBaseName(filename) == stem
  {
    var x := BuildSuffix(filename, BUILD_SUFFIXES);
    assert EndsWith(filename, suffix) by {
      assert filename[|filename| - |suffix|..] == suffix;
    }
    SuffixesEndAlike(filename, x.value, suffix);
  }

  /** Two build suffixes a name ends with are the same suffix. */
  lemma SuffixesEndAlike(name: string, x: string, y: string)
    requires x in BUILD_SUFFIXES && y in BUILD_SUFFIXES && EndsWith(name, x) && EndsWith(name, y)
    ensures x == y
  {
    var c := name[|name| - 1];
    assert x[|x| - 1] == c;
    assert y[|y| - 1] == c;
  }

  // ---------------------------------------------------------------------------
  // Contexts

  /**
   * The contexts of the first key, in the table's order view, editor,
   * admin, index, that starts `base`; front end and editor when none does.
   */
  function PrefixContexts(base: string): (cs: seq<string>)
  {
    if IsPrefix("view", base) then [CONTEXT_FRONTEND]
    else if IsPrefix("editor", base) then [CONTEXT_EDITOR]
    else if IsPrefix("admin", base) then [CONTEXT_ADMIN, CONTEXT_EDITOR]
    else if IsPrefix("index", base) then [CONTEXT_FRONTEND, CONTEXT_EDITOR]
    else DEFAULT_CONTEXTS
  }

  /**
   * `get_file_contexts`: the contexts of the exact key, else of the first key
   * that starts the name, else front end and editor.
   */
  function GetFileContexts(base: string): (contexts: seq<string>)
  {
    match FileContexts(base)
    case Some(cs) => cs
    case None => PrefixContexts(base)
  }

  /**
   * The exact-key lookup never decides anything the prefix rule would not:
   * every key starts itself and no key starts an earlier one.
   */
  lemma ExactKeyIsPrefixRule(base: string)
    ensures GetFileContexts(base) == PrefixContexts(base)
  {
    if base == "view" {
      assert base[..4] == "view";
    } else if base == "editor" {
      assert base[..6] == "editor" && base[0] != 'v';
    } else if base == "admin" {
      assert base[..5] == "admin" && base[0] != 'v' && base[0] != 'e';
    } else if base == "index" {
      assert base[..5] == "index" && base[0] != 'v' && base[0] != 'e' && base[0] != 'a';
    }
  }

  /**
   * Where each file loads: in the editor unless its name starts with "view";
   * on the front end when it starts with "view", or with neither "editor"
   * nor "admin"; in the admin only when it starts with "admin" (and neither
   * earlier key).
   */
  lemma LoadingContexts(base: string)
    ensures var cs := GetFileContexts(base);
      && (CONTEXT_EDITOR in cs <==> !IsPrefix("view", base))
      && (CONTEXT_FRONTEND in cs <==> IsPrefix("view", base) || (!IsPrefix("editor", base) && !IsPrefix("admin", base)))
      && (CONTEXT_ADMIN in cs <==> !IsPrefix("view", base) && !IsPrefix("editor", base) && IsPrefix("admin", base))
      && forall c :: c in cs ==> c in {CONTEXT_FRONTEND, CONTEXT_ADMIN, CONTEXT_EDITOR}
  {
    ExactKeyIsPrefixRule(base);
  }

  /** `should_load_in_context`: the file's contexts include the current one. */
  predicate ShouldLoad(context: string, filename: string) {
    context in GetFileContexts(ExtractBaseName(filename))
  }

  /** A string without `-` starts `s` exactly when it starts the first segment of `s`. */
  lemma SegmentPrefix(s: string, q: string)
    requires '-' !in q
    ensures IsPrefix(q, s) <==> IsPrefix(q, FirstSegment(s))
  {
  }

  /**
   * Cutting a name to its first segment never changes its contexts, so a
   * file loads where its name without build suffix says.
   */
  lemma ContextsOfStrippedName(filename: string)
    ensures GetFileContexts(ExtractBaseName(filename)) == GetFileContexts(StripBuildSuffix(filename))
  {
    var stripped := StripBuildSuffix(filename);
    var first := FirstSegment(stripped);
    ExactKeyIsPrefixRule(first);
    ExactKeyIsPrefixRule(stripped);
    SegmentPrefix(stripped, "view");
    SegmentPrefix(stripped, "editor");
    SegmentPrefix(stripped, "admin");
    SegmentPrefix(stripped, "index");
  }

  // ---------------------------------------------------------------------------
  // Enqueuing

  /** What a built file's `.asset.php` returns. */
  datatype AssetData = AssetData(dependencies: seq<string>, version: Option<string>)

  /**
   * `get_asset_data`: the asset file's data when it exists; otherwise nothing
   * for a type that requires one, and no dependencies at the plugin version
   * for one that does not.
   */
  function GetAssetData(assetFile: Option<AssetData>, required: bool): (r: Option<AssetData>)
  {
    match assetFile
    case Some(d) => Some(d)
    case None => if required then None else Some(AssetData([], Some(PLUGIN_VERSION)))
  }

  /** An enqueue call: handle, dependencies, version and, for scripts, the footer flag. */
  datatype Enqueued = Enqueued(handle: string, file: string, dependencies: seq<string>, version: string, inFooter: Option<bool>)

  /** `basename( $file, $extension )` of a file name: the extension removed when it ends the name. */
  function WithoutExtension(name: string, extension: string): string {
    if EndsWith(name, extension) && |extension| < |name| then name[..|name| - |extension|] else name
  }

  function Handle(context: string, filename: string): string {
    HANDLE_PREFIX + context + "-" + filename
  }

  /**
   * `enqueue_single_asset`: nothing when required asset data is missing;
   * otherwise the context-specific handle, the asset's dependencies (plus
   * jQuery for the `admin` script), its version or the plugin's, and the
   * footer flag for scripts.
   */
  function EnqueueSingle(context: string, file: string, t: AssetType, assetFile: Option<AssetData>): (r: Option<Enqueued>)
  {
    var config := ConfigOf(t);
    var filename := WithoutExtension(file, config.extension);
    match GetAssetData(assetFile, config.requireAssetFile)
    case None => None
    case Some(data) =>
      var deps := if t == Js && filename == "admin" then data.dependencies + ["jquery"] else data.dependencies;
      Some(Enqueued(Handle(context, filename), file, deps, data.version.GetOr(PLUGIN_VERSION),
                    if t == Js && config.inFooter then Some(true) else None))
  }

  /**
   * A script without asset file is skipped, a stylesheet never is; the handle
   * names the context and the file; jQuery is added for the `admin` script
   * only, after the asset's own dependencies.
   */
  lemma EnqueueSingleSpec(context: string, file: string, t: AssetType, assetFile: Option<AssetData>)
    ensures var r := EnqueueSingle(context, file, t, assetFile);
      var filename := WithoutExtension(file, ConfigOf(t).extension);
      && (r.None? <==> t == Js && assetFile.None?)
      && (r.Some? ==> r.value.handle == HANDLE_PREFIX + context + "-" + filename)
      && (r.Some? && assetFile.None? ==> r.value.dependencies == [] && r.value.version == PLUGIN_VERSION)
      && (r.Some? && assetFile.Some? ==>
            && r.value.dependencies[..|assetFile.value.dependencies|] == assetFile.value.dependencies
            && ("jquery" in r.value.dependencies[|assetFile.value.dependencies|..] <==> t == Js && filename == "admin"))
      && (r.Some? ==> (r.value.inFooter.Some? <==> t == Js))
  {
  }

  /**
   * `enqueue_assets_by_type`: each file of one type that loads in the
   * context is enqueued, in the order of `files`, which the caller gives in
   * the sorted order `glob` returns. `assetFiles` answers whether a
   * file has an `.asset.php` beside it and what it returns.
   */
  function EnqueueByType(context: string, t: AssetType, files: seq<string>, assetFiles: string -> Option<AssetData>)
    : (r: seq<Enqueued>)
  {
    if |files| == 0 then []
    else
      var f := files[0];
      var here :=
        if ShouldLoad(context, WithoutExtension(f, ConfigOf(t).extension)) then
          match EnqueueSingle(context, f, t, assetFiles(WithoutExtension(f, ConfigOf(t).extension)))
          case Some(e) => [e]
          case None => []
        else [];
      here + EnqueueByType(context, t, files[1..], assetFiles)
  }

  /**
   * A file is enqueued exactly when it loads in the context and its asset
   * data is not missing where required.
   */
  lemma {:induction false} EnqueueByTypeMember(context: string, t: AssetType, files: seq<string>,
                                               assetFiles: string -> Option<AssetData>, f: string)
    ensures var name := WithoutExtension(f, ConfigOf(t).extension);
      (exists e :: e in EnqueueByType(context, t, files, assetFiles) && e.file == f) <==>
        f in files && ShouldLoad(context, name) && !(t == Js && assetFiles(name).None?)
  {
    if |files| > 0 {
      EnqueueByTypeMember(context, t, files[1..], assetFiles, f);
      var g := files[0];
      var gname := WithoutExtension(g, ConfigOf(t).extension);
      EnqueueSingleSpec(context, g, t, assetFiles(gname));
      var r := EnqueueByType(context, t, files, assetFiles);
      var rest := EnqueueByType(context, t, files[1..], assetFiles);
      var name := WithoutExtension(f, ConfigOf(t).extension);
      if f == g && ShouldLoad(context, name) && !(t == Js && assetFiles(name).None?) {
        var e := EnqueueSingle(context, g, t, assetFiles(gname)).value;
        assert r[0] == e && e.file == f;
      }
      assert forall e :: e in rest ==> e in r;
      if exists e :: e in r && e.file == f {
        var e :| e in r && e.file == f;
        if e !in rest {
          assert ShouldLoad(context, gname) && EnqueueSingle(context, g, t, assetFiles(gname)) == Some(e);
        }
      }
    }
  }
}

=== FILE: common.dfy ===
/**
 * Small sequence, string and ordered-map helpers shared by every component:
 * the optional value, PHP's `array_unique` / JavaScript's `new Set` (keep the
 * first occurrence), `array_slice($a, 0, $n)`, PHP arrays with string keys as
 * ordered association lists, ASCII case mapping and integer formatting.
 */
module Common {

  datatype Option<+T> = None | Some(value: T) {
    function GetOr(default: T): T {
      match this
      case Some(v) => v
      case None => default
    }
  }

  /**
   * Which code runs where the plugin's code and its evident intent part ways
   * (the random seed, the flat term filter, the REST card count): the code
   * as written, or the corrected version.
   */
  datatype Revision = AsWritten | Corrected

  /** PHP's `empty()` on a string: true for "" and "0". */
  predicate PhpEmptyString(s: string) {
    s == "" || s == "0"
  }

  // ---------------------------------------------------------------------------
  // Duplicate-free sequences

  predicate NoDup<T(==)>(s: seq<T>) {
    forall i, j :: 0 <= i < j < |s| ==> s[i] != s[j]
  }

  /** Position of the first occurrence of `x` in `s`. */
  function FirstIndex<T(==)>(s: seq<T>, x: T): (i: nat)
    requires x in s
    ensures i < |s| && s[i] == x && x !in s[..i]
  {
    if s[0] == x then 0
    else
      var j := FirstIndex(s[1..], x);
      assert s[..j + 1] == [s[0]] + s[1..][..j];
      1 + j
  }

  /** The first occurrence of `x` is the only position `i` with `s[i] == x` and no `x` before it. */
  lemma {:induction false} FirstIndexUnique<T>(s: seq<T>, x: T, i: nat)
    requires i < |s| && s[i] == x && x !in s[..i]
    ensures FirstIndex(s, x) == i
  {
    if s[0] != x {
      assert s[1..][..i - 1] == s[..i][1..];
      FirstIndexUnique(s[1..], x, i - 1);
    }
  }

  /**
   * Duplicate removal keeping first occurrences, in first-occurrence order:
   * PHP's `array_unique` (after `array_values`) and JavaScript's `[...new Set(s)]`.
   */
  function Dedup<T(==)>(s: seq<T>): (r: seq<T>)
    ensures NoDup(r)
    ensures forall i :: 0 <= i < |r| ==> r[i] in s
    ensures forall i :: 0 <= i < |s| ==> s[i] in r
  {
    if |s| == 0 then []
    else
      var p := Dedup(s[..|s| - 1]);
      if s[|s| - 1] in p then p else p + [s[|s| - 1]]
  }

  /** `Dedup` keeps exactly the values of its input. */
  lemma DedupMembers<T>(s: seq<T>)
    ensures forall x :: x in Dedup(s) <==> x in s
  {
    forall x | x in s
      ensures x in Dedup(s)
    {
      var i :| 0 <= i < |s| && s[i] == x;
    }
  }

  /** `Dedup` lists the kept values in the order of their first occurrence in the input. */
  lemma {:induction false} DedupOrder<T>(s: seq<T>)
    ensures forall i, j :: 0 <= i < j < |Dedup(s)| ==> FirstIndex(s, Dedup(s)[i]) < FirstIndex(s, Dedup(s)[j])
  {
    if |s| > 0 {
      var t := s[..|s| - 1];
      var x := s[|s| - 1];
      var p := Dedup(t);
      DedupOrder(t);
      assert s == t + [x];
      var r := Dedup(s);
      assert r == if x in p then p else p + [x];
      forall i, j | 0 <= i < j < |r|
        ensures FirstIndex(s, r[i]) < FirstIndex(s, r[j])
      {
        assert r[i] in t;
        FirstIndexSnoc(t, x, r[i]);
        if j < |p| {
          assert r[j] == p[j] && r[j] in t;
          FirstIndexSnoc(t, x, r[j]);
        } else {
          FirstIndexUnique(s, x, |s| - 1);
        }
      }
    }
  }

  /** Appending a value does not move the first occurrence of a value already present. */
  lemma FirstIndexSnoc<T>(t: seq<T>, x: T, y: T)
    requires y in t
    ensures FirstIndex(t + [x], y) == FirstIndex(t, y)
  {
    var k := FirstIndex(t, y);
    assert (t + [x])[..k] == t[..k];
    FirstIndexUnique(t + [x], y, k);
  }

  /** `Dedup` leaves an already duplicate-free sequence unchanged. */
  lemma {:induction false} DedupOfNoDup<T>(s: seq<T>)
    requires NoDup(s)
    ensures Dedup(s) == s
  {
    if |s| > 0 {
      var t := s[..|s| - 1];
      assert NoDup(t);
      DedupOfNoDup(t);
      assert s[|s| - 1] !in t;
      assert s == t + [s[|s| - 1]];
    }
  }

  /** Concatenation is associative (stated once, so that large contexts need not rediscover it). */
  lemma ConcatAssoc<T>(x: seq<T>, y: seq<T>, z: seq<T>)
    ensures (x + y) + z == x + (y + z)
  {
  }

  /** A prefix one longer is the prefix followed by the next element. */
  lemma TakeSnoc<T>(s: seq<T>, i: nat)
    requires i < |s|
    ensures s[..i + 1] == s[..i] + [s[i]]
  {
  }

  /** One step of `Dedup`: a new last value is kept iff it was not seen before. */
  lemma DedupSnoc<T>(s: seq<T>, x: T)
    ensures Dedup(s + [x]) == if x in Dedup(s) then Dedup(s) else Dedup(s) + [x]
  {
    assert (s + [x])[..|s + [x]| - 1] == s;
  }

  /** Appending never reorders or drops what was already kept: `Dedup(a)` is a prefix of `Dedup(a + b)`. */
  lemma {:induction false} DedupPrefix<T>(a: seq<T>, b: seq<T>)
    ensures |Dedup(a)| <= |Dedup(a + b)|
    ensures Dedup(a + b)[..|Dedup(a)|] == Dedup(a)
  {
    if |b| == 0 {
      assert a + b == a;
    } else {
      var b' := b[..|b| - 1];
      var x := b[|b| - 1];
      DedupPrefix(a, b');
      assert b == b' + [x];
      ConcatAssoc(a, b', [x]);
      assert a + b == (a + b') + [x];
      DedupSnoc(a + b', x);
      var p := Dedup(a + b');
      if x !in p {
        PrefixOfSnoc(p, x, |Dedup(a)|);
      }
    }
  }

  lemma PrefixOfSnoc<T>(p: seq<T>, x: T, m: nat)
    requires m <= |p|
    ensures (p + [x])[..m] == p[..m]
  {
  }

  /** Appending values that are all present already changes nothing. */
  lemma {:induction false} DedupAbsorb<T>(c: seq<T>, b: seq<T>)
    requires forall x :: x in b ==> x in c
    ensures Dedup(c + b) == Dedup(c)
  {
    if |b| == 0 {
      assert c + b == c;
    } else {
      var b' := b[..|b| - 1];
      var x := b[|b| - 1];
      DedupAbsorb(c, b');
      assert b == b' + [x];
      ConcatAssoc(c, b', [x]);
      DedupSnoc(c + b', x);
      assert x in b;
      DedupMembers(c + b');
    }
  }

  /** De-duplicating a prefix first does not change the outcome. */
  lemma {:induction false} DedupDedupAppend<T>(a: seq<T>, b: seq<T>)
    ensures Dedup(Dedup(a) + b) == Dedup(a + b)
  {
    if |b| == 0 {
      DedupAppendNothing(a, b);
    } else {
      var b' := b[..|b| - 1];
      DedupDedupAppend(a, b');
      assert b == b' + [b[|b| - 1]];
      DedupAppendStep(Dedup(a), a, b', b[|b| - 1]);
    }
  }

  lemma DedupAppendNothing<T>(a: seq<T>, b: seq<T>)
    requires |b| == 0
    ensures Dedup(Dedup(a) + b) == Dedup(a + b)
  {
    assert Dedup(a) + b == Dedup(a);
    assert a + b == a;
    DedupOfNoDup(Dedup(a));
  }

  /** Two prefixes that de-duplicate alike after `b'` still do after one more value. */
  lemma DedupAppendStep<T>(c: seq<T>, d: seq<T>, b': seq<T>, x: T)
    requires Dedup(c + b') == Dedup(d + b')
    ensures Dedup(c + (b' + [x])) == Dedup(d + (b' + [x]))
  {
    ConcatAssoc(c, b', [x]);
    ConcatAssoc(d, b', [x]);
    DedupSnoc(c + b', x);
    DedupSnoc(d + b', x);
  }

  // ---------------------------------------------------------------------------
  // Flattening, filtering and slicing

  function Flatten<T>(ss: seq<seq<T>>): (r: seq<T>)
    ensures |ss| == 0 ==> r == []
    ensures |ss| > 0 ==> r == ss[0] + Flatten(ss[1..])
  {
    if |ss| == 0 then [] else ss[0] + Flatten(ss[1..])
  }

  lemma {:induction false} FlattenMember<T>(ss: seq<seq<T>>, x: T)
    ensures x in Flatten(ss) <==> exists i :: 0 <= i < |ss| && x in ss[i]
  {
    if |ss| > 0 {
      FlattenMember(ss[1..], x);
      if x in Flatten(ss[1..]) {
        var i :| 0 <= i < |ss[1..]| && x in ss[1..][i];
        assert ss[1..][i] == ss[i + 1];
      }
      if exists i :: 0 <= i < |ss| && x in ss[i] {
        var i :| 0 <= i < |ss| && x in ss[i];
        if i > 0 {
          assert ss[1..][i - 1] == ss[i];
        }
      }
    }
  }

  /** PHP's `array_filter` on integers: drops every 0 (the falsy integer). */
  function DropZeros(s: seq<int>): (r: seq<int>)
    ensures forall x :: x in r <==> x in s && x != 0
  {
    if |s| == 0 then []
    else if s[0] == 0 then DropZeros(s[1..])
    else [s[0]] + DropZeros(s[1..])
  }

  /**
   * PHP's `array_slice($a, 0, $n)` on a list: the first `n` elements, or for a
   * negative `n` everything except the last `-n`.
   */
  function SliceHead<T>(a: seq<T>, n: int): (r: seq<T>)
    ensures |r| <= |a| && r == a[..|r|]
    ensures n >= 0 ==> |r| == (if n < |a| then n else |a|)
    ensures n < 0 ==> |r| == (if |a| + n > 0 then |a| + n else 0)
  {
    if n >= 0 then
      (if n < |a| then a[..n] else a)
    else
      (if |a| + n > 0 then a[..|a| + n] else [])
  }

  // ---------------------------------------------------------------------------
  // Ordered association lists: PHP arrays with string keys, JavaScript objects

  function Keys<K, V>(m: seq<(K, V)>): (ks: seq<K>)
    ensures |ks| == |m|
    ensures forall i :: 0 <= i < |m| ==> ks[i] == m[i].0
  {
    if |m| == 0 then [] else [m[0].0] + Keys(m[1..])
  }

  /** Value of the first entry under `k`. */
  function Get<K(==), V>(m: seq<(K, V)>, k: K): Option<V>
  {
    if |m| == 0 then None
    else if m[0].0 == k then Some(m[0].1)
    else Get(m[1..], k)
  }

  /** `$m[$k] = $v`: overwrite in place when the key exists, append otherwise. */
  function Put<K(==,!new), V>(m: seq<(K, V)>, k: K, v: V): (r: seq<(K, V)>)
    ensures Get(r, k) == Some(v)
    ensures forall k' :: k' != k ==> Get(r, k') == Get(m, k')
    ensures k in Keys(m) ==> Keys(r) == Keys(m)
    ensures k !in Keys(m) ==> Keys(r) == Keys(m) + [k]
  {
    if |m| == 0 then [(k, v)]
    else if m[0].0 == k then [(k, v)] + m[1..]
    else
      var r := [m[0]] + Put(m[1..], k, v);
      assert Keys(m) == [m[0].0] + Keys(m[1..]);
      assert Keys(r) == [m[0].0] + Keys(Put(m[1..], k, v));
      r
  }

  lemma {:induction false} GetSomeIffKey<K, V>(m: seq<(K, V)>, k: K)
    ensures Get(m, k).Some? <==> k in Keys(m)
  {
    if |m| > 0 {
      GetSomeIffKey(m[1..], k);
      assert Keys(m) == [m[0].0] + Keys(m[1..]);
    }
  }

  /** With distinct keys, the key at position `i` has no entry before `i`. */
  lemma FreshKeyAt<K, V>(items: seq<(K, V)>, i: nat)
    requires NoDup(Keys(items)) && i < |items|
    ensures Get(items[..i], items[i].0).None?
  {
    KeysTake(items, i);
    GetSomeIffKey(items[..i], items[i].0);
    assert items[i].0 == Keys(items)[i];
  }

  /** The keys of a prefix are the prefix of the keys. */
  lemma KeysTake<K, V>(m: seq<(K, V)>, i: nat)
    requires i <= |m|
    ensures Keys(m[..i]) == Keys(m)[..i]
  {
  }

  /** Setting a key keeps the existing keys, in order, as a prefix. */
  lemma PutKeysPrefix<K(!new), V>(m: seq<(K, V)>, k: K, v: V)
    ensures |Keys(m)| <= |Keys(Put(m, k, v))|
    ensures Keys(Put(m, k, v))[..|Keys(m)|] == Keys(m)
  {
  }

  lemma PrefixTrans<T>(a: seq<T>, b: seq<T>, c: seq<T>)
    requires |a| <= |b| && b[..|a|] == a
    requires |b| <= |c| && c[..|b|] == b
    ensures |a| <= |c| && c[..|a|] == a
  {
    assert c[..|a|] == c[..|b|][..|a|];
  }

  /** The entries pairing each key with the value at the same position. */
  function Zip<K, V>(ks: seq<K>, vs: seq<V>): (m: seq<(K, V)>)
    requires |ks| == |vs|
    ensures |m| == |ks|
    ensures forall i :: 0 <= i < |m| ==> m[i] == (ks[i], vs[i])
    ensures Keys(m) == ks
  {
    if |ks| == 0 then [] else [(ks[0], vs[0])] + Zip(ks[1..], vs[1..])
  }

  /** `Get` finds the `i`-th entry when no earlier entry has its key. */
  lemma {:induction false} GetAt<K, V>(m: seq<(K, V)>, i: nat)
    requires i < |m|
    requires forall j :: 0 <= j < i ==> m[j].0 != m[i].0
    ensures Get(m, m[i].0) == Some(m[i].1)
  {
    if i > 0 {
      assert forall j :: 0 <= j < i - 1 ==> m[1..][j] == m[j + 1];
      GetAt(m[1..], i - 1);
    }
  }

  /** With distinct keys, the value zipped with a key is the one found under it. */
  lemma GetZip<K, V>(ks: seq<K>, vs: seq<V>, i: nat)
    requires |ks| == |vs| && i < |ks| && NoDup(ks)
    ensures Get(Zip(ks, vs), ks[i]) == Some(vs[i])
  {
    GetAt(Zip(ks, vs), i);
  }

  /** A lookup of another key does not see a `Put`. */
  lemma GetPutOther<K(!new), V>(m: seq<(K, V)>, k: K, v: V, other: K)
    requires other != k
    ensures Get(Put(m, k, v), other) == Get(m, other)
  {
  }

  /** Appending an entry only answers for a key no earlier entry has. */
  lemma {:induction false} GetSnoc<K, V>(m: seq<(K, V)>, k: K, v: V, x: K)
    ensures Get(m + [(k, v)], x) == if Get(m, x).Some? then Get(m, x) else if x == k then Some(v) else None
  {
    if |m| > 0 {
      assert (m + [(k, v)])[1..] == m[1..] + [(k, v)];
      GetSnoc(m[1..], k, v, x);
    }
  }

  // ---------------------------------------------------------------------------
  // ASCII case mapping and decimal formatting

  predicate IsLowerAscii(c: char) { 'a' <= c <= 'z' }
  predicate IsUpperAscii(c: char) { 'A' <= c <= 'Z' }
  predicate IsDigit(c: char) { '0' <= c <= '9' }

  function ToLowerAscii(c: char): (r: char)
    ensures !IsUpperAscii(r)
    ensures !IsUpperAscii(c) ==> r == c
  {
    if IsUpperAscii(c) then (c as int - 'A' as int + 'a' as int) as char else c
  }

  function ToUpperAscii(c: char): (r: char)
    ensures !IsLowerAscii(r)
    ensures !IsLowerAscii(c) ==> r == c
  {
    if IsLowerAscii(c) then (c as int - 'a' as int + 'A' as int) as char else c
  }

  /** PHP's `strtolower` on ASCII. */
  function LowerAscii(s: string): (r: string)
    ensures |r| == |s|
    ensures forall i :: 0 <= i < |s| ==> r[i] == ToLowerAscii(s[i])
  {
    if |s| == 0 then "" else [ToLowerAscii(s[0])] + LowerAscii(s[1..])
  }

  function DigitChar(d: nat): (c: char)
    requires d < 10
    ensures IsDigit(c)
  {
    ('0' as int + d) as char
  }

  /** Decimal rendering of a natural number, as `%d` prints it. */
  function NatToString(n: nat): (r: string)
    ensures |r| >= 1
    ensures forall i :: 0 <= i < |r| ==> IsDigit(r[i])
    ensures n < 10 ==> r == [DigitChar(n)]
    decreases n
  {
    if n < 10 then [DigitChar(n)] else NatToString(n / 10) + [DigitChar(n % 10)]
  }

  function IntToString(i: int): (r: string)
    ensures |r| >= 1
    ensures i < 0 <==> r[0] == '-'
  {
    if i < 0 then "-" + NatToString(-i) else NatToString(i)
  }

  /** `unset( $m[$k] )` for every key in `ks`; the other entries keep their order. */
  function Remove<K(==,!new), V>(m: seq<(K, V)>, ks: set<K>): (r: seq<(K, V)>)
    ensures forall k :: k !in ks ==> Get(r, k) == Get(m, k)
    ensures forall k :: k in ks ==> Get(r, k) == None
  {
    if |m| == 0 then []
    else if m[0].0 in ks then Remove(m[1..], ks)
    else [m[0]] + Remove(m[1..], ks)
  }

  /** Setting a removed key before removing it leaves no trace. */
  lemma {:induction false} RemovePut<K(!new), V>(m: seq<(K, V)>, ks: set<K>, k: K, v: V)
    requires k in ks
    ensures Remove(Put(m, k, v), ks) == Remove(m, ks)
  {
    if |m| > 0 && m[0].0 != k {
      RemovePut(m[1..], ks, k, v);
    }
  }
}

=== FILE: embed.dfy ===
/**
 * The embeddable listing-cards page: colour parameters, the encoded block
 * configuration, its validation, and the render arguments an embed builds
 * for the cards renderer.
 */
module Embed {
  import opened Common
  import opened PhpValue
  import O = Orchestrator
  import QB = QueryBuilder
  import Rd = Renderer

  // ---------------------------------------------------------------------------
  // Colours

  /** The characters PHP's `trim` removes: space, tab, newline, carriage return, NUL and vertical tab. */
  predicate IsTrimChar(c: char) {
    c == ' ' || c == '\t' || c == '\n' || c == '\r' || c as int == 0 || c as int == 11
  }

  /** `s[..i]` and `s[j..]` consist of trim characters only. */
  predicate TrimmedEnds(s: string, i: nat, j: nat)
    requires i <= j <= |s|
  {
    (forall k :: 0 <= k < i ==> IsTrimChar(s[k])) && (forall k :: j <= k < |s| ==> IsTrimChar(s[k]))
  }

  /**
   * PHP's `trim` with its default character list: the infix of `s` left
   * after removing its leading and trailing trim characters.
   */
  function Trim(s: string): (t: string)
    ensures |t| > 0 ==> !IsTrimChar(t[0]) && !IsTrimChar(t[|t| - 1])
    ensures |t| <= |s|
    ensures TrimInfix(s, t)
  {
    if |s| == 0 then
      assert s == s[0..0] && TrimmedEnds(s, 0, 0);
      s
    else if IsTrimChar(s[0]) then
      var t := Trim(s[1..]);
      TrimInfixFront(s, t);
      t
    else if IsTrimChar(s[|s| - 1]) then
      var t := Trim(s[..|s| - 1]);
      TrimInfixBack(s, t);
      t
    else
      assert s == s[0..|s|] && TrimmedEnds(s, 0, |s|);
      s
  }

  /** `t` is `s` with some leading and trailing trim characters removed. */
  predicate TrimInfix(s: string, t: string) {
    exists i: nat, j: nat :: i <= j <= |s| && t == s[i..j] && TrimmedEnds(s, i, j)
  }

  lemma TrimInfixFront(s: string, t: string)
    requires |s| > 0 && IsTrimChar(s[0]) && TrimInfix(s[1..], t)
    ensures TrimInfix(s, t)
  {
    var i: nat, j: nat :| i <= j <= |s| - 1 && t == s[1..][i..j] && TrimmedEnds(s[1..], i, j);
    assert t == s[i + 1..j + 1] && TrimmedEnds(s, i + 1, j + 1);
  }

  lemma TrimInfixBack(s: string, t: string)
    requires |s| > 0 && IsTrimChar(s[|s| - 1]) && TrimInfix(s[..|s| - 1], t)
    ensures TrimInfix(s, t)
  {
    var i: nat, j: nat :| i <= j <= |s| - 1 && t == s[..|s| - 1][i..j] && TrimmedEnds(s[..|s| - 1], i, j);
    assert t == s[i..j] && TrimmedEnds(s, i, j);
  }

  /** A string without leading or trailing trim characters is its own trim. */
  lemma TrimTrimmed(s: string)
    requires |s| > 0 ==> !IsTrimChar(s[0]) && !IsTrimChar(s[|s| - 1])
    ensures Trim(s) == s
  {
  }

  predicate IsHexDigit(c: char) {
    IsDigit(c) || 'a' <= c <= 'f' || 'A' <= c <= 'F'
  }

  /** `#` and 3, 4, 6 or 8 hex digits, in either case. */
  predicate IsHexColor(s: string) {
    |s| in {4, 5, 7, 9} && s[0] == '#' && forall i :: 1 <= i < |s| ==> IsHexDigit(s[i])
  }

  const GRADIENT := "linear-gradient"

  /**
   * `linear-gradient` in any case, optional white space, then `(`, at least
   * one character other than `)`, and a closing `)` that ends the string.
   */
  predicate IsLinearGradient(s: string) {
    |s| > |GRADIENT| && LowerAscii(s[..|GRADIENT|]) == GRADIENT &&
    var rest := s[|GRADIENT|..];
    var ws := SpaceRun(rest);
    var args := rest[ws..];
    |args| >= 3 && args[0] == '(' && args[|args| - 1] == ')' &&
    forall i :: 1 <= i < |args| - 1 ==> args[i] != ')'
  }

  /**
   * `sanitize_css_color`: the trimmed colour when it is a hex colour or a
   * linear gradient, otherwise the empty string.
   */
  function SanitizeCssColor(color: string): (r: string)
  {
    var t := Trim(color);
    if PhpEmptyString(t) then ""
    else if IsHexColor(t) || IsLinearGradient(t) then t
    else ""
  }

  /**
   * A colour is kept, trimmed, exactly when it is a hex colour or a linear
   * gradient; every other input gives the empty string.
   */
  lemma SanitizeCssColorSpec(color: string)
    ensures var r := SanitizeCssColor(color);
      && (PhpEmptyString(Trim(color)) ==> r == "")
      && (r != "" <==> IsHexColor(Trim(color)) || IsLinearGradient(Trim(color)))
      && (r != "" ==> r == Trim(color))
  {
    var t := Trim(color);
    if IsHexColor(t) || IsLinearGradient(t) {
      assert |t| > 1;
      assert !PhpEmptyString(t);
    }
  }

  /** A sanitised colour is its own sanitised colour. */
  lemma SanitizeCssColorIdempotent(color: string)
    ensures SanitizeCssColor(SanitizeCssColor(color)) == SanitizeCssColor(color)
  {
    var r := SanitizeCssColor(color);
    if r != "" {
      TrimTrimmed(r);
    }
  }

  // ---------------------------------------------------------------------------
  // Configuration

  const DEFAULT_HEADLINE_TEXT := "Featured Facilities Near You"

  const SELECTED_TERM_GROUPS: seq<string> :=
    ["amenities", "clinicalServices", "levelsOfCare", "paymentOptions", "programs", "treatmentOptions"]

  const CONFIG_KEYS: seq<string> :=
    ["layout", "hasBackground", "actionType", "isInline", "slidesToShow", "headline", "selectedTerms", "cardOptions"]

  /** The configuration an embed without a usable `config` parameter gets. */
  function DefaultConfig(): (c: seq<(string, Value)>)
    ensures Keys(c) == CONFIG_KEYS
  {
    Zip(CONFIG_KEYS, [
      Str("three-column"),
      Bool(false),
      Str("none"),
      Bool(false),
      Int(3),
      Arr([("show", Bool(true)), ("text", Str(DEFAULT_HEADLINE_TEXT)), ("alignment", Str("left")), ("tag", Int(2))]),
      Arr(Zip(SELECTED_TERM_GROUPS, [Arr([]), Arr([]), Arr([]), Arr([]), Arr([]), Arr([])])),
      Arr([("hasBackground", Bool(false)), ("showRank", Bool(true)), ("showAddress", Bool(true)), ("showInsurance", Bool(true))])
    ])
  }

  /**
   * `wp_parse_args` on arrays (`array_merge` of the defaults and the given
   * entries): each given entry replaces the default in place or is appended.
   */
  function MergeOver(defaults: seq<(string, Value)>, given: seq<(string, Value)>): (r: seq<(string, Value)>)
    decreases |given|
  {
    if |given| == 0 then defaults
    else MergeOver(Put(defaults, given[0].0, given[0].1), given[1..])
  }

  /**
   * Every default key survives in order; a given key reads its first given
   * value; a key that was not given reads its default.
   */
  lemma {:induction false} MergeOverSpec(defaults: seq<(string, Value)>, given: seq<(string, Value)>, k: string)
    requires NoDup(Keys(given))
    ensures Keys(defaults) <= Keys(MergeOver(defaults, given))
    ensures Get(given, k).Some? ==> Get(MergeOver(defaults, given), k) == Get(given, k)
    ensures Get(given, k).None? ==> Get(MergeOver(defaults, given), k) == Get(defaults, k)
    decreases |given|
  {
    if |given| > 0 {
      var d1 := Put(defaults, given[0].0, given[0].1);
      assert Keys(given[1..]) == Keys(given)[1..];
      MergeOverSpec(d1, given[1..], k);
      if given[0].0 == k {
        GetSomeIffKey(given[1..], k);
        MergeOverPut(d1, given[1..], k, given[0].1);
      }
    }
  }

  /** A later given entry under an already-set key does not displace the first. */
  lemma {:induction false} MergeOverPut(m: seq<(string, Value)>, given: seq<(string, Value)>, k: string, v: Value)
    requires Get(m, k) == Some(v)
    ensures Get(MergeOver(m, given), k) == Some(v) || Get(given, k).Some?
    ensures Get(given, k).None? ==> Get(MergeOver(m, given), k) == Some(v)
    decreases |given|
  {
    if |given| > 0 {
      var m1 := Put(m, given[0].0, given[0].1);
      if given[0].0 != k {
        MergeOverPut(m1, given[1..], k, v);
      }
    }
  }

  /**
   * `decode_config`: the default configuration for an empty or undecodable
   * parameter or one that is not a JSON object; otherwise the decoded entries
   * laid over the defaults. `decode` stands for base64 then JSON decoding.
   */
  function DecodeConfig(encoded: string, decode: string -> Option<Value>): (c: seq<(string, Value)>)
  {
    if PhpEmptyString(encoded) then DefaultConfig()
    else match decode(encoded)
      case None => DefaultConfig()
      case Some(v) => if v.Arr? then MergeOver(DefaultConfig(), v.items) else DefaultConfig()
  }

  /**
   * A decoded configuration holds every default key; each key reads the
   * decoded value when the parameter decoded to an object holding it, and the
   * default otherwise.
   */
  lemma DecodeConfigSpec(encoded: string, decode: string -> Option<Value>, k: string)
    requires decode(encoded).Some? && decode(encoded).value.Arr? ==> NoDup(Keys(decode(encoded).value.items))
    ensures var c := DecodeConfig(encoded, decode);
      var given := if !PhpEmptyString(encoded) && decode(encoded).Some? && decode(encoded).value.Arr?
                   then decode(encoded).value.items else [];
      && CONFIG_KEYS <= Keys(c)
      && (Get(given, k).Some? ==> Get(c, k) == Get(given, k))
      && (Get(given, k).None? ==> Get(c, k) == Get(DefaultConfig(), k))
  {
    var d := DefaultConfig();
    if !PhpEmptyString(encoded) && decode(encoded).Some? && decode(encoded).value.Arr? {
      assert DecodeConfig(encoded, decode) == MergeOver(d, decode(encoded).value.items);
      MergeOverSpec(d, decode(encoded).value.items, k);
    } else {
      assert DecodeConfig(encoded, decode) == d;
    }
  }

  // ---------------------------------------------------------------------------
  // Validation

  datatype ConfigError = InvalidLayout | InvalidActionType | HeadlineNotArray | HeadlineTagOutOfRange

  datatype Validated = Valid(config: seq<(string, Value)>) | Invalid(errors: seq<ConfigError>)

  const VALID_LAYOUTS: set<string> := {"three-column", "slider", "vertical"}
  const VALID_ACTIONS: set<string> := {"none", "filter", "tabs"}

  /** Byte-wise string order (`strcmp`). */
  predicate LexLess(a: string, b: string) {
    if |a| == 0 then |b| > 0
    else if |b| == 0 then false
    else if a[0] != b[0] then a[0] < b[0]
    else LexLess(a[1..], b[1..])
  }

  /**
   * `$tag < 1 || $tag > 6` under PHP 8 comparison: numbers by value, numeric
   * strings as numbers, other strings against "1" and "6" as strings, a
   * boolean as a boolean, and an array above every number.
   */
  predicate TagOutOfRange(tag: Value) {
    match tag
    case Null => false
    case Bool(b) => !b
    case Int(i) => i < 1 || i > 6
    case Float(r) => r < 1.0 || r > 6.0
    case Str(s) =>
      if IsNumericString(s) then
        var x := NumericPrefix(s).value.0;
        x < 1.0 || x > 6.0
      else LexLess(s, "1") || LexLess("6", s)
    case Arr(_) => true
  }

  /**
   * Numeric strings compare by their value, decimals and exponents included;
   * other strings compare as text, so "abc" sorts above "6".
   */
  lemma TagStringExamples()
    ensures !TagOutOfRange(Str("6.0")) && !TagOutOfRange(Str(" 3"))
    ensures TagOutOfRange(Str("1e1")) && TagOutOfRange(Str("0")) && TagOutOfRange(Str("abc"))
  {
    NumericSixPointZero();
    NumericOneEOne();
    NumericPrefixOfIntToString(3);
    NumericPrefixOfIntToString(0);
    assert IntToString(0) == "0";
    assert !IsNumericString("abc") by { NumericLetters(); }
    LeadingSpaceThree();
  }

  predicate LayoutOk(config: seq<(string, Value)>) {
    var v := Lookup(Arr(config), "layout");
    v.Null? || (v.Str? && v.s in VALID_LAYOUTS)
  }

  predicate ActionTypeOk(config: seq<(string, Value)>) {
    var v := Lookup(Arr(config), "actionType");
    v.Null? || (v.Str? && v.s in VALID_ACTIONS)
  }

  predicate HeadlineIsArray(config: seq<(string, Value)>) {
    var h := Lookup(Arr(config), "headline");
    h.Null? || h.Arr?
  }

  predicate HeadlineTagOk(config: seq<(string, Value)>) {
    var h := Lookup(Arr(config), "headline");
    !h.Arr? || !TagOutOfRange(Lookup(h, "tag"))
  }

  /** `validate_config`: the configuration itself, or every rule it breaks in rule order. */
  function ValidateConfig(config: seq<(string, Value)>): (r: Validated)
  {
    var errors :=
      (if LayoutOk(config) then [] else [InvalidLayout])
      + (if ActionTypeOk(config) then [] else [InvalidActionType])
      + (if !HeadlineIsArray(config) then [HeadlineNotArray]
         else if !HeadlineTagOk(config) then [HeadlineTagOutOfRange]
         else []);
    if |errors| == 0 then Valid(config) else Invalid(errors)
  }

  /**
   * The configuration is returned unchanged iff it breaks no rule; otherwise
   * each broken rule is reported, and only those.
   */
  lemma ValidateConfigSpec(config: seq<(string, Value)>)
    ensures var r := ValidateConfig(config);
      && (r.Valid? <==> LayoutOk(config) && ActionTypeOk(config) && HeadlineIsArray(config) && HeadlineTagOk(config))
      && (r.Valid? ==> r.config == config)
      && (r.Invalid? ==>
            && |r.errors| > 0
            && (InvalidLayout in r.errors <==> !LayoutOk(config))
            && (InvalidActionType in r.errors <==> !ActionTypeOk(config))
            && (HeadlineNotArray in r.errors <==> !HeadlineIsArray(config))
            && (HeadlineTagOutOfRange in r.errors <==> HeadlineIsArray(config) && !HeadlineTagOk(config)))
  {
  }

  /** The default configuration passes validation. */
  lemma DefaultConfigValid()
    ensures ValidateConfig(DefaultConfig()).Valid?
  {
    DefaultLayoutAndAction();
    DefaultHeadlineTag();
  }

  lemma DefaultLayoutAndAction()
    ensures LayoutOk(DefaultConfig()) && ActionTypeOk(DefaultConfig())
  {
    var c := DefaultConfig();
    assert CONFIG_KEYS[0] == "layout" && CONFIG_KEYS[2] == "actionType";
    GetAt(c, 0);
    assert c[1].0 != c[2].0;
    GetAt(c, 2);
  }

  lemma DefaultHeadlineTag()
    ensures HeadlineIsArray(DefaultConfig()) && HeadlineTagOk(DefaultConfig())
  {
    var c := DefaultConfig();
    assert CONFIG_KEYS[5] == "headline";
    assert forall j :: 0 <= j < 5 ==> c[j].0 != c[5].0;
    GetAt(c, 5);
    var h := c[5].1;
    assert h.items[3].0 == "tag";
    GetAt(h.items, 3);
    assert Lookup(h, "tag") == Int(2);
    assert !TagOutOfRange(Int(2));
  }

  // ---------------------------------------------------------------------------
  // Render arguments

  /** The page type of an embed: "city" with a city, else "state" with a state, else "home". */
  function EmbedPageType(state: string, city: string): (t: string)
  {
    if !PhpEmptyString(city) then "city" else if !PhpEmptyString(state) then "state" else "home"
  }

  const CONTEXT_KEYS: seq<string> :=
    ["post_id", "post_type", "is_admin", "is_preview", "is_embed", "referrer", "page_type", "state", "city", "requires_location_data"]

  /** The display context an embed passes to the renderer. */
  function EmbedContext(referrer: string, state: string, city: string): (ctx: seq<(string, Value)>)
    ensures |ctx| == |CONTEXT_KEYS| && forall i :: 0 <= i < |ctx| ==> ctx[i].0 == CONTEXT_KEYS[i]
  {
    Zip(CONTEXT_KEYS, [
      Int(0), Str("embed"), Bool(false), Bool(false), Bool(true), Str(referrer),
      Str(EmbedPageType(state, city)), Str(state), Str(city),
      Bool(PhpEmptyString(state) && PhpEmptyString(city))
    ])
  }

  const RENDER_KEYS: seq<string> := [
    "render_id", "action_type", "card_count", "card_options", "card_data", "context", "excluded_post_ids",
    "has_background", "headline", "is_inline", "layout", "selected_terms", "slides_to_show", "wrapper_classes",
    "wrapper_attributes"
  ]

  /** The card count of an embed: 8 for a slider layout, else 3. */
  function EmbedCardCount(config: seq<(string, Value)>): int {
    if Lookup(Arr(config), "layout") == Str("slider") then 8 else 3
  }

  /**
   * `build_render_args`: the renderer arguments of an embed, taking the
   * display settings from the configuration and the location from the
   * `state` and `city` parameters. `renderId` stands for `uniqid`.
   */
  function BuildRenderArgs(config: seq<(string, Value)>, referrer: string, state: string, city: string, renderId: string)
    : (args: seq<(string, Value)>)
    ensures |args| == |RENDER_KEYS| && forall i :: 0 <= i < |args| ==> args[i].0 == RENDER_KEYS[i]
  {
    var c := Arr(config);
    Zip(RENDER_KEYS, [
      Str(renderId),
      Lookup(c, "actionType"),
      Int(EmbedCardCount(config)),
      Lookup(c, "cardOptions"),
      Arr([]),
      Arr(EmbedContext(referrer, state, city)),
      Arr([]),
      Lookup(c, "hasBackground"),
      Lookup(c, "headline"),
      Lookup(c, "isInline"),
      Lookup(c, "layout"),
      Lookup(c, "selectedTerms"),
      Lookup(c, "slidesToShow"),
      Arr([("0", Str("rmg-embed"))]),
      Arr([("data-referrer", Str(referrer)), ("data-state", Str(state)), ("data-city", Str(city))])
    ])
  }

  lemma RenderKeysDistinct()
    ensures NoDup(RENDER_KEYS)
  {
  }

  lemma ContextKeysDistinct()
    ensures NoDup(CONTEXT_KEYS)
  {
  }

  /**
   * The embed asks for 8 cards for a slider and 3 otherwise, and its context
   * needs the visitor's location exactly when neither state nor city is given.
   */
  lemma BuildRenderArgsSpec(config: seq<(string, Value)>, referrer: string, state: string, city: string, renderId: string)
    ensures var args := BuildRenderArgs(config, referrer, state, city, renderId);
      var ctx := Lookup(Arr(args), "context");
      && Lookup(Arr(args), "card_count") == Int(if Lookup(Arr(config), "layout") == Str("slider") then 8 else 3)
      && Lookup(ctx, "requires_location_data") == Bool(PhpEmptyString(state) && PhpEmptyString(city))
      && Lookup(ctx, "page_type") == Str(EmbedPageType(state, city))
  {
    var args := BuildRenderArgs(config, referrer, state, city, renderId);
    RenderKeysDistinct();
    GetAt(args, 2);
    GetAt(args, 5);
    var ctx := EmbedContext(referrer, state, city);
    ContextKeysDistinct();
    GetAt(ctx, 6);
    GetAt(ctx, 9);
  }

  /**
   * The page type follows the parameters: "city" whenever a city is given,
   * "state" for a state alone, "home" for neither.
   */
  lemma EmbedPageTypeSpec(state: string, city: string)
    ensures var t := EmbedPageType(state, city);
      && (t == "city" <==> !PhpEmptyString(city))
      && (t == "state" <==> PhpEmptyString(city) && !PhpEmptyString(state))
      && (t == "home" <==> PhpEmptyString(city) && PhpEmptyString(state))
  {
  }

  /** The embed's arguments have distinct keys, its context among them, and no user location. */
  lemma EmbedArgsContext(config: seq<(string, Value)>, referrer: string, state: string, city: string, renderId: string)
    ensures var args := BuildRenderArgs(config, referrer, state, city, renderId);
      && NoDup(Keys(args)) && NoDup(Keys(EmbedContext(referrer, state, city)))
      && Get(args, "context") == Some(Arr(EmbedContext(referrer, state, city)))
      && Get(args, "user_location").None?
  {
    var args := BuildRenderArgs(config, referrer, state, city, renderId);
    RenderKeysDistinct();
    ContextKeysDistinct();
    assert Keys(args) == RENDER_KEYS;
    assert Keys(EmbedContext(referrer, state, city)) == CONTEXT_KEYS;
    GetAt(args, 5);
    GetSomeIffKey(args, "user_location");
  }

  /**
   * The renderer answers an embed with the location placeholder, to be
   * filled in by the browser, exactly when neither state nor city is given:
   * the embed then requires location data and carries no user location.
   */
  lemma EmbedPlaceholderIffHome(config: seq<(string, Value)>, referrer: string, state: string, city: string,
                                renderId: string, facts: Rd.PageFacts, renderId2: string)
    ensures var p := Rd.PrepareArgs(BuildRenderArgs(config, referrer, state, city, renderId), facts, renderId2);
      Rd.ShouldRenderPlaceholder(p) <==> EmbedPageType(state, city) == "home"
  {
    var args := BuildRenderArgs(config, referrer, state, city, renderId);
    var ctx := EmbedContext(referrer, state, city);
    EmbedArgsContext(config, referrer, state, city, renderId);
    GetAt(ctx, 9);
    Rd.PlaceholderOfGivenContext(args, facts, renderId2, ctx);
  }


  /**
   * An embed with a state or a city passes the renderer's placeholder gate,
   * and its query takes the embed's page type ("state" or "city") from the
   * merged arguments. A "home" embed never reaches the query on the server
   * (see `EmbedPlaceholderIffHome`).
   */
  lemma EmbedPageTypeReachesQuery(config: seq<(string, Value)>, referrer: string, state: string, city: string,
                                  renderId: string, facts: Rd.PageFacts, renderId2: string, env: O.Env)
    ensures var p := Rd.PrepareArgs(BuildRenderArgs(config, referrer, state, city, renderId), facts, renderId2);
      && p.Arr?
      && (!PhpEmptyString(state) || !PhpEmptyString(city) ==>
            && !Rd.ShouldRenderPlaceholder(p)
            && O.PageTypeOf(p.items, env) == EmbedPageType(state, city)
            && EmbedPageType(state, city) in {"state", "city"})
  {
    var args := BuildRenderArgs(config, referrer, state, city, renderId);
    var ctx := EmbedContext(referrer, state, city);
    EmbedArgsContext(config, referrer, state, city, renderId);
    Rd.ParseArgsSpec(Arr(args), Rd.DefaultArgs(Rd.DefaultCardCount(args), facts, renderId2), "context");
    EmbedPlaceholderIffHome(config, referrer, state, city, renderId, facts, renderId2);
    GetAt(ctx, 6);
    Rd.PreparedContextEntry(args, facts, renderId2, ctx, "page_type");
  }


}

=== FILE: endpoint.dfy ===
/**
 * The REST endpoint for listing cards: normalising the request parameters
 * into query arguments, counting what the query returned, collecting the IDs
 * it holds, and the warnings of a request that could not be fulfilled.
 */
module Endpoint {
  import opened Common
  import opened PhpValue
  import O = Orchestrator
  import R = Registry
  import QB = QueryBuilder

  /** The selected-term groups the blocks send, in their order. */
  const TERM_GROUPS: seq<string> := ["amenities", "clinicalServices", "levelsOfCare", "paymentOptions", "programs", "treatmentOptions"]

  const DEFAULT_HEADLINE := "Featured Facilities Near You"

  /** `$v[$k] ?? $d` read as a boolean. */
  function BoolParam(v: Value, k: string, d: bool): bool {
    Truthy(OrDefault(Lookup(v, k), Bool(d)))
  }

  // ---------------------------------------------------------------------------
  // Nested parameters

  /** `prepare_card_options`: exactly the four display switches, as booleans. */
  function PrepareCardOptions(options: Value): (r: seq<(string, Value)>)
    ensures Keys(r) == ["hasBackground", "showRank", "showAddress", "showInsurance"]
    ensures forall i :: 0 <= i < |r| ==> r[i].1.Bool?
  {
    [("hasBackground", Bool(BoolParam(options, "hasBackground", false))),
     ("showRank", Bool(BoolParam(options, "showRank", true))),
     ("showAddress", Bool(BoolParam(options, "showAddress", true))),
     ("showInsurance", Bool(BoolParam(options, "showInsurance", true)))]
  }

  /** A missing option takes its default (background off, the rest on); a given boolean is kept. */
  lemma CardOptionsDefaults(options: Value, i: nat)
    requires i < 4
    ensures var r := PrepareCardOptions(options);
      var given := Lookup(options, r[i].0);
      && (given.Null? ==> r[i].1 == Bool(i != 0))
      && (given.Bool? ==> r[i].1 == given)
  {
  }

  /**
   * `prepare_context`: only the post ID (as `absint`), the post type and the
   * location flag survive; any page type, state or city is dropped.
   */
  function PrepareContext(ctx: Value): (r: seq<(string, Value)>)
    ensures Keys(r) == ["post_id", "post_type", "requires_location_data"]
    ensures r[0].1.Int? && r[0].1.i >= 0
    ensures r[2].1.Bool?
    ensures var g := Lookup(ctx, "post_id");
      && (g.Null? ==> r[0].1 == Int(0))
      && (g.Int? ==> r[0].1 == Int(if g.i < 0 then -g.i else g.i))
      && (!g.Null? ==> r[0].1.i == AbsInt(g))
    ensures var g := Lookup(ctx, "post_type");
      && (g.Null? ==> r[1].1 == Str(""))
      && (g.Str? ==> r[1].1 == g)
    ensures var g := Lookup(ctx, "requires_location_data");
      && r[2].1 == Bool(Truthy(g))
      && (g.Bool? ==> r[2].1 == g)
  {
    [("post_id", Int(AbsInt(OrDefault(Lookup(ctx, "post_id"), Int(0))))),
     ("post_type", Str(ToStr(OrDefault(Lookup(ctx, "post_type"), Str(""))))),
     ("requires_location_data", Bool(BoolParam(ctx, "requires_location_data", false)))]
  }

  /** Nothing but the three kept entries can be read from a prepared context. */
  lemma PrepareContextDrops(ctx: Value, k: string)
    requires k !in {"post_id", "post_type", "requires_location_data"}
    ensures Lookup(Arr(PrepareContext(ctx)), k) == Null
  {
    GetSomeIffKey(PrepareContext(ctx), k);
  }

  /**
   * PHP's loose `in_array` of a value among non-empty, non-numeric strings:
   * an equal string, or `true` (which equals every non-empty string).
   */
  predicate InLoose(v: Value, options: set<string>)
    requires forall o :: o in options ==> o != "" && o != "0"
  {
    (v.Str? && v.s in options) || v == Bool(true)
  }

  const ALIGNMENTS: set<string> := {"left", "center", "right"}

  function Clamp(x: int, lo: int, hi: int): (r: int)
    requires lo <= hi
    ensures lo <= r <= hi
    ensures lo <= x <= hi ==> r == x
  {
    if x < lo then lo else if x > hi then hi else x
  }

  /**
   * `prepare_headline`: the show flag, the text (default "Featured Facilities
   * Near You"), the alignment when it is one of left/center/right (else left)
   * and the heading level clamped to 1..6 (default 2).
   */
  function PrepareHeadline(h: Value): (r: seq<(string, Value)>)
    ensures Keys(r) == ["show", "text", "alignment", "tag"]
    ensures r[3].1.Int? && 1 <= r[3].1.i <= 6
  {
    var a := Lookup(h, "alignment");
    [("show", Bool(BoolParam(h, "show", false))),
     ("text", Str(ToStr(OrDefault(Lookup(h, "text"), Str(DEFAULT_HEADLINE))))),
     ("alignment", if InLoose(OrDefault(a, Str("")), ALIGNMENTS) then a else Str("left")),
     ("tag", Int(Clamp(AbsInt(OrDefault(Lookup(h, "tag"), Int(2))), 1, 6)))]
  }

  /**
   * The alignment is left, center or right for every string input (the
   * given one when valid); loose comparison also lets a literal `true`
   * through. A tag already in 1..6 is kept, and a missing one is 2.
   */
  lemma PrepareHeadlineValues(h: Value)
    ensures var r := PrepareHeadline(h);
      var a := Lookup(h, "alignment");
      var t := Lookup(h, "tag");
      && (r[2].1 == Bool(true) || (r[2].1.Str? && r[2].1.s in ALIGNMENTS))
      && (a.Str? ==> r[2].1 == (if a.s in ALIGNMENTS then a else Str("left")))
      && (!a.Str? && a != Bool(true) ==> r[2].1 == Str("left"))
      && (t.Int? && 1 <= t.i <= 6 ==> r[3].1 == t)
      && (t.Null? ==> r[3].1 == Int(2))
  {
  }

  /** The values of a list as plain text, keys kept (`array_map` with a sanitizer). */
  function TextValues(items: seq<(string, Value)>): (r: seq<(string, Value)>)
    ensures |r| == |items|
    ensures forall i :: 0 <= i < |r| ==> r[i] == (items[i].0, Str(ToStr(items[i].1)))
    ensures Keys(r) == Keys(items)
  {
    if |items| == 0 then [] else [(items[0].0, Str(ToStr(items[0].1)))] + TextValues(items[1..])
  }

  /**
   * `prepare_selected_terms` over a list of groups: exactly the given groups,
   * in order; a group that is missing or not an array becomes empty; an array
   * group keeps its entries, as text.
   */
  function PrepareGroups(terms: Value, groups: seq<string>): (r: seq<(string, Value)>)
    ensures Keys(r) == groups
    ensures forall i :: 0 <= i < |r| ==> r[i].1 == PreparedGroup(Lookup(terms, groups[i]))
  {
    if |groups| == 0 then []
    else [(groups[0], PreparedGroup(Lookup(terms, groups[0])))] + PrepareGroups(terms, groups[1..])
  }

  /** One group of selected terms as prepared. */
  function PreparedGroup(g: Value): (r: Value)
    ensures r.Arr?
    ensures !g.Arr? ==> r == Arr([])
    ensures g.Arr? ==> Keys(r.items) == Keys(g.items)
    ensures g.Arr? ==> forall j :: 0 <= j < |r.items| ==> r.items[j].1 == Str(ToStr(g.items[j].1))
  {
    if g.Arr? then Arr(TextValues(g.items)) else Arr([])
  }

  /** The selected terms of a request, over the six groups. */
  function PrepareSelectedTerms(terms: Value): (r: seq<(string, Value)>)
  {
    PrepareGroups(terms, TERM_GROUPS)
  }

  predicate IsClassChar(c: char) {
    IsLowerAscii(c) || IsUpperAscii(c) || IsDigit(c) || c == '_' || c == '-'
  }

  predicate IsHexDigit(c: char) {
    IsDigit(c) || 'a' <= c <= 'f' || 'A' <= c <= 'F'
  }

  /** Removes every percent-encoded octet (`%` and two hex digits), left to right. */
  function StripOctets(s: string): (r: string)
    ensures |r| <= |s|
  {
    if |s| == 0 then ""
    else if |s| >= 3 && s[0] == '%' && IsHexDigit(s[1]) && IsHexDigit(s[2]) then StripOctets(s[3..])
    else [s[0]] + StripOctets(s[1..])
  }

  /** The class characters of `s`, in order. */
  function KeepClassChars(s: string): (r: string)
    ensures forall i :: 0 <= i < |r| ==> IsClassChar(r[i]) && r[i] in s
    ensures forall i :: 0 <= i < |s| && IsClassChar(s[i]) ==> s[i] in r
    ensures |r| <= |s|
  {
    if |s| == 0 then "" else (if IsClassChar(s[0]) then [s[0]] else "") + KeepClassChars(s[1..])
  }

  /** Keeping class characters distributes over concatenation, so their order is kept. */
  lemma {:induction false} KeepClassCharsAppend(a: string, b: string)
    ensures KeepClassChars(a + b) == KeepClassChars(a) + KeepClassChars(b)
    decreases |a|
  {
    if |a| > 0 {
      KeepClassCharsAppend(a[1..], b);
      var ab := a + b;
      assert ab[0] == a[0] && ab[1..] == a[1..] + b;
    } else {
      assert a + b == b;
    }
  }

  /** Text without `%` holds no octet to strip. */
  lemma {:induction false} StripOctetsNoPercent(s: string)
    requires '%' !in s
    ensures StripOctets(s) == s
  {
    if |s| > 0 {
      assert s[0] != '%';
      assert '%' !in s[1..] by {
        forall i | 0 <= i < |s[1..]| ensures s[1..][i] != '%' {
          assert s[1..][i] == s[i + 1];
        }
      }
      StripOctetsNoPercent(s[1..]);
    }
  }

  /**
   * WordPress `sanitize_html_class` without a fallback: octets removed, then
   * only `A-Za-z0-9_-` kept. A valid class is its own sanitised class, and
   * text without `%` keeps exactly its class characters.
   */
  function SanitizeHtmlClass(s: string): (r: string)
    ensures forall i :: 0 <= i < |r| ==> IsClassChar(r[i])
    ensures (forall i :: 0 <= i < |s| ==> IsClassChar(s[i])) ==> r == s
    ensures '%' !in s ==> r == KeepClassChars(s)
  {
    SanitizeHtmlClassCases(s);
    KeepClassChars(StripOctets(s))
  }

  lemma SanitizeHtmlClassCases(s: string)
    ensures (forall i :: 0 <= i < |s| ==> IsClassChar(s[i])) ==> KeepClassChars(StripOctets(s)) == s
    ensures '%' !in s ==> StripOctets(s) == s
  {
    if forall i :: 0 <= i < |s| ==> IsClassChar(s[i]) {
      StripOctetsOfClass(s);
      KeepClassCharsOfClass(s);
    }
    if '%' !in s {
      StripOctetsNoPercent(s);
    }
  }

  lemma {:induction false} StripOctetsOfClass(s: string)
    requires forall i :: 0 <= i < |s| ==> IsClassChar(s[i])
    ensures StripOctets(s) == s
  {
    if |s| > 0 {
      StripOctetsOfClass(s[1..]);
    }
  }

  lemma {:induction false} KeepClassCharsOfClass(s: string)
    requires forall i :: 0 <= i < |s| ==> IsClassChar(s[i])
    ensures KeepClassChars(s) == s
  {
    if |s| > 0 {
      KeepClassCharsOfClass(s[1..]);
    }
  }

  /** A sanitized class is its own sanitized class. */
  lemma SanitizeHtmlClassIdempotent(s: string)
    ensures SanitizeHtmlClass(SanitizeHtmlClass(s)) == SanitizeHtmlClass(s)
  {
  }

  function HtmlClasses(items: seq<(string, Value)>): (r: seq<(string, Value)>)
    ensures |r| == |items|
    ensures forall i :: 0 <= i < |r| ==> r[i] == (items[i].0, Str(SanitizeHtmlClass(ToStr(items[i].1))))
  {
    if |items| == 0 then [] else [(items[0].0, Str(SanitizeHtmlClass(ToStr(items[0].1))))] + HtmlClasses(items[1..])
  }

  function AbsInts(items: seq<(string, Value)>): (r: seq<(string, Value)>)
    ensures |r| == |items|
    ensures forall i :: 0 <= i < |r| ==> r[i] == (items[i].0, Int(AbsInt(items[i].1)))
  {
    if |items| == 0 then [] else [(items[0].0, Int(AbsInt(items[0].1)))] + AbsInts(items[1..])
  }

  /**
   * `prepare_wrapper_attributes`: keys through `sanitize_key`, entries whose
   * key sanitizes to a falsy string ("" or "0") dropped, values as text.
   */
  function PrepareWrapperAttributes(attrs: Value): (r: seq<(string, Value)>)
    ensures forall k :: k in Keys(r) ==> !PhpEmptyString(k) && R.SanitizeKey(k) == k
    ensures forall k :: Get(r, k).Some? <==> !PhpEmptyString(k) && LastAttr(ItemsOf(attrs), k).Some?
    ensures forall k :: Get(r, k).Some? ==> Get(r, k).value == Str(ToStr(LastAttr(ItemsOf(attrs), k).value))
  {
    if !attrs.Arr? then [] else WrapperAttributesFrom(attrs.items, [])
  }

  /** The value of the last entry whose key sanitises to `k`, the one a later assignment leaves in place. */
  function LastAttr(items: seq<(string, Value)>, k: string): Option<Value> {
    if |items| == 0 then None
    else
      var later := LastAttr(items[1..], k);
      if later.Some? then later
      else if R.SanitizeKey(items[0].0) == k then Some(items[0].1)
      else None
  }

  /** The entry at `i` is the last whose key sanitises to `k`: its value is the one kept. */
  lemma {:induction false} LastAttrAt(items: seq<(string, Value)>, i: nat)
    requires i < |items|
    requires forall j :: i < j < |items| ==> R.SanitizeKey(items[j].0) != R.SanitizeKey(items[i].0)
    ensures LastAttr(items, R.SanitizeKey(items[i].0)) == Some(items[i].1)
    decreases i
  {
    var k := R.SanitizeKey(items[i].0);
    if i == 0 {
      LastAttrNone(items[1..], k);
    } else {
      LastAttrAt(items[1..], i - 1);
    }
  }

  lemma {:induction false} LastAttrNone(items: seq<(string, Value)>, k: string)
    requires forall j :: 0 <= j < |items| ==> R.SanitizeKey(items[j].0) != k
    ensures LastAttr(items, k).None?
  {
    if |items| > 0 {
      LastAttrNone(items[1..], k);
    }
  }

  /**
   * Every attribute whose key sanitises to a non-empty key is kept under that
   * key as text, unless a later attribute sanitises to the same key.
   */
  lemma PrepareWrapperAttributesKeeps(attrs: Value, i: nat)
    requires attrs.Arr? && i < |attrs.items|
    requires !PhpEmptyString(R.SanitizeKey(attrs.items[i].0))
    requires forall j :: i < j < |attrs.items| ==> R.SanitizeKey(attrs.items[j].0) != R.SanitizeKey(attrs.items[i].0)
    ensures Get(PrepareWrapperAttributes(attrs), R.SanitizeKey(attrs.items[i].0)) == Some(Str(ToStr(attrs.items[i].1)))
  {
    LastAttrAt(attrs.items, i);
  }

  function WrapperAttributesFrom(items: seq<(string, Value)>, acc: seq<(string, Value)>): (r: seq<(string, Value)>)
    requires forall k :: k in Keys(acc) ==> !PhpEmptyString(k) && R.SanitizeKey(k) == k
    ensures forall k :: k in Keys(r) ==> !PhpEmptyString(k) && R.SanitizeKey(k) == k
    ensures forall k :: Get(r, k) == if !PhpEmptyString(k) && LastAttr(items, k).Some?
                                     then Some(Str(ToStr(LastAttr(items, k).value))) else Get(acc, k)
  {
    if |items| == 0 then acc
    else
      var k := R.SanitizeKey(items[0].0);
      R.SanitizeKeyIdempotent(items[0].0);
      var acc' := if PhpEmptyString(k) then acc else Put(acc, k, Str(ToStr(items[0].1)));
      WrapperAttributesFrom(items[1..], acc')
  }

  /** `prepare_location`: coordinates as floats, the place names as text, the type defaulting to "user". */
  function PrepareLocation(loc: Value): seq<(string, Value)> {
    [("lat", Float(FloatVal(OrDefault(Lookup(loc, "lat"), Int(0))))),
     ("lon", Float(FloatVal(OrDefault(Lookup(loc, "lon"), Int(0))))),
     ("city", Str(ToStr(OrDefault(Lookup(loc, "city"), Str(""))))),
     ("region", Str(ToStr(OrDefault(Lookup(loc, "region"), Str(""))))),
     ("country", Str(ToStr(OrDefault(Lookup(loc, "country"), Str(""))))),
     ("type", Str(ToStr(OrDefault(Lookup(loc, "type"), Str("user")))))]
  }

  // ---------------------------------------------------------------------------
  // Query arguments

  /** The default card count: 8 for a slider, else 3. */
  function DefaultCardCount(layout: Value): int {
    if layout == Str("slider") then 8 else 3
  }

  const BASE_KEYS: seq<string> := [
    "action_type", "card_count", "layout", "exclude_displayed", "has_background", "is_inline", "slides_to_show",
    "render_id", "excluded_post_ids", "wrapper_classes", "card_options", "context", "headline", "selected_terms",
    "wrapper_attributes"
  ]

  /** The entries `prepare_args` always sets, in order. */
  function BaseArgs(p: Value, renderId: string): (base: seq<(string, Value)>)
    ensures Keys(base) == BASE_KEYS
  {
    Zip(BASE_KEYS, BaseValues(p, renderId))
  }

  /** The values of the entries `prepare_args` always sets, in the order of `BASE_KEYS`. */
  function BaseValues(p: Value, renderId: string): (vs: seq<Value>)
    ensures |vs| == |BASE_KEYS|
    ensures forall i :: 0 <= i < |BASE_KEYS| ==> vs[i] == BaseValue(p, renderId, i)
  {
    seq(|BASE_KEYS|, i requires 0 <= i < |BASE_KEYS| => BaseValue(p, renderId, i))
  }

  /** The value of the always-set entry at position `i` of `BASE_KEYS`. */
  function BaseValue(p: Value, renderId: string, i: nat): Value
    requires i < |BASE_KEYS|
  {
    var layout := OrDefault(Lookup(p, "layout"), Str("three-column"));
    match i
    case 0 => Str(ToStr(OrDefault(Lookup(p, "action_type"), Str("none"))))
    case 1 => Int(AbsInt(OrDefault(Lookup(p, "card_count"), Int(DefaultCardCount(layout)))))
    case 2 => Str(ToStr(layout))
    case 3 => Bool(BoolParam(p, "exclude_displayed", false))
    case 4 => Bool(BoolParam(p, "has_background", false))
    case 5 => Bool(BoolParam(p, "is_inline", false))
    case 6 => Float(FloatVal(OrDefault(Lookup(p, "slides_to_show"), Int(3))))
    case 7 => Str(renderId)
    case 8 => Arr(AbsInts(ArrayCast(OrDefault(Lookup(p, "excluded_post_ids"), Arr([])))))
    case 9 => Arr(HtmlClasses(ArrayCast(OrDefault(Lookup(p, "wrapper_classes"), Arr([])))))
    case 10 => Arr(PrepareCardOptions(OrDefault(Lookup(p, "card_options"), Arr([]))))
    case 11 => Arr(PrepareContext(OrDefault(Lookup(p, "context"), Arr([]))))
    case 12 => Arr(PrepareHeadline(OrDefault(Lookup(p, "headline"), Arr([]))))
    case 13 => Arr(PrepareSelectedTerms(OrDefault(Lookup(p, "selected_terms"), Arr([]))))
    case _ => Arr(PrepareWrapperAttributes(OrDefault(Lookup(p, "wrapper_attributes"), Arr([]))))
  }

  /**
   * `prepare_args`: the query arguments of a REST request; the visitor
   * location, display context and already-displayed list only when given.
   */
  function PrepareArgs(params: seq<(string, Value)>, renderId: string): seq<(string, Value)> {
    var p := Arr(params);
    var withLocation := PutGiven(BaseArgs(p, renderId), "user_location", Lookup(p, "user_location"),
                                 Arr(PrepareLocation(Lookup(p, "user_location"))));
    var withContext := PutGiven(withLocation, "display_context", Lookup(p, "display_context"),
                                Str(R.SanitizeKey(ToStr(Lookup(p, "display_context")))));
    PutGiven(withContext, "already_displayed", Lookup(p, "already_displayed"),
             Arr(AbsInts(ArrayCast(Lookup(p, "already_displayed")))))
  }

  /** Sets `k` to `prepared` when the `given` value is not empty. */
  function PutGiven(m: seq<(string, Value)>, k: string, given: Value, prepared: Value): (r: seq<(string, Value)>)
    ensures Get(r, k) == if Empty(given) then Get(m, k) else Some(prepared)
    ensures forall k' :: k' != k ==> Get(r, k') == Get(m, k')
  {
    if Empty(given) then m else Put(m, k, prepared)
  }

  /** The optional entries leave every entry `prepare_args` always sets alone. */
  lemma PrepareArgsKeepsBase(params: seq<(string, Value)>, renderId: string, k: string)
    requires k in BASE_KEYS
    ensures Get(PrepareArgs(params, renderId), k) == Get(BaseArgs(Arr(params), renderId), k)
  {
    OptionalKeysNotBase();
  }

  lemma OptionalKeysNotBase()
    ensures "user_location" !in BASE_KEYS && "display_context" !in BASE_KEYS && "already_displayed" !in BASE_KEYS
  {
  }

  lemma BaseKeysDistinct()
    ensures NoDup(BASE_KEYS)
  {
  }

  /** Each always-set entry reads back from the base entries. */
  lemma BaseGet(p: Value, renderId: string, i: nat)
    requires i < |BASE_KEYS|
    ensures Get(BaseArgs(p, renderId), BASE_KEYS[i]) == Some(BaseValue(p, renderId, i))
  {
    BaseKeysDistinct();
    GetZip(BASE_KEYS, BaseValues(p, renderId), i);
  }

  /** The always-set entry under `key`, the key at position `i`, as `prepare_args` returns it. */
  lemma PreparedBase(params: seq<(string, Value)>, renderId: string, i: nat, key: string)
    requires i < |BASE_KEYS| && BASE_KEYS[i] == key
    ensures Lookup(Arr(PrepareArgs(params, renderId)), key) == BaseValue(Arr(params), renderId, i)
  {
    PrepareArgsKeepsBase(params, renderId, key);
    BaseGet(Arr(params), renderId, i);
  }

  /**
   * The card count the query sees: the caller's (as `absint`), else 8 for a
   * slider and 3 for any other layout.
   */
  lemma PrepareArgsCardCount(params: seq<(string, Value)>, renderId: string)
    ensures var given := Lookup(Arr(params), "card_count");
      var layout := Lookup(Arr(params), "layout");
      var n := O.CardCount(PrepareArgs(params, renderId));
      && (given.Null? && layout == Str("slider") ==> n == 8)
      && (given.Null? && layout != Str("slider") ==> n == 3)
      && (given.Int? ==> n == (if given.i < 0 then -given.i else given.i))
  {
    BaseKeyNames();
    PreparedBase(params, renderId, 1, "card_count");
  }

  /** A REST context never carries a page type, state or city into the query. */
  lemma PrepareArgsContext(params: seq<(string, Value)>, renderId: string)
    ensures O.ContextOf(PrepareArgs(params, renderId)) == QB.Context("", "", "")
  {
    var ctx := OrDefault(Lookup(Arr(params), "context"), Arr([]));
    BaseKeyNames();
    PreparedBase(params, renderId, 11, "context");
    BaseValueContext(Arr(params), renderId);
    ContextOfPrepared(PrepareArgs(params, renderId), ctx);
  }

  lemma BaseValueContext(p: Value, renderId: string)
    ensures BaseValue(p, renderId, 11) == Arr(PrepareContext(OrDefault(Lookup(p, "context"), Arr([]))))
  {
  }

  /** Arguments whose context was prepared carry no page type, state or city. */
  lemma ContextOfPrepared(args: seq<(string, Value)>, ctx: Value)
    requires Lookup(Arr(args), "context") == Arr(PrepareContext(ctx))
    ensures O.ContextOf(args) == QB.Context("", "", "")
  {
    PrepareContextDrops(ctx, "page_type");
    PrepareContextDrops(ctx, "state");
    PrepareContextDrops(ctx, "city");
  }

  /** The excluded IDs reach the query as the caller's, made non-negative. */
  lemma PrepareArgsExcluded(params: seq<(string, Value)>, renderId: string)
    ensures var given := ArrayCast(OrDefault(Lookup(Arr(params), "excluded_post_ids"), Arr([])));
      var ex := O.ExcludedArg(PrepareArgs(params, renderId));
      |ex| == |given| && forall i :: 0 <= i < |ex| ==> ex[i] == AbsInt(given[i].1)
  {
    var given := ArrayCast(OrDefault(Lookup(Arr(params), "excluded_post_ids"), Arr([])));
    ExcludedEntry(params, renderId);
    ExcludedOfAbsInts(given);
  }

  /** The `excluded_post_ids` entry of the prepared arguments. */
  lemma ExcludedEntry(params: seq<(string, Value)>, renderId: string)
    ensures Lookup(Arr(PrepareArgs(params, renderId)), "excluded_post_ids")
         == Arr(AbsInts(ArrayCast(OrDefault(Lookup(Arr(params), "excluded_post_ids"), Arr([])))))
  {
    BaseKeyNames();
    PreparedBase(params, renderId, 8, "excluded_post_ids");
    BaseValueExcluded(Arr(params), renderId);
  }

  lemma BaseValueExcluded(p: Value, renderId: string)
    ensures BaseValue(p, renderId, 8) == Arr(AbsInts(ArrayCast(OrDefault(Lookup(p, "excluded_post_ids"), Arr([])))))
  {
  }

  lemma BaseKeyNames()
    ensures BASE_KEYS[1] == "card_count" && BASE_KEYS[8] == "excluded_post_ids" && BASE_KEYS[11] == "context"
  {
  }

  lemma ExcludedOfAbsInts(given: seq<(string, Value)>)
    ensures var ex := O.IntsOf(ValuesOf(Arr(AbsInts(given))));
      |ex| == |given| && forall i :: 0 <= i < |ex| ==> ex[i] == AbsInt(given[i].1)
  {
  }

  // ---------------------------------------------------------------------------
  // Counting and collecting what the query returned

  /** `isset( $cards_data[0] )`: a non-empty card list, or a tab stored under the key "0". */
  predicate HasIndexZero(d: O.CardData) {
    match d
    case Flat(cards) => |cards| > 0
    case Tabbed(tabs) => exists k :: 0 <= k < |tabs| && tabs[k].0 == "0"
  }

  /** The data is read tab by tab: action type "tabs" and no entry at index 0. */
  predicate ReadAsTabs(actionType: string, d: O.CardData) {
    actionType == "tabs" && !HasIndexZero(d)
  }

  /** `count()` of the data as PHP holds it: the cards of a list, the tabs of a tabbed result. */
  function Size(d: O.CardData): nat {
    match d
    case Flat(cards) => |cards|
    case Tabbed(tabs) => |tabs|
  }

  /** The number of cards over all tabs. */
  function TabCardCount(tabs: O.Tabs): nat {
    if |tabs| == 0 then 0 else |tabs[0].1| + TabCardCount(tabs[1..])
  }

  /** Summing the tab lengths counts exactly the IDs flattened across the tabs. */
  lemma {:induction false} TabCardCountIds(tabs: O.Tabs)
    ensures TabCardCount(tabs) == |O.TabIds(tabs)|
  {
    if |tabs| > 0 {
      TabCardCountIds(tabs[1..]);
    }
  }

  /**
   * The query card count of `get_listing_cards` on the card data: read tab by
   * tab, the sum of the tab lengths; otherwise the size of the data.
   */
  function CountCards(actionType: string, d: O.CardData): (n: nat)
  {
    match d
    case Tabbed(tabs) => if ReadAsTabs(actionType, d) then TabCardCount(tabs) else |tabs|
    case Flat(cards) => |cards|
  }

  /**
   * The count is the number of cards returned: every card of a list, every
   * card of every tab of tabbed data read tab by tab.
   */
  lemma CountCardsIsCards(actionType: string, d: O.CardData)
    ensures d.Flat? ==> CountCards(actionType, d) == |O.Ids(d.cards)|
    ensures d.Tabbed? && ReadAsTabs(actionType, d) ==> CountCards(actionType, d) == |O.TabIds(d.tabs)|
    ensures CountCards(actionType, d) == 0 <==> (d.Flat? && |d.cards| == 0) || (d.Tabbed? && |O.TabIds(d.tabs)| == 0 && ReadAsTabs(actionType, d)) || (d.Tabbed? && |d.tabs| == 0)
  {
    if d.Tabbed? {
      TabCardCountIds(d.tabs);
    }
  }

  /**
   * The query card count as `get_listing_cards` reads the result of `init`.
   * A fresh REST result arrives wrapped as `{cards, displayed_ids}`; the count
   * is then taken of the wrapper: its two entries outside tabs mode, and the
   * size of the data plus the number of IDs in it.
   */
  function QueryCardCountAsWritten(actionType: string, res: O.InitResult): nat {
    match res
    case Cards(data) => CountCards(actionType, data)
    case CardsWithIds(data, ids) => if actionType == "tabs" then Size(data) + |ids| else 2
  }

  /** The query card count of the data itself, whether or not it arrived wrapped. */
  function QueryCardCount(actionType: string, res: O.InitResult): nat {
    CountCards(actionType, res.data)
  }

  /** The query card count the revision reports. */
  function ReportedCount(rev: Revision, actionType: string, res: O.InitResult): nat {
    match rev
    case AsWritten => QueryCardCountAsWritten(actionType, res)
    case Corrected => QueryCardCount(actionType, res)
  }

  /** A fresh REST list of cards outside tabs mode is reported as two cards, however many it holds. */
  lemma QueryCardCountAsWrittenIsTwo(actionType: string, cards: seq<O.Card>, ids: seq<int>)
    requires actionType != "tabs"
    ensures QueryCardCountAsWritten(actionType, O.CardsWithIds(O.Flat(cards), ids)) == 2
    ensures QueryCardCount(actionType, O.CardsWithIds(O.Flat(cards), ids)) == |cards|
  {
  }

  /** Wrapped or not, the corrected count is the number of cards the query returned. */
  lemma QueryCardCountCountsCards(actionType: string, res: O.InitResult)
    ensures res.data.Flat? ==> QueryCardCount(actionType, res) == |res.data.cards|
    ensures res.data.Tabbed? && ReadAsTabs(actionType, res.data) ==>
              QueryCardCount(actionType, res) == |O.TabIds(res.data.tabs)|
    ensures res.Cards? ==> QueryCardCount(actionType, res) == QueryCardCountAsWritten(actionType, res)
  {
    CountCardsIsCards(actionType, res.data);
  }

  /**
   * `extract_displayed_ids` on the card data: the card IDs, flattened across
   * the tabs when the data is read tab by tab, without zeros and duplicates.
   * A tabbed result read as a list has no `id` column and gives none.
   */
  function ExtractDisplayedIds(actionType: string, d: O.CardData): (ids: seq<int>)
    ensures NoDup(ids) && 0 !in ids
  {
    var raw := match d
      case Flat(cards) => O.Ids(cards)
      case Tabbed(tabs) => if ReadAsTabs(actionType, d) then O.TabIds(tabs) else [];
    DedupMembers(DropZeros(raw));
    Dedup(DropZeros(raw))
  }

  /**
   * The IDs collected are those `init` registers as displayed, less zero: for
   * a list always, for tabbed data whenever it is read tab by tab.
   */
  lemma ExtractDisplayedIdsRegistered(actionType: string, d: O.CardData)
    requires d.Flat? || ReadAsTabs(actionType, d)
    ensures forall x :: x in ExtractDisplayedIds(actionType, d) <==> x in O.DisplayedIds(d) && x != 0
  {
    if d.Tabbed? {
      O.TabIdsMember(d.tabs);
    }
  }

  /**
   * `extract_displayed_ids` as `get_listing_cards` calls it on the result of
   * `init`: a wrapped REST result gives the IDs of a card list only in tabs
   * mode (the `cards` entry read as a tab) and none otherwise.
   */
  function QueryDisplayedIdsAsWritten(actionType: string, res: O.InitResult): seq<int> {
    match res
    case Cards(data) => ExtractDisplayedIds(actionType, data)
    case CardsWithIds(data, ids) =>
      if actionType == "tabs" && data.Flat? then ExtractDisplayedIds(actionType, data) else []
  }

  /** The displayed IDs of the data itself, whether or not it arrived wrapped. */
  function QueryDisplayedIds(actionType: string, res: O.InitResult): seq<int> {
    ExtractDisplayedIds(actionType, res.data)
  }

  /** Outside tabs mode a fresh REST result yields no IDs, even when its cards have some. */
  lemma QueryDisplayedIdsAsWrittenLosesIds(actionType: string, cards: seq<O.Card>, ids: seq<int>)
    requires actionType != "tabs" && |cards| > 0 && cards[0].id != 0
    ensures QueryDisplayedIdsAsWritten(actionType, O.CardsWithIds(O.Flat(cards), ids)) == []
    ensures cards[0].id in QueryDisplayedIds(actionType, O.CardsWithIds(O.Flat(cards), ids))
  {
    assert O.Ids(cards)[0] == cards[0].id;
  }

  /** The corrected IDs are the non-zero IDs `init` registered, wrapped or not. */
  lemma QueryDisplayedIdsRegistered(actionType: string, res: O.InitResult)
    requires res.data.Flat? || ReadAsTabs(actionType, res.data)
    ensures forall x :: x in QueryDisplayedIds(actionType, res) <==> x in O.DisplayedIds(res.data) && x != 0
    ensures res.Cards? ==> QueryDisplayedIds(actionType, res) == QueryDisplayedIdsAsWritten(actionType, res)
  {
    ExtractDisplayedIdsRegistered(actionType, res.data);
  }

  // ---------------------------------------------------------------------------
  // Warnings

  datatype Warning =
    | Unfulfilled(rendered: nat, requested: int)
    | NoCardsFromQuery
    | ActiveTermFilters(groups: seq<string>)
    | LocationUsed
    | ExcludingDisplayed(count: nat)
    | EmptyHtml
    | NoCardElements

  /** The groups of the selected terms that hold a term (`array_filter` then `array_keys`). */
  function ActiveGroups(terms: seq<(string, Value)>): (groups: seq<string>)
    ensures forall g :: g in groups ==> exists i :: 0 <= i < |terms| && terms[i].0 == g && Truthy(terms[i].1)
    ensures forall i :: 0 <= i < |terms| && Truthy(terms[i].1) ==> terms[i].0 in groups
  {
    if |terms| == 0 then []
    else (if Truthy(terms[0].1) then [terms[0].0] else []) + ActiveGroups(terms[1..])
  }

  /** What the warnings of a request are computed from. */
  datatype Outcome = Outcome(
    requested: int,          // the card count asked for
    queryCount: nat,         // the cards the query returned
    htmlEmpty: bool,         // the renderer returned empty HTML
    markers: nat,            // card elements found in the HTML
    terms: seq<(string, Value)>,
    hasLocation: bool,
    alreadyDisplayed: nat)

  /** The cards rendered: none for empty HTML, else the card elements found. */
  function Rendered(o: Outcome): nat {
    if o.htmlEmpty then 0 else o.markers
  }

  /**
   * The warnings of `get_listing_cards`: a shortfall, explained when the query
   * returned nothing, then an empty or card-less page.
   */
  function Warnings(o: Outcome): (w: seq<Warning>)
  {
    Shortfall(o) + PageWarnings(o)
  }

  /** The warnings about too few cards: the shortfall, then the query's likely reasons when it found nothing. */
  function Shortfall(o: Outcome): seq<Warning> {
    var rendered := Rendered(o);
    var active := ActiveGroups(o.terms);
    var reasons :=
      if o.queryCount != 0 then []
      else ([NoCardsFromQuery]
            + (if |active| > 0 then [ActiveTermFilters(active)] else [])
            + (if o.hasLocation then [LocationUsed] else [])
            + (if o.alreadyDisplayed > 0 then [ExcludingDisplayed(o.alreadyDisplayed)] else []));
    if rendered < o.requested then [Unfulfilled(rendered, o.requested)] + reasons else []
  }

  /** The warnings about the page itself: empty HTML, or HTML without card elements. */
  function PageWarnings(o: Outcome): seq<Warning> {
    if o.htmlEmpty then [EmptyHtml] else if Rendered(o) == 0 then [NoCardElements] else []
  }

  predicate HasUnfulfilled(w: seq<Warning>) {
    exists i :: 0 <= i < |w| && w[i].Unfulfilled?
  }

  lemma ShortfallSpec(o: Outcome)
    ensures var s := Shortfall(o);
      && (HasUnfulfilled(s) <==> Rendered(o) < o.requested)
      && (Rendered(o) < o.requested ==> s[0] == Unfulfilled(Rendered(o), o.requested))
      && (NoCardsFromQuery in s <==> Rendered(o) < o.requested && o.queryCount == 0)
      && EmptyHtml !in s && NoCardElements !in s
  {
    var s := Shortfall(o);
    if Rendered(o) < o.requested {
      assert s[0].Unfulfilled?;
    }
  }

  lemma PageWarningsSpec(o: Outcome)
    ensures var p := PageWarnings(o);
      && !HasUnfulfilled(p) && NoCardsFromQuery !in p
      && (EmptyHtml in p <==> o.htmlEmpty)
      && (NoCardElements in p <==> !o.htmlEmpty && o.markers == 0)
  {
  }

  lemma HasUnfulfilledAppend(a: seq<Warning>, b: seq<Warning>)
    ensures HasUnfulfilled(a + b) <==> HasUnfulfilled(a) || HasUnfulfilled(b)
  {
    if HasUnfulfilled(b) {
      var i :| 0 <= i < |b| && b[i].Unfulfilled?;
      assert (a + b)[|a| + i] == b[i];
    }
    if HasUnfulfilled(a) {
      var i :| 0 <= i < |a| && a[i].Unfulfilled?;
      assert (a + b)[i] == a[i];
    }
    if HasUnfulfilled(a + b) {
      var i :| 0 <= i < |a + b| && (a + b)[i].Unfulfilled?;
      if i >= |a| {
        assert b[i - |a|] == (a + b)[i];
      } else {
        assert a[i] == (a + b)[i];
      }
    }
  }

  /**
   * A warning is raised iff fewer cards were rendered than requested, and it
   * comes first; the query is blamed iff it returned nothing as well; the page
   * is reported empty or card-less exactly when it is.
   */
  lemma WarningsSpec(o: Outcome)
    ensures var w := Warnings(o);
      && (HasUnfulfilled(w) <==> Rendered(o) < o.requested)
      && (Rendered(o) < o.requested ==> w[0] == Unfulfilled(Rendered(o), o.requested))
      && (NoCardsFromQuery in w <==> Rendered(o) < o.requested && o.queryCount == 0)
      && (EmptyHtml in w <==> o.htmlEmpty)
      && (NoCardElements in w <==> !o.htmlEmpty && o.markers == 0)
      && (Rendered(o) >= o.requested && !o.htmlEmpty && o.markers > 0 ==> w == [])
  {
    ShortfallSpec(o);
    PageWarningsSpec(o);
    HasUnfulfilledAppend(Shortfall(o), PageWarnings(o));
  }

  // ---------------------------------------------------------------------------
  // The route's argument schema

  /** The defaults the route's argument schema declares, in its order. */
  const SCHEMA_DEFAULTS: seq<(string, Value)> := [
    ("action_type", Str("none")), ("card_count", Int(3)), ("card_options", Arr([])),
    ("display_context", Str("")), ("already_displayed", Arr([])), ("context", Arr([])),
    ("exclude_displayed", Bool(false)), ("has_background", Bool(false)), ("headline", Arr([])),
    ("layout", Str("three-column")), ("selected_terms", Arr([])), ("wrapper_classes", Arr([])),
    ("wrapper_attributes", Arr([])), ("slides_to_show", Int(3)), ("is_inline", Bool(false)),
    ("excluded_post_ids", Arr([])), ("fetch_location", Bool(false)), ("user_location", Arr([]))
  ]

  const ACTION_TYPES: seq<string> := ["none", "tabs", "filter"]
  const LAYOUTS: seq<string> := ["three-column", "slider", "vertical"]

  /**
   * The request parameters with, for every parameter it leaves out, the
   * default of the first schema entry naming it (`set_default_params`).
   */
  function WithDefaults(given: seq<(string, Value)>, defaults: seq<(string, Value)>): (p: seq<(string, Value)>)
    ensures forall k :: Get(p, k) == if Get(given, k).Some? then Get(given, k) else Get(defaults, k)
    decreases |defaults|
  {
    if |defaults| == 0 then given
    else
      var rest := WithDefaults(given, defaults[1..]);
      if Get(given, defaults[0].0).Some? then rest else Put(rest, defaults[0].0, defaults[0].1)
  }

  /**
   * A schema `integer`: `rest_is_integer` (a number or numeric string whose
   * value is integral) followed by the `(int)` cast of the sanitiser.
   * Anything else, `null` and booleans included, is refused.
   */
  function SchemaInteger(v: Value): (n: Option<int>)
    ensures v.Int? ==> n == Some(v.i)
    ensures !IsNumeric(v) ==> n.None?
    ensures n.Some? ==> n.value == IntVal(v)
  {
    match v
    case Int(i) => Some(i)
    case Float(r) => if Trunc(r) as real == r then Some(Trunc(r)) else None
    case Str(s) =>
      if IsNumericString(s) && Trunc(NumericPrefix(s).value.0) as real == NumericPrefix(s).value.0
      then Some(Trunc(NumericPrefix(s).value.0))
      else None
    case _ => None
  }

  /** Numeric text with an integral value is an integer, exponent notation included. */
  lemma SchemaIntegerSixPointZero()
    ensures SchemaInteger(Str("6.0")) == Some(6)
  {
    NumericSixPointZero();
    assert Trunc(6.0) == 6;
  }

  lemma SchemaIntegerOneEOne()
    ensures SchemaInteger(Str("1e1")) == Some(10)
  {
    NumericOneEOne();
    assert Trunc(10.0) == 10;
  }

  /** A fractional number is not an integer. */
  lemma SchemaIntegerFraction()
    ensures SchemaInteger(Float(2.5)).None?
  {
    assert Trunc(2.5) == 2;
  }

  /** The parameters whose schema entry carries a bound or an enum; the schema accepts any value of the others. */
  datatype Checked = ActionTypeParam | CardCountParam | LayoutParam {
    function Name(): string {
      match this
      case ActionTypeParam => "action_type"
      case CardCountParam => "card_count"
      case LayoutParam => "layout"
    }
  }

  /**
   * Whether the schema accepts `v` for a checked parameter: `card_count` is
   * an integer in 1..60, `action_type` and `layout` are strings of their enums.
   */
  predicate SchemaAccepts(c: Checked, v: Value) {
    match c
    case CardCountParam => SchemaInteger(v).Some? && 1 <= SchemaInteger(v).value <= 60
    case ActionTypeParam => v.Str? && v.s in ACTION_TYPES
    case LayoutParam => v.Str? && v.s in LAYOUTS
  }

  /** Whether the request gives a checked parameter a value the schema refuses. */
  predicate Refused(given: seq<(string, Value)>, c: Checked) {
    Get(given, c.Name()).Some? && !SchemaAccepts(c, Get(given, c.Name()).value)
  }

  /** What WordPress makes of the request's parameters before the callback runs. */
  datatype Routed =
    | Accepted(params: seq<(string, Value)>)
    | Rejected(invalid: set<Checked>)     // `rest_invalid_param`, status 400

  /** The schema defaults of the checked parameters, each accepted. */
  lemma CheckedDefaults()
    ensures Get(SCHEMA_DEFAULTS, "action_type") == Some(Str("none"))
    ensures Get(SCHEMA_DEFAULTS, "card_count") == Some(Int(3))
    ensures Get(SCHEMA_DEFAULTS, "layout") == Some(Str("three-column"))
  {
    GetAt(SCHEMA_DEFAULTS, 0);
    GetAt(SCHEMA_DEFAULTS, 1);
    GetAt(SCHEMA_DEFAULTS, 9);
  }

  /** A parameter the request leaves out takes the default of its schema entry. */
  lemma WithDefaultsGet(given: seq<(string, Value)>, d: seq<(string, Value)>, k: string)
    ensures Get(WithDefaults(given, d), k) == if Get(given, k).Some? then Get(given, k) else Get(d, k)
  {
  }

  /** The schema default of every checked parameter is one the schema accepts. */
  lemma DefaultAccepted(c: Checked)
    ensures Get(SCHEMA_DEFAULTS, c.Name()).Some? && SchemaAccepts(c, Get(SCHEMA_DEFAULTS, c.Name()).value)
  {
    CheckedDefaults();
    if c == CardCountParam {
      assert SchemaInteger(Int(3)) == Some(3);
    }
  }

  /** Filling in the defaults refuses exactly what the request itself gives wrongly. */
  lemma RefusedWithDefaults(given: seq<(string, Value)>)
    ensures forall c: Checked :: Refused(WithDefaults(given, SCHEMA_DEFAULTS), c) <==> Refused(given, c)
  {
    forall c: Checked
      ensures Refused(WithDefaults(given, SCHEMA_DEFAULTS), c) <==> Refused(given, c)
    {
      WithDefaultsGet(given, SCHEMA_DEFAULTS, c.Name());
      DefaultAccepted(c);
    }
  }

  /** The checked parameters the request gives a refused value. */
  function RefusedParams(given: seq<(string, Value)>): (bad: set<Checked>)
    ensures forall c: Checked :: c in bad <==> Refused(given, c)
  {
    var bad := (if Refused(given, ActionTypeParam) then {ActionTypeParam} else {})
             + (if Refused(given, CardCountParam) then {CardCountParam} else {})
             + (if Refused(given, LayoutParam) then {LayoutParam} else {});
    bad
  }

  /** The integer the request gives for `card_count`, else the schema default 3. */
  function GivenCardCount(given: seq<(string, Value)>): int {
    var v := Get(given, "card_count");
    if v.Some? && SchemaInteger(v.value).Some? then SchemaInteger(v.value).value else 3
  }

  /**
   * `get_params()` as the callback sees it: the schema defaults filled in,
   * every refused parameter reported together, and `card_count` cast to an
   * integer. The defaults themselves are all accepted.
   */
  function RouteParams(given: seq<(string, Value)>): (r: Routed)
    ensures r.Accepted? <==> forall c: Checked :: !Refused(given, c)
    ensures r.Rejected? ==> r.invalid != {} && forall c: Checked :: c in r.invalid <==> Refused(given, c)
    ensures r.Accepted? ==> forall k :: k != "card_count" ==>
              Get(r.params, k) == if Get(given, k).Some? then Get(given, k) else Get(SCHEMA_DEFAULTS, k)
    ensures r.Accepted? ==> Get(r.params, "card_count") == Some(Int(GivenCardCount(given))) && 1 <= GivenCardCount(given) <= 60
  {
    var p := WithDefaults(given, SCHEMA_DEFAULTS);
    RefusedWithDefaults(given);
    var bad := RefusedParams(p);
    if bad != {} then Rejected(bad)
    else
      assert 1 <= GivenCardCount(given) <= 60 by {
        assert !Refused(given, CardCountParam);
      }
      Accepted(Put(p, "card_count", Int(GivenCardCount(given))))
  }

  // ---------------------------------------------------------------------------
  // The request

  /**
   * The query arguments of a request: with `fetch_location` set, the visitor
   * location read from the request headers replaces any given one.
   */
  function RequestArgs(params: seq<(string, Value)>, headerLocation: Value, renderId: string): seq<(string, Value)> {
    var p := if Empty(Lookup(Arr(params), "fetch_location")) then params else Put(params, "user_location", headerLocation);
    PrepareArgs(p, renderId)
  }

  lemma PutGivenOther(m: seq<(string, Value)>, k: string, given: Value, prepared: Value, other: string)
    requires other != k
    ensures Get(PutGiven(m, k, given, prepared), other) == Get(m, other)
  {
  }

  lemma OptionalKeysDistinct()
    ensures "user_location" != "display_context" && "user_location" != "already_displayed"
  {
  }

  /** An entry `prepare_args` does not always set is absent from the base entries. */
  lemma BaseArgsMissing(p: Value, renderId: string, k: string)
    requires k !in BASE_KEYS
    ensures Get(BaseArgs(p, renderId), k).None?
  {
    GetSomeIffKey(BaseArgs(p, renderId), k);
  }

  /** The visitor location is set, prepared, exactly when a non-empty one was given. */
  lemma PrepareArgsLocation(params: seq<(string, Value)>, renderId: string)
    ensures var given := Lookup(Arr(params), "user_location");
      var args := PrepareArgs(params, renderId);
      && (Empty(given) ==> Get(args, "user_location").None?)
      && (!Empty(given) ==> Get(args, "user_location") == Some(Arr(PrepareLocation(given))))
  {
    var p := Arr(params);
    BaseArgsMissing(p, renderId, "user_location");
    OptionalPutsKeepLocation(BaseArgs(p, renderId), p);
  }

  lemma OptionalPutsKeepLocation(base: seq<(string, Value)>, p: Value)
    requires Get(base, "user_location").None?
    ensures var given := Lookup(p, "user_location");
      var withLocation := PutGiven(base, "user_location", given, Arr(PrepareLocation(given)));
      var withContext := PutGiven(withLocation, "display_context", Lookup(p, "display_context"),
                                  Str(R.SanitizeKey(ToStr(Lookup(p, "display_context")))));
      var args := PutGiven(withContext, "already_displayed", Lookup(p, "already_displayed"),
                           Arr(AbsInts(ArrayCast(Lookup(p, "already_displayed")))));
      Get(args, "user_location") == if Empty(given) then None else Some(Arr(PrepareLocation(given)))
  {
    var given := Lookup(p, "user_location");
    var l := Arr(PrepareLocation(given));
    var c := Str(R.SanitizeKey(ToStr(Lookup(p, "display_context"))));
    var d := Arr(AbsInts(ArrayCast(Lookup(p, "already_displayed"))));
    ThreePuts(base, given, l, Lookup(p, "display_context"), c, Lookup(p, "already_displayed"), d);
  }

  lemma ThreePuts(base: seq<(string, Value)>, g1: Value, v1: Value, g2: Value, v2: Value, g3: Value, v3: Value)
    requires Get(base, "user_location").None?
    ensures Get(PutGiven(PutGiven(PutGiven(base, "user_location", g1, v1), "display_context", g2, v2), "already_displayed", g3, v3), "user_location")
         == if Empty(g1) then None else Some(v1)
  {
    OptionalKeysDistinct();
    var m1 := PutGiven(base, "user_location", g1, v1);
    var m2 := PutGiven(m1, "display_context", g2, v2);
    PutGivenOther(m1, "display_context", g2, v2, "user_location");
    PutGivenOther(m2, "already_displayed", g3, v3, "user_location");
  }

  /** With `fetch_location` set the header location is used; otherwise the given one. */
  lemma RequestArgsLocation(params: seq<(string, Value)>, headerLocation: Value, renderId: string)
    ensures var args := RequestArgs(params, headerLocation, renderId);
      var used := if Empty(Lookup(Arr(params), "fetch_location")) then Lookup(Arr(params), "user_location") else headerLocation;
      && (Empty(used) ==> Get(args, "user_location").None?)
      && (!Empty(used) ==> Get(args, "user_location") == Some(Arr(PrepareLocation(used))))
  {
    var p := if Empty(Lookup(Arr(params), "fetch_location")) then params else Put(params, "user_location", headerLocation);
    assert RequestArgs(params, headerLocation, renderId) == PrepareArgs(p, renderId);
    PrepareArgsLocation(p, renderId);
  }

  /** The response meta of a request: the counts it reports and its warnings. */
  datatype Meta = Meta(cardCount: int, cardsFromQuery: nat, cardsRendered: nat, warnings: seq<Warning>)

  /**
   * `get_listing_cards` up to rendering, on the parameters `get_params()`
   * hands it (see `RouteParams`): the arguments are prepared, `init` runs
   * against the query state, and the counts and warnings are derived from
   * its result and from what the renderer produced.
   */
  function GetListingCards(st: O.QueryState, params: seq<(string, Value)>, headerLocation: Value, renderId: string,
                           env: O.Env, htmlEmpty: bool, markers: nat): (r: (O.QueryState, Meta))
  {
    var args := RequestArgs(params, headerLocation, renderId);
    var (st1, res) := O.Init(st, args, env);
    var actionType := StrOf(Lookup(Arr(args), "action_type"));
    var count := ReportedCount(env.revision, actionType, res);
    var outcome := Outcome(O.CardCount(args), count, htmlEmpty, markers,
                           ItemsOf(Lookup(Arr(args), "selected_terms")),
                           Truthy(Lookup(Arr(args), "user_location")),
                           |ItemsOf(Lookup(Arr(args), "already_displayed"))|);
    (st1, Meta(O.CardCount(args), count, Rendered(outcome), Warnings(outcome)))
  }

  /**
   * The request reports the count it asked for and warns exactly when fewer
   * cards were rendered. Corrected, it reports the cards its query returned;
   * as written, it does so only for a cached result, and reports 2 for a
   * fresh REST result outside tabs mode.
   */
  lemma GetListingCardsMeta(st: O.QueryState, params: seq<(string, Value)>, headerLocation: Value, renderId: string,
                            env: O.Env, htmlEmpty: bool, markers: nat)
    ensures var args := RequestArgs(params, headerLocation, renderId);
      var res := O.Init(st, args, env);
      var m := GetListingCards(st, params, headerLocation, renderId, env, htmlEmpty, markers);
      && m.0 == res.0
      && m.1.cardCount == O.CardCount(args)
      && (env.revision.Corrected? || res.1.Cards? ==>
            m.1.cardsFromQuery == CountCards(StrOf(Lookup(Arr(args), "action_type")), res.1.data))
      && (env.revision.AsWritten? && res.1.CardsWithIds? && StrOf(Lookup(Arr(args), "action_type")) != "tabs" ==>
            m.1.cardsFromQuery == 2)
      && m.1.cardsRendered == (if htmlEmpty then 0 else markers)
      && ((exists i :: 0 <= i < |m.1.warnings| && m.1.warnings[i].Unfulfilled?) <==> m.1.cardsRendered < m.1.cardCount)
  {
    var args := RequestArgs(params, headerLocation, renderId);
    var (st1, res) := O.Init(st, args, env);
    var outcome := Outcome(O.CardCount(args), ReportedCount(env.revision, StrOf(Lookup(Arr(args), "action_type")), res), htmlEmpty, markers,
                           ItemsOf(Lookup(Arr(args), "selected_terms")),
                           Truthy(Lookup(Arr(args), "user_location")),
                           |ItemsOf(Lookup(Arr(args), "already_displayed"))|);
    WarningsSpec(outcome);
  }

  /**
   * End to end, as written: a REST request outside tabs mode that misses the
   * cache and finds cards reports two cards from the query, however many it
   * found.
   */
  lemma GetListingCardsMiscount(st: O.QueryState, params: seq<(string, Value)>, headerLocation: Value, renderId: string,
                                env: O.Env, htmlEmpty: bool, markers: nat)
    requires env.revision.AsWritten? && env.request.isRest
    requires var args := RequestArgs(params, headerLocation, renderId);
      && !O.MayReadCache(args, env)
      && StrOf(Lookup(Arr(args), "action_type")) != "tabs"
      && O.FetchFor(args, env, st.registry).Flat?
      && |O.FetchFor(args, env, st.registry).cards| > 0
    ensures var args := RequestArgs(params, headerLocation, renderId);
      && GetListingCards(st, params, headerLocation, renderId, env, htmlEmpty, markers).1.cardsFromQuery == 2
      && CountCards(StrOf(Lookup(Arr(args), "action_type")), O.Init(st, args, env).1.data)
         == |O.Ids(O.FetchFor(args, env, st.registry).cards)|
  {
    var args := RequestArgs(params, headerLocation, renderId);
    var data := O.FetchFor(args, env, st.registry);
    assert !O.IsEmptyData(data);
    O.InitRegistersDisplayed(st, args, env);
    GetListingCardsMeta(st, params, headerLocation, renderId, env, htmlEmpty, markers);
    CountCardsIsCards(StrOf(Lookup(Arr(args), "action_type")), data);
  }

  // ---------------------------------------------------------------------------
  // The route

  /** What the route answers a request. */
  datatype Answer =
    | InvalidParams(invalid: set<Checked>)     // status 400, the callback never runs
    | Answered(meta: Meta)

  /**
   * A request to the route: the parameters go through the schema first; a
   * refused one is answered with 400 and no query, otherwise the callback
   * runs on the parameters with the defaults filled in.
   */
  function Dispatch(st: O.QueryState, given: seq<(string, Value)>, headerLocation: Value, renderId: string,
                    env: O.Env, htmlEmpty: bool, markers: nat): (r: (O.QueryState, Answer))
    ensures r.1.Answered? <==> forall c: Checked :: !Refused(given, c)
    ensures r.1.InvalidParams? ==> r.0 == st && r.1.invalid != {} && forall c: Checked :: c in r.1.invalid <==> Refused(given, c)
  {
    match RouteParams(given)
    case Rejected(bad) => (st, InvalidParams(bad))
    case Accepted(params) =>
      var res := GetListingCards(st, params, headerLocation, renderId, env, htmlEmpty, markers);
      (res.0, Answered(res.1))
  }

  /** An integer `card_count` parameter that is not negative is the card count the query sees. */
  lemma RequestArgsCardCount(params: seq<(string, Value)>, n: nat, headerLocation: Value, renderId: string)
    requires Get(params, "card_count") == Some(Int(n))
    ensures O.CardCount(RequestArgs(params, headerLocation, renderId)) == n
  {
    var p := if Empty(Lookup(Arr(params), "fetch_location")) then params else Put(params, "user_location", headerLocation);
    assert Lookup(Arr(p), "card_count") == Int(n);
    PrepareArgsCardCount(p, renderId);
    assert RequestArgs(params, headerLocation, renderId) == PrepareArgs(p, renderId);
  }

  /**
   * The card count the query sees for an accepted request: the request's
   * integer, or the schema default 3 when it gives none, whatever the layout.
   */
  lemma RoutedCardCount(given: seq<(string, Value)>, headerLocation: Value, renderId: string)
    requires RouteParams(given).Accepted?
    ensures var n := O.CardCount(RequestArgs(RouteParams(given).params, headerLocation, renderId));
      var g := Get(given, "card_count");
      && 1 <= n <= 60
      && n == (if g.Some? then IntVal(g.value) else 3)
  {
    var n := GivenCardCount(given);
    assert 1 <= n <= 60 && n == (if Get(given, "card_count").Some? then IntVal(Get(given, "card_count").value) else 3) by {
      assert !Refused(given, CardCountParam);
    }
    RequestArgsCardCount(RouteParams(given).params, n, headerLocation, renderId);
  }

  /**
   * Over REST the card count always lies in 1..60: it is the request's
   * integer, or the schema default 3 when the request gives none, whatever
   * the layout. The slider default of 8 in `prepare_args` is never reached.
   */
  lemma DispatchCardCount(st: O.QueryState, given: seq<(string, Value)>, headerLocation: Value, renderId: string,
                          env: O.Env, htmlEmpty: bool, markers: nat)
    ensures var r := Dispatch(st, given, headerLocation, renderId, env, htmlEmpty, markers);
      var g := Get(given, "card_count");
      r.1.Answered? ==>
        && 1 <= r.1.meta.cardCount <= 60
        && r.1.meta.cardCount == (if g.Some? then IntVal(g.value) else 3)
  {
    if RouteParams(given).Accepted? {
      RoutedCardCount(given, headerLocation, renderId);
      GetListingCardsMeta(st, RouteParams(given).params, headerLocation, renderId, env, htmlEmpty, markers);
    }
  }
}

=== FILE: listing_view.dfy ===
/**
 * The front-end behaviour of the listing cards block: the tab manager
 * (selection, keyboard navigation, first-tab activation), the one-time
 * slider initialisation guard, and the sequential loading of
 * location-based placeholders, which carries the IDs shown by earlier
 * widgets into the exclusions of later ones.
 */
module ListingView {
  import opened Common

  // ---------------------------------------------------------------------------
  // Tabs and panels

  /**
   * A tab button: the panel id it names in `aria-controls` (None when the
   * attribute is absent), its `active`/`inactive` classes, `aria-selected`
   * and `tabindex`.
   */
  datatype Tab = Tab(controls: Option<string>, active: bool, inactive: bool, ariaSelected: bool, tabindex: string)

  /** A tab panel: its element id, the `hidden` property and `aria-hidden`. */
  datatype Panel = Panel(id: string, hidden: bool, ariaHidden: bool)

  datatype TabManager = TabManager(tabs: seq<Tab>, panels: seq<Panel>)

  /** The state one tab takes in `selectTab`, by whether it is the selected one. */
  function Mark(t: Tab, isActive: bool): Tab {
    t.(active := isActive, inactive := !isActive, ariaSelected := isActive,
       tabindex := if isActive then "-1" else "0")
  }

  /** A panel is shown exactly when its id equals the selected tab's `aria-controls`. */
  function Show(p: Panel, controls: Option<string>): Panel {
    var shouldShow := controls == Some(p.id);
    p.(hidden := !shouldShow, ariaHidden := !shouldShow)
  }

  /** A tab is in the selected state: active class, `aria-selected`, tabindex "-1". */
  predicate IsSelected(t: Tab) {
    t.active && !t.inactive && t.ariaSelected && t.tabindex == "-1"
  }

  /** A tab is in the unselected state: inactive class, no `aria-selected`, tabindex "0". */
  predicate IsUnselected(t: Tab) {
    !t.active && t.inactive && !t.ariaSelected && t.tabindex == "0"
  }

  /** Tab states after `selectTab` of the tab at `sel`, computed one tab at a time. */
  function MarkTabs(tabs: seq<Tab>, sel: nat): (r: seq<Tab>)
    ensures |r| == |tabs|
    decreases |tabs|
  {
    if |tabs| == 0 then []
    else MarkTabs(tabs[..|tabs| - 1], sel) + [Mark(tabs[|tabs| - 1], |tabs| - 1 == sel)]
  }

  /** Panel states after `selectTab` of a tab whose `aria-controls` is `controls`. */
  function ShowPanels(panels: seq<Panel>, controls: Option<string>): (r: seq<Panel>)
    ensures |r| == |panels|
    decreases |panels|
  {
    if |panels| == 0 then []
    else ShowPanels(panels[..|panels| - 1], controls) + [Show(panels[|panels| - 1], controls)]
  }

  /**
   * After selecting `sel`, the tab at `sel` is the only selected tab, every
   * other tab is unselected, and no tab loses its `aria-controls`.
   */
  lemma {:induction false} MarkTabsSelects(tabs: seq<Tab>, sel: nat)
    ensures forall i :: 0 <= i < |tabs| ==>
      && MarkTabs(tabs, sel)[i].controls == tabs[i].controls
      && (i == sel ==> IsSelected(MarkTabs(tabs, sel)[i]))
      && (i != sel ==> IsUnselected(MarkTabs(tabs, sel)[i]))
    decreases |tabs|
  {
    if |tabs| > 0 {
      MarkTabsSelects(tabs[..|tabs| - 1], sel);
      forall i | 0 <= i < |tabs| - 1
        ensures MarkTabs(tabs, sel)[i] == MarkTabs(tabs[..|tabs| - 1], sel)[i]
      {
      }
    }
  }

  /**
   * After selecting a tab, a panel is visible (neither hidden nor
   * aria-hidden) exactly when its id is the tab's `aria-controls`; ids are kept.
   */
  lemma {:induction false} ShowPanelsVisibility(panels: seq<Panel>, controls: Option<string>)
    ensures forall j :: 0 <= j < |panels| ==>
      && ShowPanels(panels, controls)[j].id == panels[j].id
      && ShowPanels(panels, controls)[j].hidden == ShowPanels(panels, controls)[j].ariaHidden
      && (!ShowPanels(panels, controls)[j].hidden <==> controls == Some(panels[j].id))
    decreases |panels|
  {
    if |panels| > 0 {
      ShowPanelsVisibility(panels[..|panels| - 1], controls);
      forall j | 0 <= j < |panels| - 1
        ensures ShowPanels(panels, controls)[j] == ShowPanels(panels[..|panels| - 1], controls)[j]
      {
      }
    }
  }

  /** The tab states after a selection do not depend on any earlier selection. */
  lemma LastSelectionWins(tabs: seq<Tab>, first: nat, second: nat)
    ensures MarkTabs(MarkTabs(tabs, first), second) == MarkTabs(tabs, second)
  {
    var a := MarkTabs(MarkTabs(tabs, first), second);
    var b := MarkTabs(tabs, second);
    MarkTabsSelects(tabs, first);
    MarkTabsSelects(MarkTabs(tabs, first), second);
    MarkTabsSelects(tabs, second);
    forall i | 0 <= i < |tabs|
      ensures a[i] == b[i]
    {
    }
  }

  /** Panel states after a selection do not depend on any earlier selection. */
  lemma LastShowWins(panels: seq<Panel>, first: Option<string>, second: Option<string>)
    ensures ShowPanels(ShowPanels(panels, first), second) == ShowPanels(panels, second)
  {
    var a := ShowPanels(ShowPanels(panels, first), second);
    var b := ShowPanels(panels, second);
    ShowPanelsVisibility(panels, first);
    ShowPanelsVisibility(ShowPanels(panels, first), second);
    ShowPanelsVisibility(panels, second);
    forall j | 0 <= j < |panels|
      ensures a[j] == b[j]
    {
    }
  }

  /**
   * With distinct panel ids, at most one panel is visible after a selection,
   * and when the selected tab names an existing panel, that panel is it.
   */
  lemma AtMostOnePanelVisible(panels: seq<Panel>, controls: Option<string>, j: nat, k: nat)
    requires NoDup(Ids(panels))
    requires j < |panels| && k < |panels|
    requires !ShowPanels(panels, controls)[j].hidden && !ShowPanels(panels, controls)[k].hidden
    ensures j == k
  {
    ShowPanelsVisibility(panels, controls);
    assert Ids(panels)[j] == panels[j].id && Ids(panels)[k] == panels[k].id;
  }

  function Ids(panels: seq<Panel>): (r: seq<string>)
    ensures |r| == |panels|
    ensures forall j :: 0 <= j < |panels| ==> r[j] == panels[j].id
  {
    if |panels| == 0 then [] else [panels[0].id] + Ids(panels[1..])
  }

  /**
   * `selectTab`: one pass over the tabs setting each one's state, then one
   * pass over the panels showing the one the selected tab controls.
   */
  method SelectTab(m: TabManager, sel: nat) returns (r: TabManager)
    requires sel < |m.tabs|
    ensures r.tabs == MarkTabs(m.tabs, sel)
    ensures r.panels == ShowPanels(m.panels, m.tabs[sel].controls)
    ensures forall i :: 0 <= i < |r.tabs| ==> (r.tabs[i].active <==> i == sel)
  {
    var ts: seq<Tab> := [];
    var i := 0;
    while i < |m.tabs|
      invariant 0 <= i <= |m.tabs|
      invariant ts == MarkTabs(m.tabs[..i], sel)
    {
      assert m.tabs[..i + 1][..i] == m.tabs[..i];
      ts := ts + [Mark(m.tabs[i], i == sel)];
      i := i + 1;
    }
    assert m.tabs[..i] == m.tabs;
    var controls := m.tabs[sel].controls;
    var ps: seq<Panel> := [];
    var j := 0;
    while j < |m.panels|
      invariant 0 <= j <= |m.panels|
      invariant ps == ShowPanels(m.panels[..j], controls)
    {
      assert m.panels[..j + 1][..j] == m.panels[..j];
      ps := ps + [Show(m.panels[j], controls)];
      j := j + 1;
    }
    assert m.panels[..j] == m.panels;
    r := TabManager(ts, ps);
    MarkTabsSelects(m.tabs, sel);
  }

  /** The state `selectTab` leaves behind, as a value. */
  function Selected(m: TabManager, sel: nat): (r: TabManager)
    requires sel < |m.tabs|
    ensures |r.tabs| == |m.tabs| && |r.panels| == |m.panels|
  {
    TabManager(MarkTabs(m.tabs, sel), ShowPanels(m.panels, m.tabs[sel].controls))
  }

  /** `init`: with no tabs nothing changes; otherwise the first tab is selected. */
  function Init(m: TabManager): (r: TabManager)
  {
    if |m.tabs| == 0 then m else Selected(m, 0)
  }

  lemma InitSpec(m: TabManager)
    ensures |m.tabs| == 0 ==> Init(m) == m
    ensures |m.tabs| > 0 ==>
      && IsSelected(Init(m).tabs[0])
      && (forall i :: 0 < i < |m.tabs| ==> IsUnselected(Init(m).tabs[i]))
      && (forall j :: 0 <= j < |m.panels| ==>
            (!Init(m).panels[j].hidden <==> m.tabs[0].controls == Some(m.panels[j].id)))
  {
    if |m.tabs| > 0 {
      MarkTabsSelects(m.tabs, 0);
      ShowPanelsVisibility(m.panels, m.tabs[0].controls);
    }
  }

  // ---------------------------------------------------------------------------
  // Keyboard navigation

  /**
   * The tab a key moves to from tab `current` of `n`: the arrows step and
   * wrap around, Home and End go to the ends, and any other key moves nothing.
   */
  function KeyTarget(n: nat, current: nat, key: string): (r: Option<nat>)
    requires current < n
    ensures r.Some? ==> r.value < n
    ensures r.Some? <==> key in {"ArrowLeft", "ArrowRight", "Home", "End"}
  {
    if key == "ArrowLeft" then Some(if current > 0 then current - 1 else n - 1)
    else if key == "ArrowRight" then Some(if current + 1 < n then current + 1 else 0)
    else if key == "Home" then Some(0)
    else if key == "End" then Some(n - 1)
    else None
  }

  /** The arrows are a rotation: right is +1 and left is -1, modulo the number of tabs. */
  lemma KeyTargetRotates(n: nat, current: nat)
    requires current < n
    ensures KeyTarget(n, current, "ArrowRight") == Some((current + 1) % n)
    ensures KeyTarget(n, current, "ArrowLeft") == Some((current - 1 + n) % n)
  {
    if current + 1 < n {
      ModBelow(current + 1, n);
    } else {
      ModBelow(0, n);
      ModShift(0, n);
    }
    if current > 0 {
      ModShift(current - 1, n);
    } else {
      ModBelow(n - 1, n);
    }
  }

  lemma ModBelow(a: int, n: int)
    requires 0 <= a < n
    ensures a % n == a
  {
  }

  lemma ModShift(a: int, n: int)
    requires 0 <= a < n
    ensures (a + n) % n == a
  {
  }

  /** ArrowRight and ArrowLeft undo each other. */
  lemma ArrowsInverse(n: nat, current: nat)
    requires current < n
    ensures KeyTarget(n, KeyTarget(n, current, "ArrowRight").value, "ArrowLeft") == Some(current)
    ensures KeyTarget(n, KeyTarget(n, current, "ArrowLeft").value, "ArrowRight") == Some(current)
  {
  }

  /** `handleKeyNav`: select the key's target tab, or leave everything as it is. */
  function HandleKeyNav(m: TabManager, current: nat, key: string): (r: TabManager)
    requires current < |m.tabs|
  {
    match KeyTarget(|m.tabs|, current, key)
    case None => m
    case Some(t) => Selected(m, t)
  }

  lemma HandleKeyNavSpec(m: TabManager, current: nat, key: string)
    requires current < |m.tabs|
    ensures KeyTarget(|m.tabs|, current, key).None? ==> HandleKeyNav(m, current, key) == m
    ensures key == "Home" ==> IsSelected(HandleKeyNav(m, current, key).tabs[0])
    ensures key == "End" ==> IsSelected(HandleKeyNav(m, current, key).tabs[|m.tabs| - 1])
    ensures KeyTarget(|m.tabs|, current, key).Some? ==>
      forall i :: 0 <= i < |m.tabs| ==>
        (IsSelected(HandleKeyNav(m, current, key).tabs[i]) <==> Some(i) == KeyTarget(|m.tabs|, current, key))
  {
    var t := KeyTarget(|m.tabs|, current, key);
    if t.Some? {
      MarkTabsSelects(m.tabs, t.value);
    }
  }

  // ---------------------------------------------------------------------------
  // Slider initialisation

  /** What `initSlider` reports and leaves behind: its result, the track's marker, the slider registry. */
  datatype SliderInit = SliderInit(ok: bool, initialized: bool, sliders: seq<(string, nat)>)

  /**
   * `initSlider`: a track already marked initialised is refused; otherwise a
   * slider is built (which may throw), the track is marked, and the slider is
   * registered under a non-empty panel id.
   */
  function InitSlider(initialized: bool, panelId: Option<string>, sliders: seq<(string, nat)>,
                      newSlider: nat, constructorThrows: bool): (r: SliderInit)
  {
    if initialized then SliderInit(false, initialized, sliders)
    else if constructorThrows then SliderInit(false, initialized, sliders)
    else
      var registry := if panelId.Some? && panelId.value != "" then Put(sliders, panelId.value, newSlider) else sliders;
      SliderInit(true, true, registry)
  }

  lemma InitSliderSpec(initialized: bool, panelId: Option<string>, sliders: seq<(string, nat)>,
                       newSlider: nat, constructorThrows: bool)
    ensures var r := InitSlider(initialized, panelId, sliders, newSlider, constructorThrows);
      && (r.ok <==> !initialized && !constructorThrows)
      && (!r.ok ==> r.initialized == initialized && r.sliders == sliders)
      && (r.ok ==> r.initialized)
      && (r.ok && panelId.Some? && panelId.value != "" ==> Get(r.sliders, panelId.value) == Some(newSlider))
      && (forall p :: (panelId != Some(p) || p == "") ==> Get(r.sliders, p) == Get(sliders, p))
  {
  }

  /** A second initialisation of the same track is refused and changes nothing. */
  lemma InitSliderOnce(panelId: Option<string>, sliders: seq<(string, nat)>, s1: nat, again: Option<string>, s2: nat, throws: bool)
    ensures var first := InitSlider(false, panelId, sliders, s1, false);
      var second := InitSlider(first.initialized, again, first.sliders, s2, throws);
      first.ok && !second.ok && second.initialized && second.sliders == first.sliders
  {
  }

  // ---------------------------------------------------------------------------
  // Location-based placeholders

  /** A placeholder's listing arguments: `exclude_displayed` (truthiness) and `excluded_post_ids`. */
  datatype Args = Args(excludeDisplayed: bool, excluded: Option<seq<int>>)

  /** The POST body sent for a placeholder: its arguments, possibly with extended exclusions, and `fetch_location`. */
  datatype Request = Request(index: nat, excludeDisplayed: bool, excluded: Option<seq<int>>, fetchLocation: bool)

  /**
   * What came back: a failure (network error, HTTP error status or an
   * unreadable body) or a decoded body with `success`, the presence of
   * `html`, and `displayed_ids` when it is an array.
   */
  datatype Response = Failed | Body(success: bool, hasHtml: bool, displayedIds: Option<seq<int>>)

  /** How a placeholder ends: replaced by the HTML, hidden after an error, or left as it was. */
  datatype Outcome = Replaced | Hidden | LeftInPlace

  /** Progress through the placeholders: requests sent, IDs accumulated, outcome of each placeholder. */
  datatype LoadState = LoadState(requests: seq<Request>, acc: seq<int>, outcomes: seq<Outcome>)

  /** The IDs a response reports as displayed. */
  function Shown(resp: Response): seq<int> {
    if resp.Body? && resp.displayedIds.Some? then resp.displayedIds.value else []
  }

  /**
   * A placeholder that excludes displayed listings gets the accumulated IDs
   * appended to its own exclusions, de-duplicated; nothing changes when it
   * does not exclude or nothing has been accumulated yet.
   */
  function ExtendExclusions(a: Args, acc: seq<int>): (r: Option<seq<int>>)
  {
    if a.excludeDisplayed && |acc| > 0 then
      Some(Dedup((if a.excluded.Some? then a.excluded.value else []) + acc))
    else a.excluded
  }

  lemma ExtendExclusionsSpec(a: Args, acc: seq<int>)
    ensures var r := ExtendExclusions(a, acc);
      && (!a.excludeDisplayed || |acc| == 0 ==> r == a.excluded)
      && (a.excludeDisplayed && |acc| > 0 ==>
            && r.Some? && NoDup(r.value)
            && (forall x :: x in r.value <==> x in acc || (a.excluded.Some? && x in a.excluded.value)))
  {
    if a.excludeDisplayed && |acc| > 0 {
      var own := if a.excluded.Some? then a.excluded.value else [];
      DedupMembers(own + acc);
    }
  }

  /** The accumulated IDs after a response: its displayed IDs appended, de-duplicated. */
  function Accumulate(acc: seq<int>, resp: Response): (r: seq<int>)
  {
    if Shown(resp) == [] then acc else Dedup(acc + Shown(resp))
  }

  lemma AccumulateSpec(acc: seq<int>, resp: Response)
    requires NoDup(acc)
    ensures var r := Accumulate(acc, resp);
      && NoDup(r)
      && (forall x :: x in r <==> x in acc || x in Shown(resp))
      && |acc| <= |r| && r[..|acc|] == acc
  {
    if Shown(resp) != [] {
      DedupMembers(acc + Shown(resp));
      DedupPrefix(acc, Shown(resp));
      DedupOfNoDup(acc);
    }
  }

  function OutcomeOf(resp: Response): Outcome {
    if resp.Failed? then Hidden
    else if resp.success && resp.hasHtml then Replaced
    else LeftInPlace
  }

  /**
   * One placeholder. Arguments that do not parse (None) end in an error
   * before any request: the placeholder is hidden. Otherwise the request
   * carries the extended exclusions, the response's IDs are accumulated
   * whether or not it succeeded, and the outcome follows the response.
   */
  function Next(st: LoadState, ph: Option<Args>, index: nat, respond: Request -> Response): (r: LoadState)
  {
    if ph.None? then LoadState(st.requests, st.acc, st.outcomes + [Hidden])
    else
      var req := Request(index, ph.value.excludeDisplayed, ExtendExclusions(ph.value, st.acc), true);
      var resp := respond(req);
      LoadState(st.requests + [req], Accumulate(st.acc, resp), st.outcomes + [OutcomeOf(resp)])
  }

  /** The state after the placeholders `phs`, processed in order; `respond` stands for the server. */
  function Load(phs: seq<Option<Args>>, respond: Request -> Response): (r: LoadState)
    ensures |r.outcomes| == |phs|
    decreases |phs|
  {
    if |phs| == 0 then LoadState([], [], [])
    else Next(Load(phs[..|phs| - 1], respond), phs[|phs| - 1], |phs| - 1, respond)
  }

  /** Some request among the first `n` got `x` back as displayed. */
  ghost predicate ShownBefore(reqs: seq<Request>, respond: Request -> Response, n: nat, x: int)
    requires n <= |reqs|
  {
    exists m :: 0 <= m < n && x in Shown(respond(reqs[m]))
  }

  /**
   * The accumulated IDs are duplicate-free and are exactly the IDs the
   * responses so far reported as displayed.
   */
  lemma {:induction false} LoadAccumulates(phs: seq<Option<Args>>, respond: Request -> Response)
    ensures var st := Load(phs, respond);
      && NoDup(st.acc)
      && forall x :: x in st.acc <==> ShownBefore(st.requests, respond, |st.requests|, x)
    decreases |phs|
  {
    if |phs| > 0 {
      var pre := Load(phs[..|phs| - 1], respond);
      LoadAccumulates(phs[..|phs| - 1], respond);
      var ph := phs[|phs| - 1];
      var st := Load(phs, respond);
      if ph.Some? {
        var req := Request(|phs| - 1, ph.value.excludeDisplayed, ExtendExclusions(ph.value, pre.acc), true);
        AccumulateSpec(pre.acc, respond(req));
        assert st.requests == pre.requests + [req];
        forall x
          ensures x in st.acc <==> ShownBefore(st.requests, respond, |st.requests|, x)
        {
          if x in pre.acc {
            var m :| 0 <= m < |pre.requests| && x in Shown(respond(pre.requests[m]));
            assert st.requests[m] == pre.requests[m];
          } else if x in Shown(respond(req)) {
            assert st.requests[|pre.requests|] == req;
          }
        }
      } else {
        forall x
          ensures x in st.acc <==> ShownBefore(st.requests, respond, |st.requests|, x)
        {
        }
      }
    }
  }

  /**
   * The ordering promise: every placeholder that excludes displayed listings
   * sends, in its exclusions, every ID that an earlier response reported as
   * displayed, and every request asks for the visitor's location.
   */
  lemma {:induction false} LoadExcludesEarlier(phs: seq<Option<Args>>, respond: Request -> Response)
    ensures var st := Load(phs, respond);
      forall k :: 0 <= k < |st.requests| ==>
        && st.requests[k].fetchLocation
        && (st.requests[k].excludeDisplayed ==>
              forall x :: ShownBefore(st.requests, respond, k, x) ==>
                st.requests[k].excluded.Some? && x in st.requests[k].excluded.value)
    decreases |phs|
  {
    if |phs| > 0 {
      var pre := Load(phs[..|phs| - 1], respond);
      LoadExcludesEarlier(phs[..|phs| - 1], respond);
      LoadAccumulates(phs[..|phs| - 1], respond);
      var ph := phs[|phs| - 1];
      var st := Load(phs, respond);
      if ph.Some? {
        var req := Request(|phs| - 1, ph.value.excludeDisplayed, ExtendExclusions(ph.value, pre.acc), true);
        assert st.requests == pre.requests + [req];
        ExtendExclusionsSpec(ph.value, pre.acc);
        forall k | 0 <= k < |st.requests|
          ensures st.requests[k].fetchLocation
          ensures st.requests[k].excludeDisplayed ==>
              forall x :: ShownBefore(st.requests, respond, k, x) ==>
                st.requests[k].excluded.Some? && x in st.requests[k].excluded.value
        {
          if k < |pre.requests| {
            assert st.requests[k] == pre.requests[k];
            forall x | ShownBefore(st.requests, respond, k, x)
              ensures ShownBefore(pre.requests, respond, k, x)
            {
              var m :| 0 <= m < k && x in Shown(respond(st.requests[m]));
              assert st.requests[m] == pre.requests[m];
            }
          } else {
            forall x | ShownBefore(st.requests, respond, k, x)
              ensures x in pre.acc
            {
              var m :| 0 <= m < k && x in Shown(respond(st.requests[m]));
              assert st.requests[m] == pre.requests[m];
            }
          }
        }
      } else {
        assert st.requests == pre.requests;
      }
    }
  }

  /** `loadLocationBasedListings`: the placeholders one after another, each awaiting its response. */
  method LoadLocationBasedListings(phs: seq<Option<Args>>, respond: Request -> Response) returns (st: LoadState)
    ensures st == Load(phs, respond)
    ensures NoDup(st.acc)
    ensures |st.outcomes| == |phs|
    ensures forall k :: 0 <= k < |phs| ==> (phs[k].None? ==> st.outcomes[k] == Hidden)
  {
    st := LoadState([], [], []);
    var i := 0;
    while i < |phs|
      invariant 0 <= i <= |phs|
      invariant st == Load(phs[..i], respond)
      invariant NoDup(st.acc)
      invariant forall k :: 0 <= k < i ==> (phs[k].None? ==> st.outcomes[k] == Hidden)
    {
      assert phs[..i + 1][..i] == phs[..i];
      var ph := phs[i];
      if ph.None? {
        st := LoadState(st.requests, st.acc, st.outcomes + [Hidden]);
      } else {
        var req := Request(i, ph.value.excludeDisplayed, ExtendExclusions(ph.value, st.acc), true);
        var resp := respond(req);
        AccumulateSpec(st.acc, resp);
        st := LoadState(st.requests + [req], Accumulate(st.acc, resp), st.outcomes + [OutcomeOf(resp)]);
      }
      i := i + 1;
    }
    assert phs[..i] == phs;
  }
}

=== FILE: orchestrator.dfy ===
/**
 * The listing query orchestrator (`ES_Query::init`) as a state transition over
 * the per-request processing cache, the transient store and the displayed-IDs
 * registry: cache-key derivation, cache gating, exclusion merging, one flat
 * search or one multi-search per tab, result shaping (slicing, tab rotation)
 * and registration of the IDs shown.
 *
 * Elasticsearch is the pair of oracles `search` and `msearch` in `Env`; a
 * transport failure, a non-200 status or undecodable JSON is `None`.
 */
module Orchestrator {
  import opened Common
  import opened PhpValue
  import opened QueryBuilder
  import R = Registry

  // ---------------------------------------------------------------------------
  // Hits and cards

  /** The `rmg` object of an indexed listing; `None` is an absent or null key. */
  datatype Rmg = Rmg(
    address: Option<string>,
    featuredImage: Option<string>,
    imageUrl: Option<string>,
    premiumLevel: Option<string>,
    totalPoints: Option<int>,
    phone: Option<string>,
    trackingNumber: Option<string>,
    ratingAvg: Option<real>,
    reviewCount: Option<int>,
    insurance: Value,
    website: Option<string>,
    overview: Option<string>,
    claimed: Value,
    program: Option<string>,
    winnerRank: Option<string>,
    winnerName: Option<string>,
    winnerRank2: Option<string>,
    winnerName2: Option<string>
  )

  /** One search hit: the `_source` fields the card needs. */
  datatype Hit = Hit(postId: Option<int>, postTitle: Option<string>, permalink: Option<string>, rmg: Rmg)

  /** City, state and zip as the address parser of the renderer extracts them. */
  datatype AddressParts = AddressParts(city: string, state: string, zip: string)

  /** The tab a card was found for (set on cards of tabbed blocks only). */
  datatype TabMeta = TabMeta(key: string, caption: string, group: string, value: string)

  datatype Card = Card(
    id: int,
    title: string,
    link: string,
    image: string,
    premium: bool,
    premiumLevel: string,
    totalPoints: int,
    phone: string,
    trackingNumber: string,
    address: string,
    city: string,
    state: string,
    zip: string,
    rating: real,
    reviews: int,
    award: string,
    awardDescription: string,
    acceptsInsurance: bool,
    website: string,
    overview: string,
    claimed: bool,
    cardOptions: Value,
    program: string,
    tab: Option<TabMeta>
  )

  predicate Present(s: Option<string>) {
    s.Some? && !PhpEmptyString(s.value)
  }

  function UcFirst(s: string): (r: string)
    ensures |r| == |s| && (|s| > 0 ==> r[1..] == s[1..])
    ensures |s| > 0 ==> r[0] == ToUpperAscii(s[0])
  {
    if |s| == 0 then s else [ToUpperAscii(s[0])] + s[1..]
  }

  const AWARD_PREFIX := "Top 10 Rehab In "

  datatype Awards = Awards(award: string, description: string)

  /**
   * The award badge: the first winner rank/name pair when both are present,
   * else the second pair, else nothing.
   */
  function ProcessAwards(rmg: Rmg): (a: Awards)
    ensures Present(rmg.winnerRank) && Present(rmg.winnerName) ==>
              a == Awards(rmg.winnerRank.value, AWARD_PREFIX + UcFirst(rmg.winnerName.value))
    ensures !(Present(rmg.winnerRank) && Present(rmg.winnerName)) && Present(rmg.winnerRank2) && Present(rmg.winnerName2) ==>
              a == Awards(rmg.winnerRank2.value, AWARD_PREFIX + UcFirst(rmg.winnerName2.value))
  {
    if Present(rmg.winnerRank) && Present(rmg.winnerName) then
      Awards(rmg.winnerRank.value, AWARD_PREFIX + UcFirst(rmg.winnerName.value))
    else if Present(rmg.winnerRank2) && Present(rmg.winnerName2) then
      Awards(rmg.winnerRank2.value, AWARD_PREFIX + UcFirst(rmg.winnerName2.value))
    else
      Awards("", "")
  }

  /** A listing carries an award iff one of its winner pairs is complete, and then the description names it. */
  lemma AwardsIff(rmg: Rmg)
    ensures var a := ProcessAwards(rmg);
      && (!PhpEmptyString(a.award) <==>
            (Present(rmg.winnerRank) && Present(rmg.winnerName)) || (Present(rmg.winnerRank2) && Present(rmg.winnerName2)))
      && (a.award == "" <==> a.description == "")
      && (a.description != "" ==> a.description[..|AWARD_PREFIX|] == AWARD_PREFIX)
  {
  }

  /** Premium and Premium+ listings are premium; anything else is free. */
  function IsPremium(level: string): (b: bool)
    ensures b <==> level in {"Premium", "Premium+"}
  {
    level == "Premium" || level == "Premium+"
  }

  /** The card of a hit, missing fields defaulted. */
  function CardOf(hit: Hit, cardOptions: Value, parseAddress: (string, int) -> AddressParts): (c: Card)
    ensures c.id == hit.postId.GetOr(0)
    ensures c.premium <==> hit.rmg.premiumLevel.GetOr("") in {"Premium", "Premium+"}
    ensures c.image == (if hit.rmg.featuredImage.Some? then hit.rmg.featuredImage.value else hit.rmg.imageUrl.GetOr(""))
    ensures c.acceptsInsurance <==> !Empty(hit.rmg.insurance)
    ensures c.tab.None?
  {
    var rmg := hit.rmg;
    var parts := parseAddress(rmg.address.GetOr(""), hit.postId.GetOr(0));
    var awards := ProcessAwards(rmg);
    var level := rmg.premiumLevel.GetOr("");
    Card(
      hit.postId.GetOr(0),
      hit.postTitle.GetOr(""),
      hit.permalink.GetOr("#"),
      if rmg.featuredImage.Some? then rmg.featuredImage.value else rmg.imageUrl.GetOr(""),
      IsPremium(level),
      level,
      rmg.totalPoints.GetOr(0),
      rmg.phone.GetOr(""),
      rmg.trackingNumber.GetOr(""),
      rmg.address.GetOr(""),
      parts.city, parts.state, parts.zip,
      rmg.ratingAvg.GetOr(0.0),
      rmg.reviewCount.GetOr(0),
      awards.award,
      awards.description,
      !Empty(rmg.insurance),
      rmg.website.GetOr(""),
      rmg.overview.GetOr(""),
      !Empty(rmg.claimed),
      cardOptions,
      rmg.program.GetOr(""),
      None)
  }

  /** Every hit becomes exactly one card, in order. */
  function TransformHits(hits: seq<Hit>, cardOptions: Value, parseAddress: (string, int) -> AddressParts): (cards: seq<Card>)
    ensures |cards| == |hits|
    ensures forall i :: 0 <= i < |hits| ==> cards[i] == CardOf(hits[i], cardOptions, parseAddress)
  {
    if |hits| == 0 then []
    else [CardOf(hits[0], cardOptions, parseAddress)] + TransformHits(hits[1..], cardOptions, parseAddress)
  }

  function Ids(cards: seq<Card>): (ids: seq<int>)
    ensures |ids| == |cards|
    ensures forall i :: 0 <= i < |cards| ==> ids[i] == cards[i].id
  {
    if |cards| == 0 then [] else [cards[0].id] + Ids(cards[1..])
  }

  /**
   * The cards of one search: none when the search failed or found nothing,
   * otherwise the first `cardCount` transformed hits (`array_slice` semantics
   * for a negative count).
   */
  function ProcessQueryResults(hits: Option<seq<Hit>>, cardCount: int, cardOptions: Value,
                               parseAddress: (string, int) -> AddressParts): (cards: seq<Card>)
    ensures hits.None? ==> cards == []
    ensures hits.Some? ==> |cards| <= |hits.value|
    ensures hits.Some? ==> cards == TransformHits(hits.value, cardOptions, parseAddress)[..|cards|]
    ensures hits.Some? && cardCount >= 0 ==> |cards| == (if cardCount < |hits.value| then cardCount else |hits.value|)
  {
    if hits.None? || |hits.value| == 0 then []
    else SliceHead(TransformHits(hits.value, cardOptions, parseAddress), cardCount)
  }

  // ---------------------------------------------------------------------------
  // Tabs

  function Tag(cards: seq<Card>, key: string, t: TermData): (r: seq<Card>)
    ensures |r| == |cards|
    ensures forall i :: 0 <= i < |cards| ==>
              r[i] == cards[i].(tab := Some(TabMeta(key, t.caption, t.group, t.value)))
  {
    if |cards| == 0 then []
    else [cards[0].(tab := Some(TabMeta(key, t.caption, t.group, t.value)))] + Tag(cards[1..], key, t)
  }

  function Min(a: int, b: int): int {
    if a <= b then a else b
  }

  /** One of the first two cards was already leading an earlier tab. */
  predicate LeadSeen(cards: seq<Card>, seen: set<int>) {
    exists i :: 0 <= i < Min(2, |cards|) && cards[i].id in seen
  }

  /**
   * A tab whose first two cards repeat an earlier tab's leaders, and which has
   * more than two cards, is rotated left by two; otherwise it stays as it is.
   */
  function Rotate(cards: seq<Card>, seen: set<int>): (r: seq<Card>)
    ensures |r| == |cards|
    ensures multiset(r) == multiset(cards)
    ensures LeadSeen(cards, seen) && |cards| > 2 ==> r[..|r| - 2] == cards[2..] && r[|r| - 2..] == cards[..2]
    ensures !(LeadSeen(cards, seen) && |cards| > 2) ==> r == cards
  {
    if LeadSeen(cards, seen) && |cards| > 2 then
      assert cards == cards[..2] + cards[2..];
      cards[2..] + cards[..2]
    else
      cards
  }

  /** The IDs of the (at most two) leading cards. */
  function LeadIds(cards: seq<Card>): set<int> {
    set i | 0 <= i < Min(2, |cards|) :: cards[i].id
  }

  /** The cards of one tab's search, sliced and tagged with the tab. */
  function TabCards(response: Option<seq<Hit>>, key: string, t: TermData, cardCount: int, cardOptions: Value,
                    parseAddress: (string, int) -> AddressParts): seq<Card>
  {
    Tag(ProcessQueryResults(response, cardCount, cardOptions, parseAddress), key, t)
  }

  type Tabs = seq<(string, seq<Card>)>

  /**
   * The tab loop from response `i` on: responses beyond the tab list are
   * skipped; each tab's cards are rotated against the leaders seen so far and
   * stored under the tab's caption (a repeated caption replaces the earlier tab).
   */
  function TabsFrom(responses: seq<Option<seq<Hit>>>, terms: seq<(string, TermData)>, i: nat, seen: set<int>, acc: Tabs,
                    cardCount: int, cardOptions: Value, parseAddress: (string, int) -> AddressParts): Tabs
    decreases |responses| - i
  {
    if i >= |responses| then acc
    else if i >= |terms| then TabsFrom(responses, terms, i + 1, seen, acc, cardCount, cardOptions, parseAddress)
    else
      var cards := TabCards(responses[i], terms[i].0, terms[i].1, cardCount, cardOptions, parseAddress);
      var rotated := if |cards| > 0 then Rotate(cards, seen) else cards;
      var seen' := if |cards| > 0 then seen + LeadIds(rotated) else seen;
      TabsFrom(responses, terms, i + 1, seen', Put(acc, terms[i].1.caption, rotated), cardCount, cardOptions, parseAddress)
  }

  /** The tabbed result of a multi-search: nothing when it failed. */
  function ProcessTabbed(responses: Option<seq<Option<seq<Hit>>>>, terms: seq<(string, TermData)>, cardCount: int,
                         cardOptions: Value, parseAddress: (string, int) -> AddressParts): Tabs
  {
    if responses.None? then [] else TabsFrom(responses.value, terms, 0, {}, [], cardCount, cardOptions, parseAddress)
  }

  /** Tab `caption` holds a reordering of the cards found for some tab `j < n` with that caption. */
  ghost predicate TabFromResponse(caption: string, cards: seq<Card>, responses: seq<Option<seq<Hit>>>,
                                  terms: seq<(string, TermData)>, n: int, cardCount: int, cardOptions: Value,
                                  parseAddress: (string, int) -> AddressParts) {
    exists j :: 0 <= j < n && j < |terms| && j < |responses| && terms[j].1.caption == caption
      && multiset(cards) == multiset(TabCards(responses[j], terms[j].0, terms[j].1, cardCount, cardOptions, parseAddress))
  }

  ghost predicate TabsFromResponses(acc: Tabs, responses: seq<Option<seq<Hit>>>, terms: seq<(string, TermData)>, n: int,
                                    cardCount: int, cardOptions: Value, parseAddress: (string, int) -> AddressParts) {
    NoDup(Keys(acc))
    && forall e :: e in acc ==> TabFromResponse(e.0, e.1, responses, terms, n, cardCount, cardOptions, parseAddress)
  }

  lemma {:induction false} PutKeepsNoDup<K(!new), V>(m: seq<(K, V)>, k: K, v: V)
    requires NoDup(Keys(m))
    ensures NoDup(Keys(Put(m, k, v)))
  {
    if k !in Keys(m) {
      assert Keys(Put(m, k, v)) == Keys(m) + [k];
    }
  }

  /** Every entry of `Put(m, k, v)` is the new entry or an entry of `m`. */
  lemma {:induction false} PutEntries<K(!new), V>(m: seq<(K, V)>, k: K, v: V)
    ensures forall e :: e in Put(m, k, v) ==> e == (k, v) || e in m
  {
    if |m| > 0 && m[0].0 != k {
      PutEntries(m[1..], k, v);
      assert Put(m, k, v) == [m[0]] + Put(m[1..], k, v);
      forall e | e in Put(m, k, v)
        ensures e == (k, v) || e in m
      {
        if e != m[0] {
          assert e in Put(m[1..], k, v);
        }
      }
    } else if |m| > 0 {
      assert Put(m, k, v) == [(k, v)] + m[1..];
      forall e | e in Put(m, k, v)
        ensures e == (k, v) || e in m
      {
        if e != (k, v) {
          assert e in m[1..];
        }
      }
    }
  }

  /** A property every entry of `m` and the new entry have holds of every entry of `Put(m, k, v)`. */
  lemma PutAll<K(!new), V>(m: seq<(K, V)>, k: K, v: V, P: ((K, V)) -> bool)
    requires forall e :: e in m ==> P(e)
    requires P((k, v))
    ensures forall e :: e in Put(m, k, v) ==> P(e)
  {
    PutEntries(m, k, v);
  }

  lemma {:induction false} TabsFromInvariant(responses: seq<Option<seq<Hit>>>, terms: seq<(string, TermData)>, i: nat,
                                             seen: set<int>, acc: Tabs, cardCount: int, cardOptions: Value,
                                             parseAddress: (string, int) -> AddressParts)
    requires i <= |responses|
    requires TabsFromResponses(acc, responses, terms, i, cardCount, cardOptions, parseAddress)
    ensures TabsFromResponses(TabsFrom(responses, terms, i, seen, acc, cardCount, cardOptions, parseAddress),
                              responses, terms, |responses|, cardCount, cardOptions, parseAddress)
    decreases |responses| - i
  {
    if i == |responses| {
    } else if i >= |terms| {
      WidenTabs(acc, responses, terms, i, i + 1, cardCount, cardOptions, parseAddress);
      TabsFromInvariant(responses, terms, i + 1, seen, acc, cardCount, cardOptions, parseAddress);
    } else {
      var cards := TabCards(responses[i], terms[i].0, terms[i].1, cardCount, cardOptions, parseAddress);
      var rotated := if |cards| > 0 then Rotate(cards, seen) else cards;
      var seen' := if |cards| > 0 then seen + LeadIds(rotated) else seen;
      var acc' := Put(acc, terms[i].1.caption, rotated);
      TabsStep(responses, terms, i, acc, rotated, cardCount, cardOptions, parseAddress);
      assert TabsFrom(responses, terms, i, seen, acc, cardCount, cardOptions, parseAddress)
          == TabsFrom(responses, terms, i + 1, seen', acc', cardCount, cardOptions, parseAddress);
      TabsFromInvariant(responses, terms, i + 1, seen', acc', cardCount, cardOptions, parseAddress);
    }
  }

  /** Storing a reordering of tab `i`'s cards under its caption extends the invariant from `i` to `i + 1`. */
  lemma TabsStep(responses: seq<Option<seq<Hit>>>, terms: seq<(string, TermData)>, i: nat, acc: Tabs, rotated: seq<Card>,
                 cardCount: int, cardOptions: Value, parseAddress: (string, int) -> AddressParts)
    requires i < |responses| && i < |terms|
    requires TabsFromResponses(acc, responses, terms, i, cardCount, cardOptions, parseAddress)
    requires multiset(rotated) == multiset(TabCards(responses[i], terms[i].0, terms[i].1, cardCount, cardOptions, parseAddress))
    ensures TabsFromResponses(Put(acc, terms[i].1.caption, rotated), responses, terms, i + 1, cardCount, cardOptions, parseAddress)
  {
    var caption := terms[i].1.caption;
    PutKeepsNoDup(acc, caption, rotated);
    WidenTabs(acc, responses, terms, i, i + 1, cardCount, cardOptions, parseAddress);
    assert TabFromResponse(caption, rotated, responses, terms, i + 1, cardCount, cardOptions, parseAddress);
    PutAll(acc, caption, rotated, (e: (string, seq<Card>)) => TabFromResponse(e.0, e.1, responses, terms, i + 1, cardCount, cardOptions, parseAddress));
  }

  lemma WidenTabs(acc: Tabs, responses: seq<Option<seq<Hit>>>, terms: seq<(string, TermData)>, n: int, n': int,
                  cardCount: int, cardOptions: Value, parseAddress: (string, int) -> AddressParts)
    requires n <= n'
    requires TabsFromResponses(acc, responses, terms, n, cardCount, cardOptions, parseAddress)
    ensures TabsFromResponses(acc, responses, terms, n', cardCount, cardOptions, parseAddress)
  {
    forall e | e in acc
      ensures TabFromResponse(e.0, e.1, responses, terms, n', cardCount, cardOptions, parseAddress)
    {
      assert TabFromResponse(e.0, e.1, responses, terms, n, cardCount, cardOptions, parseAddress);
    }
  }

  /**
   * Tabbed results: captions are distinct, and every tab holds a reordering of
   * the (sliced, tagged) cards one tab's search found.
   */
  lemma ProcessTabbedShape(responses: Option<seq<Option<seq<Hit>>>>, terms: seq<(string, TermData)>, cardCount: int,
                           cardOptions: Value, parseAddress: (string, int) -> AddressParts)
    ensures responses.None? ==> ProcessTabbed(responses, terms, cardCount, cardOptions, parseAddress) == []
    ensures responses.Some? ==>
              TabsFromResponses(ProcessTabbed(responses, terms, cardCount, cardOptions, parseAddress),
                                responses.value, terms, |responses.value|, cardCount, cardOptions, parseAddress)
  {
    if responses.Some? {
      TabsFromInvariant(responses.value, terms, 0, {}, [], cardCount, cardOptions, parseAddress);
    }
  }

  // ---------------------------------------------------------------------------
  // Card data and the `init` transition

  /** Flat cards, or cards per tab caption. An empty value of either kind is PHP's `[]`. */
  datatype CardData = Flat(cards: seq<Card>) | Tabbed(tabs: Tabs)

  predicate IsEmptyData(d: CardData) {
    match d
    case Flat(cards) => |cards| == 0
    case Tabbed(tabs) => |tabs| == 0
  }

  /** The IDs shown by a result: card IDs, flattened across tabs, duplicates removed. */
  function DisplayedIds(d: CardData): (ids: seq<int>)
    ensures NoDup(ids)
    ensures d.Flat? ==> forall x :: x in ids <==> x in Ids(d.cards)
    ensures d.Tabbed? ==> forall x :: x in ids <==> exists k :: 0 <= k < |d.tabs| && x in Ids(d.tabs[k].1)
  {
    match d
    case Flat(cards) =>
      DedupMembers(Ids(cards));
      Dedup(Ids(cards))
    case Tabbed(tabs) =>
      DedupMembers(TabIds(tabs));
      TabIdsMember(tabs);
      Dedup(TabIds(tabs))
  }

  /** The card IDs of every tab, tab after tab. */
  function TabIds(tabs: Tabs): seq<int> {
    if |tabs| == 0 then [] else Ids(tabs[0].1) + TabIds(tabs[1..])
  }

  lemma {:induction false} TabIdsMember(tabs: Tabs)
    ensures forall x :: x in TabIds(tabs) <==> exists k :: 0 <= k < |tabs| && x in Ids(tabs[k].1)
  {
    if |tabs| > 0 {
      TabIdsMember(tabs[1..]);
      forall x | x in TabIds(tabs)
        ensures exists k :: 0 <= k < |tabs| && x in Ids(tabs[k].1)
      {
        if x !in Ids(tabs[0].1) {
          assert x in TabIds(tabs[1..]);
          var k :| 0 <= k < |tabs[1..]| && x in Ids(tabs[1..][k].1);
          assert tabs[1..][k] == tabs[k + 1];
        }
      }
      forall x, k | 0 <= k < |tabs| && x in Ids(tabs[k].1)
        ensures x in TabIds(tabs)
      {
        if k > 0 {
          assert tabs[1..][k - 1] == tabs[k];
        }
      }
    }
  }

  /** The arguments that do not enter the cache key. */
  const IGNORED_KEYS: set<string> := {
    "exclude_displayed", "excluded_post_ids", "render_id", "wrapper_classes", "wrapper_attributes",
    "context", "headline", "has_background", "is_inline", "slides_to_show", "layout"
  }

  /** The cache key: the remaining arguments plus the request URL, seed, centre, state, city and page type. */
  datatype CacheKey = CacheKey(
    params: seq<(string, Value)>,
    url: string,
    seed: int,
    location: Option<Geo>,
    state: string,
    city: string,
    pageType: string
  )

  datatype Transient = Transient(data: CardData, expiresAt: int)

  datatype QueryState = QueryState(processing: map<CacheKey, CardData>, transients: map<CacheKey, Transient>, registry: R.Registry)

  /** What `init` reads from the request and calls outside itself. */
  datatype Env = Env(
    revision: Revision,                // the code as written, or the corrected code
    request: R.Request,                // REST_REQUEST is `request.isRest`
    keyOracles: R.KeyOracles,
    bypass: bool,                      // the debug-bypass-cache query flag
    now: nat,                          // time()
    rand: int,                         // wp_rand()
    intervalFilter: int -> int,        // the randomisation-interval filter
    wpPage: WpPage,
    taxonomyLocation: Option<Geo>,     // the location term's coordinates
    queriedSlug: Option<string>,       // the queried term's slug
    titleSlug: string -> string,       // sanitize_title
    parseAddress: (string, int) -> AddressParts,
    search: Query -> Option<seq<Hit>>,
    msearch: seq<Query> -> Option<seq<Option<seq<Hit>>>>
  )

  datatype InitResult = Cards(data: CardData) | CardsWithIds(data: CardData, displayedIds: seq<int>)

  // Typed views of the arguments (a value of another type reads as the type's empty value).

  function ContextOf(args: seq<(string, Value)>): Context {
    var c := Lookup(Arr(args), "context");
    Context(StrOf(Lookup(c, "page_type")), StrOf(Lookup(c, "state")), StrOf(Lookup(c, "city")))
  }

  function ActionType(args: seq<(string, Value)>): string {
    var v := Lookup(Arr(args), "action_type");
    if v.Null? then "all" else StrOf(v)
  }

  function CardCount(args: seq<(string, Value)>): int {
    var v := Lookup(Arr(args), "card_count");
    if v.Null? then 3 else IntOf(v)
  }

  function CardOptions(args: seq<(string, Value)>): Value {
    var v := Lookup(Arr(args), "card_options");
    if v.Null? then Arr([]) else v
  }

  predicate ExcludeDisplayed(args: seq<(string, Value)>) {
    Truthy(Lookup(Arr(args), "exclude_displayed"))
  }

  function PostId(args: seq<(string, Value)>): int {
    IntOf(Lookup(Lookup(Arr(args), "context"), "post_id"))
  }

  function IntsOf(vs: seq<Value>): (r: seq<int>)
    ensures |r| == |vs|
    ensures forall i :: 0 <= i < |vs| ==> r[i] == IntOf(vs[i])
  {
    if |vs| == 0 then [] else [IntOf(vs[0])] + IntsOf(vs[1..])
  }

  function StrsOf(vs: seq<Value>): (r: seq<string>)
    ensures |r| == |vs|
    ensures forall i :: 0 <= i < |vs| ==> r[i] == StrOf(vs[i])
  {
    if |vs| == 0 then [] else [StrOf(vs[0])] + StrsOf(vs[1..])
  }

  function ExcludedArg(args: seq<(string, Value)>): seq<int> {
    IntsOf(ValuesOf(Lookup(Arr(args), "excluded_post_ids")))
  }

  function GroupsOf(m: seq<(string, Value)>): (sel: SelectedTerms)
    ensures |sel| == |m|
    ensures forall i :: 0 <= i < |m| ==> sel[i] == (m[i].0, StrsOf(ValuesOf(m[i].1)))
  {
    if |m| == 0 then [] else [(m[0].0, StrsOf(ValuesOf(m[0].1)))] + GroupsOf(m[1..])
  }

  function SelectedTermsOf(args: seq<(string, Value)>): SelectedTerms {
    GroupsOf(ItemsOf(Lookup(Arr(args), "selected_terms")))
  }

  /** Every selected term of every group, in order. */
  function FlatTerms(sel: SelectedTerms): (terms: seq<string>)
  {
    if |sel| == 0 then [] else sel[0].1 + FlatTerms(sel[1..])
  }

  /** The explicit display context, when non-empty. */
  function DisplayContext(args: seq<(string, Value)>): Option<string> {
    var v := Lookup(Arr(args), "display_context");
    if Empty(v) then None else Some(StrOf(v))
  }

  /** A visitor location given as an array with numeric `lat` and `lon`. */
  function GeoOf(v: Value): Option<Geo> {
    var lat := Lookup(v, "lat");
    var lon := Lookup(v, "lon");
    if (lat.Float? || lat.Int?) && (lon.Float? || lon.Int?) then
      Some(Geo(if lat.Float? then lat.r else lat.i as real, if lon.Float? then lon.r else lon.i as real))
    else None
  }

  function UserLocation(args: seq<(string, Value)>): Option<Geo> {
    var v := Lookup(Arr(args), "user_location");
    if Empty(v) then None else GeoOf(v)
  }

  /**
   * The term filter of a flat block applies for the action type the editor,
   * the REST schema and embeds use, "filter".
   */
  predicate UsesTermFilter(actionType: string) {
    actionType == "filter"
  }

  /** As written, the term filter waits for an action type nobody sends. */
  predicate UsesTermFilterAsWritten(actionType: string) {
    actionType == "filtered"
  }

  /** No action type the block, the REST schema or embeds accept switches on the filter as written. */
  lemma TermFilterAsWrittenNeverApplies(actionType: string)
    requires actionType in {"none", "filter", "tabs"}
    ensures !UsesTermFilterAsWritten(actionType)
    ensures UsesTermFilter(actionType) <==> actionType == "filter"
  {
  }

  /** The page type of the call: the context's, else the one WordPress reports. */
  function PageTypeOf(args: seq<(string, Value)>, env: Env): string {
    PageType(ContextOf(args), env.wpPage)
  }

  /** The location the query uses: the visitor's, else the taxonomy term's centre. */
  function LocationOf(args: seq<(string, Value)>, env: Env): Option<Geo> {
    LocationData(UserLocation(args), PageTypeOf(args, env), env.taxonomyLocation)
  }

  /** The randomisation seed of the call, as the revision computes it. */
  function SeedOf(env: Env): int {
    match env.revision
    case AsWritten => SeedAsWritten(env.now, env.intervalFilter, env.bypass, env.rand)
    case Corrected => Seed(env.now, env.intervalFilter, env.bypass, env.rand)
  }

  /**
   * The cache key: the arguments without the ignored ones, the request URI,
   * the seed, the location, and the resolved state, city and page type. As
   * written, the seed, and with it the key, stops changing from the tenth day
   * of the epoch on; corrected, it names the current 15-minute window.
   */
  function KeyOf(args: seq<(string, Value)>, env: Env): (key: CacheKey)
    ensures forall k :: k in IGNORED_KEYS ==> Get(key.params, k).None?
    ensures forall k :: k !in IGNORED_KEYS ==> Get(key.params, k) == Get(args, k)
    ensures env.bypass ==> key.seed == env.rand
    ensures env.revision.AsWritten? && !env.bypass && env.now >= 900 * 900 && (forall x :: env.intervalFilter(x) == x) ==>
              key.seed == 900
    ensures env.revision.Corrected? && !env.bypass && env.intervalFilter(CACHE_DURATION) > 0 ==>
              key.seed * env.intervalFilter(CACHE_DURATION) <= env.now < (key.seed + 1) * env.intervalFilter(CACHE_DURATION)
  {
    var ctx := ContextOf(args);
    SeedAsWrittenFrozenWhen(env.now, env.intervalFilter, env.bypass, env.rand);
    CacheKey(Remove(args, IGNORED_KEYS), env.request.requestUri.GetOr(""), SeedOf(env),
             LocationOf(args, env), ctx.state, ctx.city, PageTypeOf(args, env))
  }

  /** The registry key of the call: its explicit display context, else the request's. */
  function DisplayKeyOf(args: seq<(string, Value)>, env: Env): string {
    R.ResolveKey(DisplayContext(args), env.request, env.keyOracles)
  }

  /** Cached results are consulted only without `exclude_displayed` and without the bypass flag. */
  predicate MayReadCache(args: seq<(string, Value)>, env: Env) {
    !ExcludeDisplayed(args) && !env.bypass
  }

  /**
   * The exclusions of this call: the explicit ones, extended by the IDs the
   * registry holds for the display context when `exclude_displayed` is set.
   */
  function Exclusions(args: seq<(string, Value)>, displayKey: string, reg: R.Registry): (ex: seq<int>)
    ensures !ExcludeDisplayed(args) ==> ex == ExcludedArg(args)
    ensures ExcludeDisplayed(args) ==> NoDup(ex)
    ensures ExcludeDisplayed(args) ==>
              forall x :: x in ex <==> x in ExcludedArg(args) || x in R.Displayed(reg, displayKey)
  {
    if ExcludeDisplayed(args) then
      var all := ExcludedArg(args) + R.Displayed(reg, displayKey);
      DedupMembers(all);
      Dedup(all)
    else ExcludedArg(args)
  }

  /**
   * The parameters of the query: they agree with the cache key on seed, page
   * type and centre, and exclude the explicit IDs plus, with
   * `exclude_displayed`, the IDs already shown in the display context.
   */
  function ParamsOf(args: seq<(string, Value)>, env: Env, reg: R.Registry): (p: QueryParams)
    ensures p.cardCount == CardCount(args)
    ensures p.seed == KeyOf(args, env).seed
    ensures p.pageType == KeyOf(args, env).pageType && p.location == KeyOf(args, env).location
    ensures forall x :: x in p.excluded <==>
              x in ExcludedArg(args) || (ExcludeDisplayed(args) && x in R.Displayed(reg, DisplayKeyOf(args, env)))
    ensures p.stateSlug.Some? ==> p.pageType == PAGE_STATE || p.pageType == PAGE_CITY
  {
    var pageType := PageTypeOf(args, env);
    QueryParams(CardCount(args), pageType, PostId(args), Exclusions(args, DisplayKeyOf(args, env), reg),
                LocationOf(args, env), StateSlug(pageType, ContextOf(args).state, env.queriedSlug),
                SeedOf(env))
  }

  /** Tabbed mode: action type "tabs" with at least one selected term. */
  predicate TabbedMode(args: seq<(string, Value)>) {
    ActionType(args) == "tabs" && |FlatTerms(SelectedTermsOf(args))| > 0
  }

  /**
   * The query of a flat block (`get_card_data`). As written, no action type a
   * caller sends adds the term filter; corrected, "filter" adds it whenever a
   * selected term yields a clause. Either way the base query is only ever
   * extended by that one clause.
   */
  function FlatQuery(args: seq<(string, Value)>, p: QueryParams, rev: Revision): (q: Query)
    ensures rev.AsWritten? && ActionType(args) in {"none", "filter", "tabs"} ==> q == BaseQuery(p)
    ensures rev.Corrected? ==>
              (q == BaseQuery(p) <==> ActionType(args) != "filter" || |TermFilters(SelectedTermsOf(args))| == 0)
    ensures q == BaseQuery(p)
         || q == BaseQuery(p).(filter := BaseQuery(p).filter + [AnyOf(TermFilters(SelectedTermsOf(args)), 1)])
  {
    var sel := SelectedTermsOf(args);
    var applies := match rev
      case AsWritten => UsesTermFilterAsWritten(ActionType(args))
      case Corrected => UsesTermFilter(ActionType(args));
    if applies && |sel| > 0 then AddTermsFilter(BaseQuery(p), sel) else BaseQuery(p)
  }

  /**
   * The card data of a cache miss: tabs exactly in tabbed mode, otherwise a
   * list of at most the requested number of cards.
   */
  function Fetch(args: seq<(string, Value)>, p: QueryParams, env: Env): (d: CardData)
    ensures d.Tabbed? <==> TabbedMode(args)
    ensures d.Flat? && p.cardCount >= 0 ==> |d.cards| <= p.cardCount
  {
    var sel := SelectedTermsOf(args);
    var options := CardOptions(args);
    if TabbedMode(args) then
      var terms := ExtractAllTerms(sel, env.titleSlug);
      if |terms| == 0 then Tabbed([])
      else Tabbed(ProcessTabbed(env.msearch(MsearchQueries(BaseQuery(p), terms)), terms, p.cardCount, options, env.parseAddress))
    else
      Flat(ProcessQueryResults(env.search(FlatQuery(args, p, env.revision)), p.cardCount, options, env.parseAddress))
  }

  /** The card data of a cache miss for these arguments against registry `reg`. */
  function FetchFor(args: seq<(string, Value)>, env: Env, reg: R.Registry): CardData {
    Fetch(args, ParamsOf(args, env, reg), env)
  }

  /**
   * The state after a cache miss: `data` is written to both caches under
   * `key`, and a non-empty result has its IDs registered under `displayKey`;
   * REST callers also get those IDs back.
   */
  function Miss(st: QueryState, data: CardData, key: CacheKey, displayKey: string, isRest: bool, now: int)
    : (r: (QueryState, InitResult))
    ensures r.1.data == data
    ensures r.0.processing == st.processing[key := data]
    ensures r.0.transients == st.transients[key := Transient(data, now + CACHE_DURATION)]
    ensures r.1.CardsWithIds? <==> isRest && !IsEmptyData(data)
    ensures forall k :: k != displayKey ==> R.Displayed(r.0.registry, k) == R.Displayed(st.registry, k)
  {
    var cached := st.(processing := st.processing[key := data],
                      transients := st.transients[key := Transient(data, now + CACHE_DURATION)]);
    if IsEmptyData(data) then (cached, Cards(data))
    else
      var ids := DisplayedIds(data);
      var reg := if |ids| > 0 then R.Register(st.registry, ids, displayKey) else st.registry;
      (cached.(registry := reg), if isRest then CardsWithIds(data, ids) else Cards(data))
  }

  /** The cache holds a live entry for `key` that this call may read. */
  predicate Readable(st: QueryState, args: seq<(string, Value)>, env: Env, key: CacheKey) {
    MayReadCache(args, env) &&
    (key in st.processing || (key in st.transients && env.now <= st.transients[key].expiresAt))
  }

  /**
   * `init`: a cached result when reading the cache is allowed, otherwise a
   * fresh result, written to both caches, whose IDs are registered as shown.
   */
  function Init(st: QueryState, args: seq<(string, Value)>, env: Env): (r: (QueryState, InitResult))
    ensures KeyOf(args, env) in r.0.processing && r.0.processing[KeyOf(args, env)] == r.1.data
    ensures !MayReadCache(args, env) ==> r.1.data == FetchFor(args, env, st.registry)
    ensures r.1.CardsWithIds? ==> env.request.isRest && !IsEmptyData(r.1.data)
  {
    var key := KeyOf(args, env);
    if MayReadCache(args, env) && key in st.processing then
      (st, Cards(st.processing[key]))
    else if MayReadCache(args, env) && key in st.transients && env.now <= st.transients[key].expiresAt then
      var data := st.transients[key].data;
      (st.(processing := st.processing[key := data]), Cards(data))
    else
      Miss(st, FetchFor(args, env, st.registry), key, DisplayKeyOf(args, env), env.request.isRest, env.now)
  }

  /** A processing-cache hit returns the cached data and changes nothing, not even the registry. */
  lemma InitProcessingHit(st: QueryState, args: seq<(string, Value)>, env: Env)
    requires MayReadCache(args, env) && KeyOf(args, env) in st.processing
    ensures Init(st, args, env) == (st, Cards(st.processing[KeyOf(args, env)]))
  {
  }

  /** A live transient is returned and copied into the processing cache; nothing else changes. */
  lemma InitTransientHit(st: QueryState, args: seq<(string, Value)>, env: Env)
    requires MayReadCache(args, env)
    requires KeyOf(args, env) !in st.processing
    requires KeyOf(args, env) in st.transients
    requires env.now <= st.transients[KeyOf(args, env)].expiresAt
    ensures var key := KeyOf(args, env);
      var data := st.transients[key].data;
      Init(st, args, env) == (st.(processing := st.processing[key := data]), Cards(data))
  {
  }

  /**
   * Without a readable live entry (in particular with `exclude_displayed` or
   * the bypass flag) the call is a miss: the result is fetched and written to
   * the caches under the call's key, where `Miss` states what each cache then
   * holds.
   */
  lemma InitMiss(st: QueryState, args: seq<(string, Value)>, env: Env)
    requires !Readable(st, args, env, KeyOf(args, env))
    ensures Init(st, args, env)
         == Miss(st, FetchFor(args, env, st.registry), KeyOf(args, env), DisplayKeyOf(args, env), env.request.isRest, env.now)
    ensures Init(st, args, env).1.data == FetchFor(args, env, st.registry)
    ensures Init(st, args, env).0.processing == st.processing[KeyOf(args, env) := FetchFor(args, env, st.registry)]
    ensures Readable(Init(st, args, env).0, args, env, KeyOf(args, env)) == MayReadCache(args, env)
  {
  }

  /**
   * On a miss, the registry gains exactly the de-duplicated IDs of the result
   * under the display context, and REST callers also get those IDs back.
   */
  lemma InitRegistersDisplayed(st: QueryState, args: seq<(string, Value)>, env: Env)
    requires !Readable(st, args, env, KeyOf(args, env))
    ensures var data := FetchFor(args, env, st.registry);
      var dk := DisplayKeyOf(args, env);
      var r := Init(st, args, env);
      && (IsEmptyData(data) ==> r.0.registry == st.registry && r.1 == Cards(data))
      && (!IsEmptyData(data) ==> forall x :: x in R.Displayed(r.0.registry, dk) <==>
                                   x in R.Displayed(st.registry, dk) || x in DisplayedIds(data))
      && (!IsEmptyData(data) && env.request.isRest ==> r.1 == CardsWithIds(data, DisplayedIds(data)))
      && (forall k :: k != dk ==> R.Displayed(r.0.registry, k) == R.Displayed(st.registry, k))
  {
    var data := FetchFor(args, env, st.registry);
    assert Init(st, args, env) == Miss(st, data, KeyOf(args, env), DisplayKeyOf(args, env), env.request.isRest, env.now);
  }

  /** `init` only ever adds to the registry: every ID shown before is still registered afterwards. */
  lemma InitRegistryGrows(st: QueryState, args: seq<(string, Value)>, env: Env, key: string)
    ensures forall x :: x in R.Displayed(st.registry, key) ==> x in R.Displayed(Init(st, args, env).0.registry, key)
  {
    if !Readable(st, args, env, KeyOf(args, env)) {
      var data := FetchFor(args, env, st.registry);
      var dk := DisplayKeyOf(args, env);
      MissRegistryGrows(st, data, KeyOf(args, env), dk, env.request.isRest, env.now, key);
      assert Init(st, args, env) == Miss(st, data, KeyOf(args, env), dk, env.request.isRest, env.now);
    }
  }

  lemma MissRegistryGrows(st: QueryState, data: CardData, k: CacheKey, displayKey: string, isRest: bool, now: int, key: string)
    ensures forall x :: x in R.Displayed(st.registry, key) ==> x in R.Displayed(Miss(st, data, k, displayKey, isRest, now).0.registry, key)
  {
    var ids := DisplayedIds(data);
    if !IsEmptyData(data) && |ids| > 0 {
      var old_ := R.Displayed(st.registry, key);
      forall x | x in old_
        ensures x in R.Displayed(R.Register(st.registry, ids, displayKey), key)
      {
        var i :| 0 <= i < |old_| && old_[i] == x;
      }
    }
  }

  /** With `exclude_displayed`, everything already registered for the display context is excluded from the query. */
  lemma ExcludedIncludesRegistry(args: seq<(string, Value)>, env: Env, reg: R.Registry)
    requires ExcludeDisplayed(args)
    ensures var p := ParamsOf(args, env, reg);
      forall x :: x in R.Displayed(reg, DisplayKeyOf(args, env)) && x != 0 ==> x in ExcludeIds(p.excluded, p.pageType, p.postId)
  {
  }

  /** Two facts about the ignored keys the cache-key lemmas rely on. */
  lemma IgnoredKeysFacts()
    ensures "context" in IGNORED_KEYS
    ensures "user_location" !in IGNORED_KEYS
  {
  }

  /** Changing an ignored argument (other than `context`) keeps the cache key. */
  lemma CacheKeyIgnores(args: seq<(string, Value)>, env: Env, k: string, v: Value)
    requires k in IGNORED_KEYS && k != "context"
    ensures KeyOf(Put(args, k, v), env) == KeyOf(args, env)
  {
    IgnoredKeysFacts();
    RemovePut(args, IGNORED_KEYS, k, v);
    GetPutOther(args, k, v, "context");
    GetPutOther(args, k, v, "user_location");
    assert ContextOf(Put(args, k, v)) == ContextOf(args);
    assert UserLocation(Put(args, k, v)) == UserLocation(args);
  }

  /** The context enters the key only through the page type, state and city it yields (and the centre they select). */
  lemma CacheKeyContext(args: seq<(string, Value)>, env: Env, v: Value)
    requires ContextOf(Put(args, "context", v)) == ContextOf(args)
    ensures KeyOf(Put(args, "context", v), env) == KeyOf(args, env)
  {
    IgnoredKeysFacts();
    RemovePut(args, IGNORED_KEYS, "context", v);
    GetPutOther(args, "context", v, "user_location");
    assert UserLocation(Put(args, "context", v)) == UserLocation(args);
  }
}

=== FILE: pacing.dfy ===
/**
 * The Premium+ pacing score: one integer per listing that ranks Free (1000)
 * below Premium (2000) below Premium+ listings with budget left (3000..3999),
 * and among the latter rewards a larger budget and a healthier burn-down.
 *
 * `log10` is not computed here: it is the parameter `lg`, of which only
 * non-negativity and monotonicity on the arguments the score uses are assumed.
 */
module Pacing {
  import opened Common
  import opened PhpValue

  const FREE_SCORE := 1000
  const PREMIUM_SCORE := 2000
  const PREMIUM_PLUS_BASE := 3000
  const MAX_BOOST := 999
  const MAX_REMAINING_BOOST := 100.0

  /** What is assumed of the logarithm: non-negative and non-decreasing. */
  ghost predicate LogLike(lg: nat -> real) {
    (forall x :: lg(x) >= 0.0) && (forall x, y :: x <= y ==> lg(x) <= lg(y))
  }

  /** The post meta the calculator reads, as `get_post_meta` returns it (`""` when absent). */
  datatype PacingMeta = PacingMeta(
    premium: Value,
    budgetedViews: Value,
    viewsRemaining: Value,
    overrideViews: Value,
    viewsConsumed: Value)

  /**
   * The tier a `premium` meta value denotes: the `value` of an ACF button
   * group, else a numeric value, else Free (0); integer casts as PHP's.
   */
  function ParseLevel(raw: Value): int {
    if raw.Arr? && IsSet(raw, "value") then IntVal(Lookup(raw, "value"))
    else if IsNumeric(raw) then IntVal(raw)
    else 0
  }

  /**
   * The shapes the `premium` field is stored in give their tier: a number, its
   * decimal text, or a button group holding either; an absent field, a
   * button group without a value, or any other text gives Free.
   */
  lemma ParseLevelStoredForms(n: int, caption: string, other: string)
    requires !IsNumericString(other)
    ensures ParseLevel(Int(n)) == n
    ensures ParseLevel(Str(IntToString(n))) == n
    ensures ParseLevel(Arr([("value", Int(n)), ("label", Str(caption))])) == n
    ensures ParseLevel(Arr([("value", Str(IntToString(n))), ("label", Str(caption))])) == n
    ensures ParseLevel(Arr([("label", Str(caption))])) == 0
    ensures ParseLevel(Null) == 0 && ParseLevel(Str("")) == 0 && ParseLevel(Str(other)) == 0
  {
    StrToIntOfIntToString(n);
    NumericPrefixOfIntToString(n);
    assert ""[0..] == "";
    var m := [("label", Str(caption))];
    assert m[0].0 != "value" by { assert m[0].0[0] != "value"[0]; }
    assert m[1..] == [];
    assert Get(m, "value") == None;
    assert Lookup(Arr([("label", Str(caption))]), "value") == Null;
  }

  /** The budget counters of a listing, after the optional arguments were resolved against its meta. */
  datatype PacingState = PacingState(budgetedViews: int, viewsRemaining: int, overrideViews: int, viewsConsumed: int)

  /** Explicit arguments of the calculator; `None` means "read it from the meta". */
  datatype PacingArgs = PacingArgs(budgetedViews: Option<int>, viewsRemaining: Option<int>, overrideViews: Option<int>)

  /** The counters the calculator works with: each explicit argument, else its `(int)`-cast meta. */
  function StateOf(args: PacingArgs, meta: PacingMeta): PacingState {
    PacingState(args.budgetedViews.GetOr(IntVal(meta.budgetedViews)),
                args.viewsRemaining.GetOr(IntVal(meta.viewsRemaining)),
                args.overrideViews.GetOr(IntVal(meta.overrideViews)),
                IntVal(meta.viewsConsumed))
  }

  /** Override views add to the budget. */
  function EffectiveBudget(s: PacingState): int {
    s.budgetedViews + s.overrideViews
  }

  /**
   * Remaining views as the score uses them: a listing that never consumed a
   * view and shows 0 remaining is taken to have its whole budget left, and a
   * negative count is clamped to 0.
   */
  function Remaining(s: PacingState): (r: nat)
    ensures s.viewsRemaining > 0 ==> r == s.viewsRemaining
    ensures s.viewsRemaining < 0 ==> r == 0
    ensures s.viewsRemaining == 0 ==>
              r == (if EffectiveBudget(s) > 0 && s.viewsConsumed == 0 then EffectiveBudget(s) else 0)
  {
    var eb := EffectiveBudget(s);
    var rem := if s.viewsRemaining == 0 && eb > 0 && s.viewsConsumed == 0 then eb else s.viewsRemaining;
    if rem < 0 then 0 else rem
  }

  /** A listing is actively pacing when it has a positive budget and views left. */
  predicate Active(s: PacingState) {
    EffectiveBudget(s) > 0 && Remaining(s) > 0
  }

  /**
   * The burn-down multiplier by remaining/budget ratio: below 10% 0.3, below
   * 25% 0.6, below 50% 0.85, otherwise 1.0 (comparisons cross-multiplied).
   */
  function Multiplier(remaining: nat, budget: int): (m: real)
    requires budget > 0
  {
    if 10 * remaining < budget then 0.3
    else if 4 * remaining < budget then 0.6
    else if 2 * remaining < budget then 0.85
    else 1.0
  }

  /** The cross-multiplied bands are exactly the bands of the real ratio `remaining / budget`. */
  lemma MultiplierBands(remaining: nat, budget: int)
    requires budget > 0
    ensures var ratio := remaining as real / budget as real;
      && (Multiplier(remaining, budget) == 0.3 <==> ratio < 0.1)
      && (Multiplier(remaining, budget) == 0.6 <==> 0.1 <= ratio < 0.25)
      && (Multiplier(remaining, budget) == 0.85 <==> 0.25 <= ratio < 0.5)
      && (Multiplier(remaining, budget) == 1.0 <==> 0.5 <= ratio)
  {
    var r := remaining as real;
    var b := budget as real;
    RatioBelow(r, b, 0.1);
    RatioBelow(r, b, 0.25);
    RatioBelow(r, b, 0.5);
  }

  lemma RatioBelow(r: real, b: real, c: real)
    requires b > 0.0
    ensures r / b < c <==> r < c * b
  {
    assert r == (r / b) * b;
    if r / b < c {
      assert (c - r / b) * b > 0.0;
    } else {
      assert (r / b - c) * b >= 0.0;
    }
  }

  /** More views left never lowers the multiplier. */
  lemma MultiplierMonotone(r1: nat, r2: nat, budget: int)
    requires budget > 0 && r1 <= r2
    ensures Multiplier(r1, budget) <= Multiplier(r2, budget)
  {
  }

  function Min(a: real, b: real): real {
    if a <= b then a else b
  }

  /** The bonus for absolute remaining views, capped at 100. */
  function RemainingBoost(remaining: nat, lg: nat -> real): (b: real)
    requires LogLike(lg)
    ensures 0.0 <= b <= MAX_REMAINING_BOOST
    ensures b == MAX_REMAINING_BOOST || b == lg(remaining + 1) * 20.0
  {
    Min(lg(remaining + 1) * 20.0, MAX_REMAINING_BOOST)
  }

  /** Budget size on a log scale, damped by the burn-down multiplier. */
  function PacedBudgetScore(s: PacingState, lg: nat -> real): (v: real)
    requires LogLike(lg) && Active(s)
    ensures v >= 0.0
  {
    var eb := EffectiveBudget(s);
    assert lg(eb + 1) >= 0.0;
    lg(eb + 1) * 150.0 * Multiplier(Remaining(s), eb)
  }

  /** The score before it is capped and shifted into the Premium+ range. */
  function RawScore(s: PacingState, lg: nat -> real): (v: real)
    requires LogLike(lg) && Active(s)
    ensures v >= 0.0
  {
    PacedBudgetScore(s, lg) + RemainingBoost(Remaining(s), lg)
  }

  /**
   * The pacing score of a listing of tier `level` (0 Free, 1 Premium, 2 Premium+).
   * The final `(int)` cast truncates toward zero, which is the floor here
   * because the value is positive.
   */
  function Score(level: int, s: PacingState, lg: nat -> real): (r: int)
    requires LogLike(lg)
    ensures r == FREE_SCORE || r == PREMIUM_SCORE || PREMIUM_PLUS_BASE <= r <= PREMIUM_PLUS_BASE + MAX_BOOST
    ensures level == 1 ==> r == PREMIUM_SCORE
    ensures level != 1 && level != 2 ==> r == FREE_SCORE
    ensures level == 2 ==> (r >= PREMIUM_PLUS_BASE <==> Active(s))
    ensures level == 2 && !Active(s) ==> r == PREMIUM_SCORE
  {
    if level == 2 then
      if Active(s) then
        var capped := Min(RawScore(s, lg), MAX_BOOST as real);
        PREMIUM_PLUS_BASE + capped.Floor
      else
        PREMIUM_SCORE
    else if level == 1 then
      PREMIUM_SCORE
    else
      FREE_SCORE
  }

  /**
   * The calculator entry point: the tier is the argument when given, else
   * the `premium` meta; Free and Premium get their static scores, and a
   * Premium+ listing scores above 2999 exactly when the counters (each
   * argument, else its meta) show a positive budget with views left.
   */
  function Calculate(level: Option<int>, args: PacingArgs, meta: PacingMeta, lg: nat -> real): (r: int)
    requires LogLike(lg)
    ensures r == FREE_SCORE || r == PREMIUM_SCORE || PREMIUM_PLUS_BASE <= r <= PREMIUM_PLUS_BASE + MAX_BOOST
    ensures var tier := if level.Some? then level.value else ParseLevel(meta.premium);
      && (tier == 1 ==> r == PREMIUM_SCORE)
      && (tier != 1 && tier != 2 ==> r == FREE_SCORE)
      && (tier == 2 ==> (r >= PREMIUM_PLUS_BASE <==> Active(StateOf(args, meta))))
  {
    Score(level.GetOr(ParseLevel(meta.premium)), StateOf(args, meta), lg)
  }

  /**
   * Explicit arguments take precedence over the meta: with the tier and all
   * three counters given, the meta matters only through views consumed, and
   * that only when the remaining count is 0 and the budget positive.
   */
  lemma ExplicitArgsOverrideMeta(tier: int, budget: int, remaining: int, overrideViews: int,
                                   m1: PacingMeta, m2: PacingMeta, lg: nat -> real)
    requires LogLike(lg)
    requires remaining != 0 || budget + overrideViews <= 0 || IntVal(m1.viewsConsumed) == IntVal(m2.viewsConsumed)
    ensures var args := PacingArgs(Some(budget), Some(remaining), Some(overrideViews));
      Calculate(Some(tier), args, m1, lg) == Calculate(Some(tier), args, m2, lg)
  {
  }


  /**
   * The value the save hook stores: a static 2000/1000 for Premium and Free,
   * the computed score for Premium+ (budgets read from the meta).
   */
  function StoredScore(meta: PacingMeta, lg: nat -> real): (r: int)
    requires LogLike(lg)
    ensures r == Calculate(None, PacingArgs(None, None, None), meta, lg)
  {
    var level := ParseLevel(meta.premium);
    if level != 2 then (if level == 1 then PREMIUM_SCORE else FREE_SCORE)
    else Calculate(Some(level), PacingArgs(None, None, None), meta, lg)
  }

  lemma FloorMonotone(x: real, y: real)
    requires x <= y
    ensures x.Floor <= y.Floor
  {
    assert x.Floor as real <= y;
  }

  lemma RawScoreMonotone(s1: PacingState, s2: PacingState, lg: nat -> real)
    requires LogLike(lg) && Active(s1) && Active(s2)
    requires EffectiveBudget(s1) == EffectiveBudget(s2) && Remaining(s1) <= Remaining(s2)
    ensures RawScore(s1, lg) <= RawScore(s2, lg)
  {
    PacedBudgetScoreMonotone(s1, s2, lg);
    RemainingBoostMonotone(Remaining(s1), Remaining(s2), lg);
  }

  lemma PacedBudgetScoreMonotone(s1: PacingState, s2: PacingState, lg: nat -> real)
    requires LogLike(lg) && Active(s1) && Active(s2)
    requires EffectiveBudget(s1) == EffectiveBudget(s2) && Remaining(s1) <= Remaining(s2)
    ensures PacedBudgetScore(s1, lg) <= PacedBudgetScore(s2, lg)
  {
    var eb := EffectiveBudget(s1);
    assert lg(eb + 1) >= 0.0;
    MultiplierMonotone(Remaining(s1), Remaining(s2), eb);
    ScaleMonotone(lg(eb + 1) * 150.0, Multiplier(Remaining(s1), eb), Multiplier(Remaining(s2), eb));
  }

  lemma ScaleMonotone(b: real, x: real, y: real)
    requires b >= 0.0 && x <= y
    ensures b * x <= b * y
  {
    assert b * (y - x) >= 0.0;
  }

  lemma RemainingBoostMonotone(r1: nat, r2: nat, lg: nat -> real)
    requires LogLike(lg) && r1 <= r2
    ensures RemainingBoost(r1, lg) <= RemainingBoost(r2, lg)
  {
    assert lg(r1 + 1) <= lg(r2 + 1);
  }

  /**
   * With the budget fixed, a Premium+ listing with more views left never
   * scores lower.
   */
  lemma {:induction false} ScoreMonotoneInRemaining(s1: PacingState, s2: PacingState, lg: nat -> real)
    requires LogLike(lg)
    requires s1.budgetedViews == s2.budgetedViews && s1.overrideViews == s2.overrideViews
    requires 0 < s1.viewsRemaining <= s2.viewsRemaining
    ensures Score(2, s1, lg) <= Score(2, s2, lg)
  {
    if Active(s1) {
      RawScoreMonotone(s1, s2, lg);
      FloorMonotone(Min(RawScore(s1, lg), MAX_BOOST as real), Min(RawScore(s2, lg), MAX_BOOST as real));
    }
  }

  /**
   * The burn-down penalty outweighs the remaining-views bonus: with a budget
   * of 1000 views, a listing with 40 left (4%, multiplier 0.3) scores below
   * one with 600 left (60%, multiplier 1.0), for any logarithm close enough
   * to log10 at 1001.
   */
  lemma PenaltyOutweighsBonus(lg: nat -> real)
    requires LogLike(lg)
    requires 3.0 <= lg(1001) <= 3.001
    ensures Score(2, PacingState(1000, 40, 0, 960), lg) < Score(2, PacingState(1000, 600, 0, 400), lg)
  {
    var low := PacingState(1000, 40, 0, 960);
    var high := PacingState(1000, 600, 0, 400);
    assert Multiplier(40, 1000) == 0.3;
    assert Multiplier(600, 1000) == 1.0;
    var bLow := lg(1001) * 150.0 * 0.3;
    assert RawScore(low, lg) <= bLow + 100.0;
    assert bLow <= 135.1;
    assert RawScore(high, lg) >= lg(1001) * 150.0;
    assert lg(1001) * 150.0 >= 450.0;
    var cLow := Min(RawScore(low, lg), 999.0);
    var cHigh := Min(RawScore(high, lg), 999.0);
    assert cLow <= 235.1 && cHigh >= 450.0;
    FloorMonotone(cLow, 236.0);
    FloorMonotone(450.0, cHigh);
  }
}

=== FILE: phone.dfy ===
/** US phone-number formatting of the listing cards. */
module Phone {
  import opened Common

  /** The decimal digits of a string, in order (every other character removed). */
  function Digits(s: string): (d: string)
    ensures |d| <= |s|
    ensures forall i :: 0 <= i < |d| ==> IsDigit(d[i])
  {
    if |s| == 0 then ""
    else (if IsDigit(s[0]) then [s[0]] else []) + Digits(s[1..])
  }

  lemma {:induction false} DigitsAppend(a: string, b: string)
    ensures Digits(a + b) == Digits(a) + Digits(b)
    decreases |a|
  {
    if |a| > 0 {
      var head: string := if IsDigit(a[0]) then [a[0]] else [];
      assert (a + b)[0] == a[0];
      assert (a + b)[1..] == a[1..] + b;
      DigitsAppend(a[1..], b);
      assert Digits(a + b) == head + Digits(a[1..] + b);
      assert Digits(a) == head + Digits(a[1..]);
    } else {
      assert a + b == b;
    }
  }

  /** A string of digits is its own digit string. */
  lemma {:induction false} DigitsOfDigits(s: string)
    requires forall i :: 0 <= i < |s| ==> IsDigit(s[i])
    ensures Digits(s) == s
    decreases |s|
  {
    if |s| > 0 {
      DigitsOfDigits(s[1..]);
    }
  }

  /**
   * `phone_number_format`: ten digits as "(ddd) ddd-dddd", eleven as
   * "d (ddd) ddd-dddd", any other number of digits leaves the input as it is.
   */
  function FormatPhone(phone: string): (r: string)
  {
    var d := Digits(phone);
    if |d| == 10 then "(" + d[..3] + ") " + d[3..6] + "-" + d[6..]
    else if |d| == 11 then d[..1] + " (" + d[1..4] + ") " + d[4..7] + "-" + d[7..]
    else phone
  }

  lemma {:induction false} NoDigits(s: string)
    requires forall i :: 0 <= i < |s| ==> !IsDigit(s[i])
    ensures Digits(s) == ""
    decreases |s|
  {
    if |s| > 0 {
      NoDigits(s[1..]);
    }
  }

  /** Appending a part whose digits are known extends the digits by exactly those. */
  lemma DigitsStep(acc: string, part: string, accDigits: string, partDigits: string)
    requires Digits(acc) == accDigits && Digits(part) == partDigits
    ensures Digits(acc + part) == accDigits + partDigits
  {
    DigitsAppend(acc, part);
  }

  /** The digits of the ten-digit layout are the ten digits, in order. */
  lemma TenDigitsKept(d: string)
    requires |d| == 10 && forall i :: 0 <= i < |d| ==> IsDigit(d[i])
    ensures Digits("(" + d[..3] + ") " + d[3..6] + "-" + d[6..]) == d
  {
    var a, b, c := d[..3], d[3..6], d[6..];
    DigitsOfDigits(a);
    DigitsOfDigits(b);
    DigitsOfDigits(c);
    NoDigits("(");
    NoDigits(") ");
    NoDigits("-");
    var s1 := "(" + a;
    DigitsStep("(", a, "", a);
    var s2 := s1 + ") ";
    DigitsStep(s1, ") ", a, "");
    var s3 := s2 + b;
    DigitsStep(s2, b, a, b);
    var s4 := s3 + "-";
    DigitsStep(s3, "-", a + b, "");
    DigitsStep(s4, c, a + b, c);
    SplitThree(d, 3, 6);
  }

  lemma SplitThree<T>(d: seq<T>, i: nat, j: nat)
    requires i <= j <= |d|
    ensures d[..i] + d[i..j] + d[j..] == d
  {
  }

  lemma SplitFour<T>(d: seq<T>, i: nat, j: nat, k: nat)
    requires i <= j <= k <= |d|
    ensures d[..i] + d[i..j] + d[j..k] + d[k..] == d
  {
  }

  /** The digits of the eleven-digit layout are the eleven digits, in order. */
  lemma ElevenDigitsKept(d: string)
    requires |d| == 11 && forall i :: 0 <= i < |d| ==> IsDigit(d[i])
    ensures Digits(d[..1] + " (" + d[1..4] + ") " + d[4..7] + "-" + d[7..]) == d
  {
    var a, b, c, e := d[..1], d[1..4], d[4..7], d[7..];
    DigitsOfDigits(a);
    DigitsOfDigits(b);
    DigitsOfDigits(c);
    DigitsOfDigits(e);
    NoDigits(" (");
    NoDigits(") ");
    NoDigits("-");
    var s1 := a + " (";
    DigitsStep(a, " (", a, "");
    var s2 := s1 + b;
    DigitsStep(s1, b, a, b);
    var s3 := s2 + ") ";
    DigitsStep(s2, ") ", a + b, "");
    var s4 := s3 + c;
    DigitsStep(s3, c, a + b, c);
    var s5 := s4 + "-";
    DigitsStep(s4, "-", a + b + c, "");
    DigitsStep(s5, e, a + b + c, e);
    SplitFour(d, 1, 4, 7);
  }

  /** Formatting never adds, drops or reorders a digit. */
  lemma FormatPhoneKeepsDigits(phone: string)
    ensures Digits(FormatPhone(phone)) == Digits(phone)
  {
    var d := Digits(phone);
    if |d| == 10 {
      TenDigitsKept(d);
    } else if |d| == 11 {
      ElevenDigitsKept(d);
    }
  }

  /**
   * The layouts: ten digits give a 14-character "(ddd) ddd-dddd" and eleven
   * a 16-character "d (ddd) ddd-dddd", the digits in their order; any other
   * count returns the input unchanged.
   */
  lemma FormatPhoneLayout(phone: string)
    ensures var d := Digits(phone);
      var r := FormatPhone(phone);
      && (|d| == 10 ==>
            && |r| == 14 && r[0] == '(' && r[4] == ')' && r[5] == ' ' && r[9] == '-'
            && r[1..4] == d[..3] && r[6..9] == d[3..6] && r[10..] == d[6..])
      && (|d| == 11 ==>
            && |r| == 16 && r[0] == d[0] && r[1] == ' ' && r[2] == '(' && r[6] == ')' && r[7] == ' '
            && r[11] == '-' && r[3..6] == d[1..4] && r[8..11] == d[4..7] && r[12..] == d[7..])
      && (|d| != 10 && |d| != 11 ==> r == phone)
  {
    var d := Digits(phone);
    if |d| == 10 {
      TenLayout(d);
    } else if |d| == 11 {
      ElevenLayout(d);
    }
  }

  lemma TenLayout(d: string)
    requires |d| == 10
    ensures var r := "(" + d[..3] + ") " + d[3..6] + "-" + d[6..];
      && |r| == 14 && r[0] == '(' && r[4] == ')' && r[5] == ' ' && r[9] == '-'
      && r[1..4] == d[..3] && r[6..9] == d[3..6] && r[10..] == d[6..]
  {
  }

  lemma ElevenLayout(d: string)
    requires |d| == 11
    ensures var r := d[..1] + " (" + d[1..4] + ") " + d[4..7] + "-" + d[7..];
      && |r| == 16 && r[0] == d[0] && r[1] == ' ' && r[2] == '(' && r[6] == ')' && r[7] == ' '
      && r[11] == '-' && r[3..6] == d[1..4] && r[8..11] == d[4..7] && r[12..] == d[7..]
  {
  }

  /** Formatting a formatted number changes nothing. */
  lemma FormatPhoneIdempotent(phone: string)
    ensures FormatPhone(FormatPhone(phone)) == FormatPhone(phone)
  {
    FormatPhoneKeepsDigits(phone);
  }
}

=== FILE: php_value.dfy ===
/**
 * PHP values as the plugin's argument and configuration arrays hold them:
 * scalars, null and arrays with (string) keys kept in insertion order.
 */
module PhpValue {
  import opened Common

  datatype Value =
    | Null
    | Bool(b: bool)
    | Int(i: int)
    | Float(r: real)
    | Str(s: string)
    | Arr(items: seq<(string, Value)>)

  /** PHP's `empty()`. */
  predicate Empty(v: Value) {
    match v
    case Null => true
    case Bool(b) => !b
    case Int(i) => i == 0
    case Float(r) => r == 0.0
    case Str(s) => PhpEmptyString(s)
    case Arr(items) => |items| == 0
  }

  /** PHP's `(bool)` cast, the truth value of `if ( $v )`. */
  predicate Truthy(v: Value) {
    !Empty(v)
  }

  /** `$v[$k] ?? null`: the entry under `k` of an array, null for anything else. */
  function Lookup(v: Value, k: string): Value {
    if v.Arr? then Get(v.items, k).GetOr(Null) else Null
  }

  /** A string entry read as a string; any other value reads as "". */
  function StrOf(v: Value): string {
    if v.Str? then v.s else ""
  }

  /** An integer entry read as an integer; any other value reads as 0. */
  function IntOf(v: Value): int {
    if v.Int? then v.i else 0
  }

  /** The entries of an array value; any other value has none. */
  function ItemsOf(v: Value): seq<(string, Value)> {
    if v.Arr? then v.items else []
  }

  /** The values of an array value in order (PHP's `array_values`). */
  function ValuesOf(v: Value): (vs: seq<Value>)
    ensures |vs| == |ItemsOf(v)|
    ensures forall i :: 0 <= i < |vs| ==> vs[i] == ItemsOf(v)[i].1
  {
    Values(ItemsOf(v))
  }

  function Values(m: seq<(string, Value)>): (vs: seq<Value>)
    ensures |vs| == |m|
    ensures forall i :: 0 <= i < |vs| ==> vs[i] == m[i].1
  {
    if |m| == 0 then [] else [m[0].1] + Values(m[1..])
  }

  /** `isset( $v[$k] )`: the entry exists and is not null. */
  predicate IsSet(v: Value, k: string) {
    Lookup(v, k) != Null
  }

  /** `$v ?? $d`: the default when the value is null or absent. */
  function OrDefault(v: Value, d: Value): Value {
    if v.Null? then d else v
  }

  predicate IsSpace(c: char) {
    c == ' ' || c == '\t' || c == '\n' || c == '\r' || c as int == 11 || c as int == 12
  }

  /** The value of a run of decimal digits. */
  function DigitsValue(s: string): (n: nat)
    requires forall i :: 0 <= i < |s| ==> IsDigit(s[i])
  {
    if |s| == 0 then 0
    else
      assert IsDigit(s[|s| - 1]);
      DigitsValue(s[..|s| - 1]) * 10 + (s[|s| - 1] as int - '0' as int)
  }

  /** The length of the leading run of digits. */
  function DigitRun(s: string): (n: nat)
    ensures n <= |s|
    ensures forall i :: 0 <= i < n ==> IsDigit(s[i])
    ensures n < |s| ==> !IsDigit(s[n])
  {
    if |s| == 0 || !IsDigit(s[0]) then 0 else 1 + DigitRun(s[1..])
  }

  /** The length of the leading run of white space. */
  function SpaceRun(s: string): (n: nat)
    ensures n <= |s|
    ensures forall i :: 0 <= i < n ==> IsSpace(s[i])
    ensures n < |s| ==> !IsSpace(s[n])
  {
    if |s| == 0 || !IsSpace(s[0]) then 0 else 1 + SpaceRun(s[1..])
  }

  function Pow10(n: nat): (p: nat)
    ensures p >= 1
  {
    if n == 0 then 1 else 10 * Pow10(n - 1)
  }

  /** The length of an optional leading sign. */
  function SignLen(s: string): (n: nat)
    ensures n <= |s|
  {
    if |s| > 0 && (s[0] == '+' || s[0] == '-') then 1 else 0
  }

  function SignOf(s: string): int {
    if |s| > 0 && s[0] == '-' then -1 else 1
  }

  /**
   * The unsigned mantissa at the start of `u` (PHP's LNUM or DNUM: digits,
   * digits with a point, or a point with digits): its value and length, the
   * length 0 when there is none.
   */
  function Mantissa(u: string): (m: (real, int))
    ensures 0 <= m.1 <= |u|
    ensures m.0 >= 0.0
  {
    var a := DigitRun(u);
    var rest := u[a..];
    if |rest| > 0 && rest[0] == '.' then
      var f := DigitRun(rest[1..]);
      if a == 0 && f == 0 then (0.0, 0)
      else (DigitsValue(u[..a]) as real + DigitsValue(rest[1..][..f]) as real / Pow10(f) as real, a + 1 + f)
    else (DigitsValue(u[..a]) as real, a)
  }

  /** The exponent part at the start of `r` (`e` or `E`, a sign, digits): its power and length, (0, 0) when there is none. */
  function Exponent(r: string): (e: (int, int))
    ensures 0 <= e.1 <= |r|
    ensures e.1 > 0 ==> r[0] == 'e' || r[0] == 'E'
  {
    if |r| > 0 && (r[0] == 'e' || r[0] == 'E') then
      var sg := SignLen(r[1..]);
      var d := DigitRun(r[1 + sg..]);
      if d == 0 then (0, 0) else (SignOf(r[1..]) * DigitsValue(r[1 + sg..][..d]), 1 + sg + d)
    else (0, 0)
  }

  /** `x` times ten to the power `e`. */
  function Scale(x: real, e: int): real {
    if e >= 0 then x * Pow10(e) as real else x / Pow10(-e) as real
  }

  /**
   * The number a string starts with, as PHP reads it (`is_numeric_string`
   * allowing trailing text): leading white space, a sign, a mantissa and an
   * optional exponent. Its value and the index just after it; `None` when
   * the string does not start with a number.
   */
  function NumericPrefix(s: string): (p: Option<(real, int)>)
    ensures p.Some? ==> SpaceRun(s) < p.value.1 <= |s|
  {
    var w := SpaceRun(s);
    var t := s[w..];
    var sg := SignLen(t);
    var u := t[sg..];
    var m := Mantissa(u);
    if m.1 == 0 then None
    else
      var e := Exponent(u[m.1..]);
      Some((SignOf(t) as real * Scale(m.0, e.0), w + sg + m.1 + e.1))
  }

  /** PHP 8's `is_numeric` on a string: one number, with white space only around it. */
  predicate IsNumericString(s: string) {
    var p := NumericPrefix(s);
    p.Some? && p.value.1 + SpaceRun(s[p.value.1..]) == |s|
  }

  /** PHP's `is_numeric`: integers, floats and numeric strings. */
  predicate IsNumeric(v: Value) {
    v.Int? || v.Float? || (v.Str? && IsNumericString(v.s))
  }

  /** A real truncated toward zero (PHP's float-to-int conversion). */
  function Trunc(r: real): (n: int)
    ensures r >= 0.0 ==> n as real <= r < n as real + 1.0
    ensures r < 0.0 ==> n as real - 1.0 < r <= n as real
  {
    if r >= 0.0 then r.Floor else -((-r).Floor)
  }

  /**
   * `intval` of a string: the number it starts with, truncated toward zero;
   * 0 when it does not start with one.
   */
  function StrToInt(s: string): int {
    match NumericPrefix(s)
    case None => 0
    case Some(p) => Trunc(p.0)
  }

  /** PHP's `(int)` cast / `intval`. */
  function IntVal(v: Value): int {
    match v
    case Null => 0
    case Bool(b) => if b then 1 else 0
    case Int(i) => i
    case Float(r) => Trunc(r)
    case Str(s) => StrToInt(s)
    case Arr(items) => if |items| == 0 then 0 else 1
  }

  /** WordPress `absint`: the absolute value of the integer cast. */
  function AbsInt(v: Value): (n: nat)
    ensures n == IntVal(v) || n == -IntVal(v)
  {
    var i := IntVal(v);
    if i < 0 then -i else i
  }

  /** PHP's `(float)` cast on the types a numeric REST parameter can have. */
  function FloatVal(v: Value): real {
    match v
    case Float(r) => r
    case Int(i) => i as real
    case Bool(b) => if b then 1.0 else 0.0
    case _ => 0.0
  }

  /**
   * The string a scalar prints as (`sanitize_text_field` keeps plain text
   * unchanged; arrays give the empty string).
   */
  function ToStr(v: Value): string {
    match v
    case Str(s) => s
    case Int(i) => IntToString(i)
    case Bool(b) => if b then "1" else ""
    case _ => ""
  }

  /** PHP's `(array)` cast: null is empty, a scalar becomes a one-element list. */
  function ArrayCast(v: Value): seq<(string, Value)> {
    match v
    case Null => []
    case Arr(items) => items
    case _ => [("0", v)]
  }

  lemma {:induction false} DigitsValueOfNat(n: nat)
    ensures DigitsValue(NatToString(n)) == n
    decreases n
  {
    var s := NatToString(n);
    if n >= 10 {
      DigitsValueOfNat(n / 10);
      assert s[..|s| - 1] == NatToString(n / 10);
    }
  }

  /** A string of digits alone is a mantissa of its full length and value. */
  lemma {:induction false} MantissaOfDigits(d: string)
    requires |d| > 0 && forall k :: 0 <= k < |d| ==> IsDigit(d[k])
    ensures Mantissa(d) == (DigitsValue(d) as real, |d|)
  {
    DigitRunAll(d);
    assert d[|d|..] == [];
    assert d[..|d|] == d;
  }

  lemma {:induction false} DigitRunAll(d: string)
    requires forall k :: 0 <= k < |d| ==> IsDigit(d[k])
    ensures DigitRun(d) == |d|
    decreases |d|
  {
    if |d| > 0 {
      DigitRunAll(d[1..]);
    }
  }

  /** A string starting with neither white space nor a sign is read from its first character. */
  lemma PrefixUnsigned(s: string)
    requires |s| > 0 && !IsSpace(s[0]) && s[0] != '+' && s[0] != '-' && Mantissa(s).1 > 0
    ensures var m := Mantissa(s); var e := Exponent(s[m.1..]);
      NumericPrefix(s) == Some((Scale(m.0, e.0), m.1 + e.1))
  {
    assert SpaceRun(s) == 0;
    assert s[0..] == s;
    assert SignLen(s) == 0;
    assert SignOf(s) == 1;
  }

  /** A string starting with a minus sign is read after it, negated. */
  lemma PrefixNegative(s: string)
    requires |s| > 1 && s[0] == '-' && Mantissa(s[1..]).1 > 0
    ensures var m := Mantissa(s[1..]); var e := Exponent(s[1..][m.1..]);
      NumericPrefix(s) == Some((-Scale(m.0, e.0), 1 + m.1 + e.1))
  {
    assert SpaceRun(s) == 0;
    assert s[0..] == s;
    assert SignLen(s) == 1;
    assert SignOf(s) == -1;
    var m := Mantissa(s[1..]);
    var e := Exponent(s[1..][m.1..]);
    assert -1.0 * Scale(m.0, e.0) == -Scale(m.0, e.0);
  }

  lemma ExponentNone(r: string)
    requires |r| == 0
    ensures Exponent(r) == (0, 0)
  {
  }

  lemma ScaleZero(x: real)
    ensures Scale(x, 0) == x
  {
  }

  /** A run of digits is a number of its full length. */
  lemma {:induction false} NumericPrefixOfDigits(d: string)
    requires |d| > 0 && forall k :: 0 <= k < |d| ==> IsDigit(d[k])
    ensures NumericPrefix(d) == Some((DigitsValue(d) as real, |d|))
  {
    MantissaOfDigits(d);
    ExponentNone(d[|d|..]);
    PrefixUnsigned(d);
    ScaleZero(DigitsValue(d) as real);
  }

  /** A minus sign and a run of digits are a negative number of their full length. */
  lemma {:induction false} NumericPrefixOfNegDigits(d: string)
    requires |d| > 0 && forall k :: 0 <= k < |d| ==> IsDigit(d[k])
    ensures NumericPrefix("-" + d) == Some((-(DigitsValue(d) as real), 1 + |d|))
  {
    var s := "-" + d;
    assert s[1..] == d;
    MantissaOfDigits(d);
    ExponentNone(d[|d|..]);
    PrefixNegative(s);
    ScaleZero(DigitsValue(d) as real);
  }

  /** An optionally negated run of digits is a number of its full length. */
  lemma NumericPrefixOfSignedText(s: string, d: string, neg: bool)
    requires |d| > 0 && forall k :: 0 <= k < |d| ==> IsDigit(d[k])
    requires s == if neg then "-" + d else d
    ensures NumericPrefix(s) == Some((if neg then -(DigitsValue(d) as real) else DigitsValue(d) as real, |s|))
  {
    if neg {
      NumericPrefixOfNegDigits(d);
    } else {
      NumericPrefixOfDigits(d);
    }
  }

  /** The decimal text of an integer is a numeric string whose value is the integer. */
  lemma {:induction false} NumericPrefixOfIntToString(i: int)
    ensures NumericPrefix(IntToString(i)) == Some((i as real, |IntToString(i)|))
    ensures IsNumericString(IntToString(i))
  {
    var n: nat := if i < 0 then -i else i;
    var d := NatToString(n);
    DigitsValueOfNat(n);
    NumericPrefixOfSignedText(IntToString(i), d, i < 0);
    EndOfText(IntToString(i));
  }

  lemma EndOfText(s: string)
    ensures SpaceRun(s[|s|..]) == 0
  {
    assert s[|s|..] == [];
  }

  /** `intval` reads back every integer PHP prints. */
  lemma StrToIntOfIntToString(i: int)
    ensures StrToInt(IntToString(i)) == i
  {
    NumericPrefixOfIntToString(i);
  }

  /** A decimal point and a zero after the number keep it numeric: "6.0" reads as 6. */
  lemma NumericSixPointZero()
    ensures NumericPrefix("6.0") == Some((6.0, 3)) && IsNumericString("6.0")
  {
    var s := "6.0";
    assert SpaceRun(s) == 0 && s[0..] == s && SignLen(s) == 0;
    assert DigitRun(s) == 1;
    assert s[1..] == ".0" && DigitRun("0") == 1;
    assert Mantissa(s) == (6.0, 3);
    assert s[3..] == [];
  }

  /** An exponent is part of the number: "1e1" reads as 10. */
  lemma NumericOneEOne()
    ensures NumericPrefix("1e1") == Some((10.0, 3)) && IsNumericString("1e1")
    ensures StrToInt("1e1") == 10
  {
    var s := "1e1";
    assert SpaceRun(s) == 0 && s[0..] == s && SignLen(s) == 0;
    assert DigitRun(s) == 1;
    assert Mantissa(s) == (1.0, 1);
    assert s[1..] == "e1" && "e1"[1..] == "1" && SignLen("1") == 0 && "1"[0..] == "1";
    assert DigitRun("1") == 1 && "1"[..1] == "1";
    assert Exponent("e1") == (1, 2);
    assert s[3..] == [];
  }

  /** Text after the number ends it: "12abc" starts with 12 but is not numeric. */
  lemma NumericTrailingText()
    ensures NumericPrefix("12abc") == Some((12.0, 2)) && !IsNumericString("12abc")
  {
    var s := "12abc";
    assert SpaceRun(s) == 0 && s[0..] == s && SignLen(s) == 0;
    MantissaTwelve();
    assert s[2..] == "abc";
    assert Exponent("abc") == (0, 0);
    assert SpaceRun("abc") == 0;
  }

  lemma MantissaTwelve()
    ensures Mantissa("12abc") == (12.0, 2)
  {
    var s := "12abc";
    assert s[1..] == "2abc" && "2abc"[1..] == "abc";
    assert DigitRun(s) == 2;
    assert s[..2] == "12" && "12"[..1] == "1" && "1"[..0] == [];
    assert DigitsValue("12") == 12;
    assert s[2..] == "abc";
  }

  /** Letters are no number. */
  lemma NumericLetters()
    ensures NumericPrefix("abc") == None && !IsNumericString("abc")
  {
    assert "abc"[0..] == "abc";
  }

  /** Leading white space is skipped: " 3" reads as 3. */
  lemma LeadingSpaceThree()
    ensures NumericPrefix(" 3") == Some((3.0, 2)) && IsNumericString(" 3")
  {
    var s := " 3";
    assert SpaceRun("3") == 0;
    assert s[1..] == "3";
    assert SpaceRun(s) == 1;
    assert "3"[0..] == "3" && SignLen("3") == 0;
    MantissaOfDigits("3");
    assert "3"[..0] == [] && DigitsValue("3") == 3;
    assert "3"[1..] == [];
    assert s[2..] == [];
  }

  /** A lone point, or nothing, is no number. */
  lemma NumericNone()
    ensures NumericPrefix(".") == None && NumericPrefix("") == None && StrToInt("abc") == 0
  {
    assert NumericPrefix(".") == None by {
      assert SpaceRun(".") == 0 && "."[0..] == "." && SignLen(".") == 0;
      assert DigitRun(".") == 0 && "."[0..][1..] == [];
      assert Mantissa(".").1 == 0;
    }
    assert NumericPrefix("") == None by {
      assert ""[0..] == "";
    }
    NumericLetters();
  }
}

=== FILE: query_builder.dfy ===
/**
 * The Elasticsearch request the listing engine sends: page-type resolution,
 * the boolean filter (must / must_not / state term / geo distance), the sort
 * pipeline (tier, pacing score, points or distance boost, seeded random,
 * distance) and the taxonomy-term filters of filtered and tabbed blocks.
 *
 * Queries are data: painless scripts are tagged with their parameters and
 * never evaluated.
 */
module QueryBuilder {
  import opened Common

  const PAGE_DEFAULT := "default"
  const PAGE_REHAB_CENTER := "rehab-center"
  const PAGE_STATE := "state"
  const PAGE_CITY := "city"

  /** Seconds a result stays cached; also the intended randomisation window. */
  const CACHE_DURATION := 900
  const MAX_RADIUS := "500mi"
  /** The query asks for three times as many hits as cards. */
  const OVERFETCH := 3

  /** The taxonomy of state and city terms. */
  const LOCATION_TAXONOMY := "rehab-centers"

  datatype Geo = Geo(lat: real, lon: real)

  /** The embed / REST overrides carried in the `context` argument ("" when absent or empty). */
  datatype Context = Context(pageType: string, state: string, city: string)

  /** What WordPress says about the page being served. */
  datatype WpPage =
    | TaxonomyArchive(taxonomy: string, parentId: int) // is_tax() with the queried term
    | Singular(postType: string)
    | OtherPage

  /**
   * The page type: a non-empty context override verbatim, then a context city,
   * then a context state, and only then the WordPress query (a term of the
   * location taxonomy is a city when it has a parent, a state otherwise).
   */
  function PageType(ctx: Context, wp: WpPage): (t: string)
    ensures !PhpEmptyString(ctx.pageType) ==> t == ctx.pageType
    ensures PhpEmptyString(ctx.pageType) && !PhpEmptyString(ctx.city) ==> t == PAGE_CITY
    ensures PhpEmptyString(ctx.pageType) && PhpEmptyString(ctx.city) && !PhpEmptyString(ctx.state) ==> t == PAGE_STATE
    ensures PhpEmptyString(ctx.pageType) && PhpEmptyString(ctx.city) && PhpEmptyString(ctx.state) ==>
              t in {PAGE_CITY, PAGE_STATE, PAGE_REHAB_CENTER, PAGE_DEFAULT}
  {
    if !PhpEmptyString(ctx.pageType) then ctx.pageType
    else if !PhpEmptyString(ctx.city) then PAGE_CITY
    else if !PhpEmptyString(ctx.state) then PAGE_STATE
    else match wp
      case TaxonomyArchive(tax, parent) =>
        if tax == LOCATION_TAXONOMY then (if parent > 0 then PAGE_CITY else PAGE_STATE) else PAGE_DEFAULT
      case Singular(postType) =>
        if postType == PAGE_REHAB_CENTER then PAGE_REHAB_CENTER else PAGE_DEFAULT
      case OtherPage => PAGE_DEFAULT
  }

  /** Without overrides, the WordPress page decides: location terms by parent, listing pages, else default. */
  lemma PageTypeFromWordPress(wp: WpPage)
    ensures var t := PageType(Context("", "", ""), wp);
      && (t == PAGE_CITY <==> wp.TaxonomyArchive? && wp.taxonomy == LOCATION_TAXONOMY && wp.parentId > 0)
      && (t == PAGE_STATE <==> wp.TaxonomyArchive? && wp.taxonomy == LOCATION_TAXONOMY && wp.parentId <= 0)
      && (t == PAGE_REHAB_CENTER <==> wp == Singular(PAGE_REHAB_CENTER))
  {
  }

  /**
   * The search centre: a visitor-supplied location on default pages, the
   * location term's coordinates on city and listing pages, none otherwise.
   */
  function LocationData(userLocation: Option<Geo>, pageType: string, taxonomyLocation: Option<Geo>): (loc: Option<Geo>)
    ensures userLocation.Some? && pageType == PAGE_DEFAULT ==> loc == userLocation
    ensures pageType == PAGE_CITY || pageType == PAGE_REHAB_CENTER ==> loc == taxonomyLocation
    ensures pageType !in {PAGE_DEFAULT, PAGE_CITY, PAGE_REHAB_CENTER} ==> loc.None?
    ensures loc.Some? ==> loc == userLocation || loc == taxonomyLocation
  {
    if userLocation.Some? && pageType == PAGE_DEFAULT then userLocation
    else if pageType == PAGE_REHAB_CENTER || pageType == PAGE_CITY then taxonomyLocation
    else None
  }

  /** The state slug used for state pages and city pages without coordinates. */
  function StateSlug(pageType: string, ctxState: string, queriedSlug: Option<string>): (slug: Option<string>)
    ensures pageType != PAGE_STATE && pageType != PAGE_CITY ==> slug.None?
    ensures (pageType == PAGE_STATE || pageType == PAGE_CITY) && !PhpEmptyString(ctxState) ==> slug == Some(ctxState)
    ensures (pageType == PAGE_STATE || pageType == PAGE_CITY) && PhpEmptyString(ctxState) ==> slug == queriedSlug
  {
    if pageType != PAGE_STATE && pageType != PAGE_CITY then None
    else if !PhpEmptyString(ctxState) then Some(ctxState)
    else queriedSlug
  }

  // ---------------------------------------------------------------------------
  // The request as data

  datatype Clause =
    | Match(field: string, value: string)
    | Term(field: string, value: string)
    | Terms(field: string, ids: seq<int>)
    | GeoDistance(distance: string, field: string, at: Geo)
    | AnyOf(should: seq<Clause>, minimumShouldMatch: nat)

  datatype Order = Asc | Desc

  datatype Missing = MissingLast | MissingValue(value: int)

  datatype Script =
    | DistanceBoost(at: Geo)   // total points plus +10/+5/+2 within 25/50/100 miles
    | SeededRandom(seed: int)  // Random(seed + post_id).nextInt(100)

  datatype SortStage =
    | FieldSort(field: string, order: Order, missing: Missing, unmappedType: string)
    | ScriptSort(script: Script, order: Order)
    | GeoSort(field: string, at: Geo, order: Order, unit: string)

  /** A search body; an empty `mustNot` or `filter` stands for an absent key. */
  datatype Query = Query(
    size: int,
    must: seq<Clause>,
    mustNot: seq<Clause>,
    filter: seq<Clause>,
    sort: seq<SortStage>,
    source: seq<string>
  )

  const PUBLISHED := Match("post_status", "publish")
  const LISTINGS := Match("post_type", "rehab-center")

  const TIER_SORT := FieldSort("rmg.premium_level.keyword", Desc, MissingLast, "keyword")
  const PACING_SORT := FieldSort("rmg.premium_plus_pacing_score", Desc, MissingValue(0), "integer")
  const POINTS_SORT := FieldSort("rmg.total_points", Desc, MissingLast, "integer")

  const SOURCE_FIELDS: seq<string> := [
    "post_title", "post_id", "permalink", "rmg.premium", "rmg.premium_level",
    "rmg.premium_plus_pacing_score", "rmg.budgeted_views", "rmg.views_remaining",
    "rmg.views_consumed", "rmg.override_views", "rmg.total_points", "rmg.address",
    "rmg.phone", "rmg.rating_avg", "rmg.review_count", "rmg.image_url",
    "rmg.featured_image", "rmg.claimed", "rmg.website", "rmg.tracking_number",
    "rmg.overview", "rmg.winner_name", "rmg.winner_name2", "rmg.winner_rank",
    "rmg.winner_rank2", "rmg.city", "rmg.state", "rmg.insurance", "rmg.zip_code"
  ]

  /** Distance-based ranking applies when there is a centre and the page is not a state page. */
  predicate UsesDistance(location: Option<Geo>, pageType: string) {
    location.Some? && pageType != PAGE_STATE
  }

  /**
   * The sort pipeline: tier, then pacing score, then distance-boosted points
   * (or plain points without a centre), then the seeded random tiebreak, then
   * distance when there is a centre.
   */
  function SortCriteria(location: Option<Geo>, pageType: string, seed: int): (stages: seq<SortStage>)
    ensures |stages| == (if UsesDistance(location, pageType) then 5 else 4)
    ensures stages[0] == TIER_SORT && stages[1] == PACING_SORT
    ensures stages[3] == ScriptSort(SeededRandom(seed), Desc)
    ensures UsesDistance(location, pageType) ==>
              stages[2] == ScriptSort(DistanceBoost(location.value), Desc)
              && stages[4] == GeoSort("rmg.location", location.value, Asc, "mi")
    ensures !UsesDistance(location, pageType) ==> stages[2] == POINTS_SORT
    ensures forall i :: 0 <= i < |stages| ==> (stages[i].GeoSort? <==> i == 4)
  {
    if UsesDistance(location, pageType) then
      [TIER_SORT, PACING_SORT, ScriptSort(DistanceBoost(location.value), Desc),
       ScriptSort(SeededRandom(seed), Desc), GeoSort("rmg.location", location.value, Asc, "mi")]
    else
      [TIER_SORT, PACING_SORT, POINTS_SORT, ScriptSort(SeededRandom(seed), Desc)]
  }

  /**
   * The IDs kept out of the results: the explicit exclusions plus the current
   * listing on a listing page, zeros dropped, duplicates removed.
   */
  function ExcludeIds(excluded: seq<int>, pageType: string, postId: int): (ids: seq<int>)
    ensures NoDup(ids)
    ensures forall x :: x in ids <==> x != 0 && (x in excluded || (pageType == PAGE_REHAB_CENTER && postId > 0 && x == postId))
  {
    var own := if pageType == PAGE_REHAB_CENTER && postId > 0 then [postId] else [];
    var ids := Dedup(DropZeros(excluded + own));
    DedupMembers(DropZeros(excluded + own));
    assert forall x :: x in excluded + own <==> x in excluded || x in own;
    ids
  }

  /** Everything the base query depends on. */
  datatype QueryParams = QueryParams(
    cardCount: int,
    pageType: string,
    postId: int,
    excluded: seq<int>,
    location: Option<Geo>,
    stateSlug: Option<string>,
    seed: int
  )

  /** A state term filter applies on state pages and on city pages that fell back to no coordinates. */
  predicate UsesStateFilter(p: QueryParams) {
    (p.pageType == PAGE_STATE || (p.pageType == PAGE_CITY && p.location.None?))
    && p.stateSlug.Some? && !PhpEmptyString(p.stateSlug.value)
  }

  function BaseQuery(p: QueryParams): (q: Query)
  {
    var ex := ExcludeIds(p.excluded, p.pageType, p.postId);
    var must := [PUBLISHED, LISTINGS] + (if UsesStateFilter(p) then [Term("rmg.state_slug", p.stateSlug.value)] else []);
    Query(
      p.cardCount * OVERFETCH,
      must,
      if |ex| > 0 then [Terms("post_id", ex)] else [],
      if UsesDistance(p.location, p.pageType) then [GeoDistance(MAX_RADIUS, "rmg.location", p.location.value)] else [],
      SortCriteria(p.location, p.pageType, p.seed),
      SOURCE_FIELDS)
  }

  /**
   * The shape of the base query: three times the card count, published
   * listings, the exclusions in a single `terms` clause (absent when there are
   * none), the state term exactly when the state fallback applies and the 500
   * mile radius exactly when distance ranking applies.
   */
  lemma BaseQueryShape(p: QueryParams)
    ensures var q := BaseQuery(p);
      && q.size == 3 * p.cardCount
      && q.must[..2] == [PUBLISHED, LISTINGS]
      && (|q.must| == 3 <==> UsesStateFilter(p))
      && (UsesStateFilter(p) ==> q.must[2] == Term("rmg.state_slug", p.stateSlug.value))
      && (|q.mustNot| > 0 ==> q.mustNot == [Terms("post_id", ExcludeIds(p.excluded, p.pageType, p.postId))])
      && (|q.filter| > 0 <==> UsesDistance(p.location, p.pageType))
      && (UsesDistance(p.location, p.pageType) ==> q.filter == [GeoDistance(MAX_RADIUS, "rmg.location", p.location.value)])
      && q.sort == SortCriteria(p.location, p.pageType, p.seed)
  {
  }

  /** `must_not` is present exactly when some ID is left to exclude. */
  lemma BaseQueryMustNot(p: QueryParams)
    ensures |BaseQuery(p).mustNot| > 0 <==>
              (exists x :: x in p.excluded && x != 0) || (p.pageType == PAGE_REHAB_CENTER && p.postId > 0)
  {
    var ex := ExcludeIds(p.excluded, p.pageType, p.postId);
    if p.pageType == PAGE_REHAB_CENTER && p.postId > 0 {
      assert p.postId in ex;
    }
    if x :| x in p.excluded && x != 0 {
      assert x in ex;
    }
    if |ex| > 0 {
      assert ex[0] in ex;
    }
  }

  /** The state fallback and the radius filter never apply together. */
  lemma StateAndGeoExclusive(p: QueryParams)
    ensures !(UsesStateFilter(p) && UsesDistance(p.location, p.pageType))
    ensures !(|BaseQuery(p).must| == 3 && |BaseQuery(p).filter| > 0)
  {
  }

  // ---------------------------------------------------------------------------
  // Randomisation seed

  /** `floor(a / b)` for a non-zero divisor (PHP float division, then floor). */
  function FloorDiv(a: int, b: int): (q: int)
    requires b != 0
    ensures b > 0 ==> q * b <= a < q * b + b
    ensures b < 0 ==> q * b >= a > q * b + b
  {
    if b > 0 then a / b else (-a) / (-b)
  }

  /**
   * The random tiebreak seed, as written: the interval is `floor(t / 900)`
   * (passed through the interval filter `intervalFilter`), and the seed is
   * `floor(t / interval)`; a zero interval or the cache-bypass flag draws a
   * fresh random number instead.
   */
  function SeedAsWritten(t: nat, intervalFilter: int -> int, bypass: bool, rand: int): (seed: int)
    ensures bypass ==> seed == rand
    ensures intervalFilter(t / CACHE_DURATION) == 0 ==> seed == rand
  {
    var interval := intervalFilter(t / CACHE_DURATION);
    if interval == 0 || bypass then rand else FloorDiv(t, interval)
  }

  /**
   * With the interval filter left alone, the seed as written is the constant
   * 900 from t = 810000 seconds on (the tenth day of the epoch): the
   * randomisation never rotates.
   */
  lemma {:induction false} SeedAsWrittenIsConstant(t: nat, rand: int)
    requires t >= 900 * 900
    ensures SeedAsWritten(t, x => x, false, rand) == 900
  {
    var q := t / 900;
    assert q >= 900;
    assert q * 900 <= t < q * 900 + 900;
    DivUnique(t, q, 900);
  }

  /**
   * The frozen seed in general: with the interval left unfiltered, the seed
   * is 900 on every call from the tenth day of the epoch on.
   */
  lemma {:induction false} SeedAsWrittenFrozenWhen(t: nat, intervalFilter: int -> int, bypass: bool, rand: int)
    ensures !bypass && t >= 900 * 900 && (forall x :: intervalFilter(x) == x) ==>
              SeedAsWritten(t, intervalFilter, bypass, rand) == 900
  {
    if !bypass && t >= 900 * 900 && (forall x :: intervalFilter(x) == x) {
      var q := t / 900;
      assert intervalFilter(q) == q;
      assert q >= 900;
      assert q * 900 <= t < q * 900 + 900;
      DivUnique(t, q, 900);
    }
  }

  /** The quotient is the unique `k` with `k * b <= a < k * b + b`. */
  lemma DivUnique(a: int, b: int, k: int)
    requires b > 0 && k * b <= a < k * b + b
    ensures a / b == k
  {
    var d := a / b;
    assert d * b <= a < d * b + b;
    MulLess(d, k, b);
    MulLess(k, d, b);
  }

  lemma MulLess(x: int, y: int, b: int)
    requires b > 0
    ensures x < y ==> (x + 1) * b <= y * b
  {
    if x < y {
      assert (y - (x + 1)) * b >= 0;
    }
  }

  /** Two moments 15 minutes apart get the same seed as written: an example of the constant seed. */
  lemma SeedAsWrittenIgnoresWindows(rand: int)
    ensures SeedAsWritten(1_700_000_000, x => x, false, rand) == SeedAsWritten(1_700_000_900, x => x, false, rand)
  {
    SeedAsWrittenIsConstant(1_700_000_000, rand);
    SeedAsWrittenIsConstant(1_700_000_900, rand);
  }

  /**
   * The seed as evidently intended: the index of the current 15-minute window
   * (the interval filter giving the window length in seconds, 900 by default).
   */
  function Seed(t: nat, intervalFilter: int -> int, bypass: bool, rand: int): (seed: int)
    ensures bypass || intervalFilter(CACHE_DURATION) == 0 ==> seed == rand
    ensures !bypass && intervalFilter(CACHE_DURATION) > 0 ==>
              seed * intervalFilter(CACHE_DURATION) <= t < (seed + 1) * intervalFilter(CACHE_DURATION)
  {
    var interval := intervalFilter(CACHE_DURATION);
    if interval == 0 || bypass then rand else FloorDiv(t, interval)
  }

  /** The intended seed is stable within a window and changes from one window to the next. */
  lemma SeedWindows(t1: nat, t2: nat, rand: int)
    ensures t1 / CACHE_DURATION == t2 / CACHE_DURATION ==> Seed(t1, x => x, false, rand) == Seed(t2, x => x, false, rand)
    ensures t2 == t1 + CACHE_DURATION ==> Seed(t2, x => x, false, rand) == Seed(t1, x => x, false, rand) + 1
  {
  }

  // ---------------------------------------------------------------------------
  // Taxonomy terms

  /** The six taxonomy groups in the order the query builder visits them, with their indexed fields. */
  const TERM_FIELDS: seq<(string, string)> := [
    ("treatmentOptions", "rmg.treatment"),
    ("paymentOptions", "rmg.payment"),
    ("programs", "rmg.programs"),
    ("levelsOfCare", "rmg.levels_of_care"),
    ("clinicalServices", "rmg.clinical_services"),
    ("amenities", "rmg.amenities")
  ]

  /** Selected terms per group, in the argument's order. */
  type SelectedTerms = seq<(string, seq<string>)>

  function GroupTerms(sel: SelectedTerms, group: string): seq<string> {
    Get(sel, group).GetOr([])
  }

  function MatchAll(field: string, terms: seq<string>): (cs: seq<Clause>)
    ensures |cs| == |terms|
    ensures forall i :: 0 <= i < |terms| ==> cs[i] == Match(field, terms[i])
  {
    if |terms| == 0 then [] else [Match(field, terms[0])] + MatchAll(field, terms[1..])
  }

  function TermFiltersFrom(sel: SelectedTerms, groups: seq<(string, string)>): (cs: seq<Clause>)
  {
    if |groups| == 0 then []
    else MatchAll(groups[0].1, GroupTerms(sel, groups[0].0)) + TermFiltersFrom(sel, groups[1..])
  }

  /** One `match` clause per selected term of the six known groups, group by group. */
  function TermFilters(sel: SelectedTerms): (cs: seq<Clause>)
  {
    TermFiltersFrom(sel, TERM_FIELDS)
  }

  /** A clause is a term filter iff it matches a term selected in one of the known groups on that group's field. */
  lemma {:induction false} TermFiltersFromMember(sel: SelectedTerms, groups: seq<(string, string)>, c: Clause)
    ensures c in TermFiltersFrom(sel, groups) <==>
              exists g :: 0 <= g < |groups| && c.Match? && c.field == groups[g].1 && c.value in GroupTerms(sel, groups[g].0)
  {
    if |groups| > 0 {
      TermFiltersFromMember(sel, groups[1..], c);
      var head := MatchAll(groups[0].1, GroupTerms(sel, groups[0].0));
      if c in head {
        var i :| 0 <= i < |head| && head[i] == c;
        assert c.value == GroupTerms(sel, groups[0].0)[i];
      }
      if c.Match? && c.field == groups[0].1 && c.value in GroupTerms(sel, groups[0].0) {
        var i :| 0 <= i < |GroupTerms(sel, groups[0].0)| && GroupTerms(sel, groups[0].0)[i] == c.value;
        assert head[i] == c;
      }
      forall g | 1 <= g < |groups|
        ensures groups[g] == groups[1..][g - 1]
      {
      }
    }
  }

  lemma TermFiltersMember(sel: SelectedTerms, c: Clause)
    ensures c in TermFilters(sel) <==>
              exists g :: 0 <= g < |TERM_FIELDS| && c.Match? && c.field == TERM_FIELDS[g].1 && c.value in GroupTerms(sel, TERM_FIELDS[g].0)
  {
    TermFiltersFromMember(sel, TERM_FIELDS, c);
  }

  /** Adds the term filters as one "match any" clause to the filter list (nothing when there are none). */
  function AddTermsFilter(q: Query, sel: SelectedTerms): (r: Query)
    ensures |TermFilters(sel)| == 0 ==> r == q
    ensures |TermFilters(sel)| > 0 ==>
              r == q.(filter := q.filter + [AnyOf(TermFilters(sel), 1)])
  {
    var fs := TermFilters(sel);
    if |fs| > 0 then q.(filter := q.filter + [AnyOf(fs, 1)]) else q
  }

  /** One tab of a tabbed block: a selected term and the field it is matched on. */
  datatype TermData = TermData(group: string, value: string, field: string, caption: string)

  /** The key of a tab: the group, an underscore, the term's title slug. */
  function TabKey(group: string, term: string, titleSlug: string -> string): string {
    group + "_" + titleSlug(term)
  }

  /** Adds one tab per term of a group, in order, under its `TabKey`. */
  function PutTerms(acc: seq<(string, TermData)>, group: string, field: string, terms: seq<string>, titleSlug: string -> string): (r: seq<(string, TermData)>)
    decreases |terms|
  {
    if |terms| == 0 then acc
    else PutTerms(Put(acc, TabKey(group, terms[0], titleSlug), TermData(group, terms[0], field, terms[0])), group, field, terms[1..], titleSlug)
  }

  /** The tabs after `PutTerms`: the earlier keys, and one key per term, and nothing else. */
  lemma {:induction false} PutTermsKeys(acc: seq<(string, TermData)>, group: string, field: string, terms: seq<string>, titleSlug: string -> string)
    ensures forall k :: k in Keys(acc) ==> k in Keys(PutTerms(acc, group, field, terms, titleSlug))
    ensures forall i :: 0 <= i < |terms| ==> TabKey(group, terms[i], titleSlug) in Keys(PutTerms(acc, group, field, terms, titleSlug))
    ensures forall k :: k in Keys(PutTerms(acc, group, field, terms, titleSlug)) ==>
              k in Keys(acc) || exists i :: 0 <= i < |terms| && k == TabKey(group, terms[i], titleSlug)
    decreases |terms|
  {
    if |terms| > 0 {
      var k0 := TabKey(group, terms[0], titleSlug);
      var acc' := Put(acc, k0, TermData(group, terms[0], field, terms[0]));
      PutTermsKeys(acc', group, field, terms[1..], titleSlug);
      var r := PutTerms(acc', group, field, terms[1..], titleSlug);
      assert PutTerms(acc, group, field, terms, titleSlug) == r;
      assert k0 in Keys(acc');
      forall i | 1 <= i < |terms|
        ensures TabKey(group, terms[i], titleSlug) in Keys(r)
      {
        assert terms[1..][i - 1] == terms[i];
      }
      forall k | k in Keys(r)
        ensures k in Keys(acc) || exists i :: 0 <= i < |terms| && k == TabKey(group, terms[i], titleSlug)
      {
        if k !in Keys(acc') {
          var i :| 0 <= i < |terms[1..]| && k == TabKey(group, terms[1..][i], titleSlug);
          assert terms[1..][i] == terms[i + 1];
        }
      }
    }
  }

  function AllTermsFrom(acc: seq<(string, TermData)>, sel: SelectedTerms, groups: seq<(string, string)>, titleSlug: string -> string): seq<(string, TermData)>
    decreases |groups|
  {
    if |groups| == 0 then acc
    else AllTermsFrom(PutTerms(acc, groups[0].0, groups[0].1, GroupTerms(sel, groups[0].0), titleSlug), sel, groups[1..], titleSlug)
  }

  /**
   * The tabs of a tabbed block: every selected term of the six known groups,
   * keyed `group_slug` (`titleSlug` is WordPress `sanitize_title`); a later
   * term whose key repeats an earlier one replaces it in place.
   */
  function ExtractAllTerms(sel: SelectedTerms, titleSlug: string -> string): seq<(string, TermData)> {
    AllTermsFrom([], sel, TERM_FIELDS, titleSlug)
  }

  /** Each tab's data is consistent: its label is its term and its field is its group's field. */
  ghost predicate TabsConsistent(m: seq<(string, TermData)>, groups: seq<(string, string)>) {
    forall i :: 0 <= i < |m| ==>
      m[i].1.caption == m[i].1.value && (m[i].1.group, m[i].1.field) in groups
  }

  lemma {:induction false} PutTermsConsistent(acc: seq<(string, TermData)>, group: string, field: string, terms: seq<string>,
                                                titleSlug: string -> string, groups: seq<(string, string)>)
    requires TabsConsistent(acc, groups) && (group, field) in groups
    ensures TabsConsistent(PutTerms(acc, group, field, terms, titleSlug), groups)
    decreases |terms|
  {
    if |terms| > 0 {
      var d := TermData(group, terms[0], field, terms[0]);
      PutConsistent(acc, TabKey(group, terms[0], titleSlug), d, groups);
      PutTermsConsistent(Put(acc, TabKey(group, terms[0], titleSlug), d), group, field, terms[1..], titleSlug, groups);
    }
  }

  lemma {:induction false} PutConsistent(m: seq<(string, TermData)>, k: string, d: TermData, groups: seq<(string, string)>)
    requires TabsConsistent(m, groups) && d.caption == d.value && (d.group, d.field) in groups
    ensures TabsConsistent(Put(m, k, d), groups)
  {
    if |m| > 0 && m[0].0 != k {
      PutConsistent(m[1..], k, d, groups);
    }
  }

  lemma {:induction false} AllTermsFromProps(acc: seq<(string, TermData)>, sel: SelectedTerms, groups: seq<(string, string)>,
                                             titleSlug: string -> string)
    requires TabsConsistent(acc, TERM_FIELDS)
    requires forall g :: g in groups ==> g in TERM_FIELDS
    ensures TabsConsistent(AllTermsFrom(acc, sel, groups, titleSlug), TERM_FIELDS)
    ensures forall k :: k in Keys(acc) ==> k in Keys(AllTermsFrom(acc, sel, groups, titleSlug))
    ensures forall g, i :: 0 <= g < |groups| && 0 <= i < |GroupTerms(sel, groups[g].0)| ==>
              TabKey(groups[g].0, GroupTerms(sel, groups[g].0)[i], titleSlug) in Keys(AllTermsFrom(acc, sel, groups, titleSlug))
    decreases |groups|
  {
    if |groups| > 0 {
      var acc' := PutTerms(acc, groups[0].0, groups[0].1, GroupTerms(sel, groups[0].0), titleSlug);
      PutTermsConsistent(acc, groups[0].0, groups[0].1, GroupTerms(sel, groups[0].0), titleSlug, TERM_FIELDS);
      PutTermsKeys(acc, groups[0].0, groups[0].1, GroupTerms(sel, groups[0].0), titleSlug);
      AllTermsFromProps(acc', sel, groups[1..], titleSlug);
      forall g | 1 <= g < |groups|
        ensures groups[g] == groups[1..][g - 1]
      {
      }
    }
  }

  /**
   * Every selected term of a known group has a tab under its `group_slug` key,
   * and every tab is labelled with its term and searches its group's field.
   */
  lemma ExtractAllTermsProps(sel: SelectedTerms, titleSlug: string -> string)
    ensures TabsConsistent(ExtractAllTerms(sel, titleSlug), TERM_FIELDS)
    ensures forall g, i :: 0 <= g < |TERM_FIELDS| && 0 <= i < |GroupTerms(sel, TERM_FIELDS[g].0)| ==>
              TabKey(TERM_FIELDS[g].0, GroupTerms(sel, TERM_FIELDS[g].0)[i], titleSlug) in Keys(ExtractAllTerms(sel, titleSlug))
  {
    AllTermsFromProps([], sel, TERM_FIELDS, titleSlug);
  }

  /**
   * The multi-search body: for every tab, the base query with that tab's term
   * appended to its filter list.
   */
  function MsearchQueries(base: Query, terms: seq<(string, TermData)>): (qs: seq<Query>)
    ensures |qs| == |terms|
    ensures forall i :: 0 <= i < |terms| ==>
              qs[i] == base.(filter := base.filter + [Match(terms[i].1.field, terms[i].1.value)])
  {
    if |terms| == 0 then []
    else [base.(filter := base.filter + [Match(terms[0].1.field, terms[0].1.value)])] + MsearchQueries(base, terms[1..])
  }
}

=== FILE: registry.dfy ===
/**
 * The per-page registry of listing IDs already shown, which lets a later
 * block on the same page exclude them. Storage lives for one request only;
 * keys name a display context (a page URL digest or an explicit context).
 */
module Registry {
  import opened Common

  /** The request facts `get_context_key` consults. */
  datatype Request = Request(
    isRest: bool,                  // REST_REQUEST is defined and true
    displayContext: Option<string>, // $_REQUEST['display_context']
    referer: Option<string>,       // wp_get_referer(), None for false
    requestUri: Option<string>     // $_SERVER['REQUEST_URI']
  )

  /** The WordPress / PHP functions `get_context_key` calls and which are not modelled. */
  datatype KeyOracles = KeyOracles(md5: string -> string, urlPath: string -> Option<string>)

  predicate IsKeyChar(c: char) {
    IsLowerAscii(c) || IsDigit(c) || c == '_' || c == '-'
  }

  /** WordPress `sanitize_key`: lower-case, then keep only `a-z`, `0-9`, `_` and `-`. */
  function SanitizeKey(s: string): (r: string)
    ensures |r| <= |s|
    ensures forall i :: 0 <= i < |r| ==> IsKeyChar(r[i])
    ensures forall i :: 0 <= i < |s| && IsKeyChar(ToLowerAscii(s[i])) ==> ToLowerAscii(s[i]) in r
  {
    if |s| == 0 then ""
    else
      var c := ToLowerAscii(s[0]);
      (if IsKeyChar(c) then [c] else []) + SanitizeKey(s[1..])
  }

  /** A string made only of key characters is its own sanitized key. */
  lemma {:induction false} SanitizeKeyOfKey(s: string)
    requires forall i :: 0 <= i < |s| ==> IsKeyChar(s[i])
    ensures SanitizeKey(s) == s
  {
    if |s| > 0 {
      SanitizeKeyOfKey(s[1..]);
    }
  }

  /** Sanitizing a key twice is sanitizing it once. */
  lemma SanitizeKeyIdempotent(s: string)
    ensures SanitizeKey(SanitizeKey(s)) == SanitizeKey(s)
  {
    SanitizeKeyOfKey(SanitizeKey(s));
  }

  /**
   * The context key of the current request: for a REST request, the sanitized
   * `display_context` parameter if it is truthy, else the digest of the
   * referer's path if there is a referer; otherwise the digest of the request URI.
   */
  function ContextKey(req: Request, o: KeyOracles): (key: string)
    ensures req.isRest && req.displayContext.Some? && !PhpEmptyString(req.displayContext.value) ==>
              key == SanitizeKey(req.displayContext.value)
    ensures req.isRest && (req.displayContext.None? || PhpEmptyString(req.displayContext.value))
              && req.referer.Some? && !PhpEmptyString(req.referer.value) ==>
              key == o.md5(o.urlPath(req.referer.value).GetOr("/"))
    ensures (!req.isRest
             || ((req.displayContext.None? || PhpEmptyString(req.displayContext.value))
                 && (req.referer.None? || PhpEmptyString(req.referer.value)))) ==>
              key == o.md5(req.requestUri.GetOr("/"))
  {
    if req.isRest && req.displayContext.Some? && !PhpEmptyString(req.displayContext.value) then
      SanitizeKey(req.displayContext.value)
    else if req.isRest && req.referer.Some? && !PhpEmptyString(req.referer.value) then
      o.md5(o.urlPath(req.referer.value).GetOr("/"))
    else
      o.md5(req.requestUri.GetOr("/"))
  }

  /** An explicit context wins over the request-derived key. */
  function ResolveKey(context: Option<string>, req: Request, o: KeyOracles): string {
    if context.Some? then context.value else ContextKey(req, o)
  }

  datatype Registry = Registry(displayed: map<string, seq<int>>)

  const EmptyRegistry := Registry(map[])

  /** Every context's list is free of duplicates. */
  ghost predicate Valid(reg: Registry) {
    forall k :: k in reg.displayed ==> NoDup(reg.displayed[k])
  }

  /** IDs shown so far under `key`, in order of first display; none when the key is unknown. */
  function Displayed(reg: Registry, key: string): (ids: seq<int>)
    ensures key !in reg.displayed ==> ids == []
  {
    if key in reg.displayed then reg.displayed[key] else []
  }

  /** Records `ids` as shown under `key`: appended to the key's list, duplicates dropped. */
  function Register(reg: Registry, ids: seq<int>, key: string): (r: Registry)
    ensures |ids| == 0 ==> r == reg
    ensures forall k :: k != key ==> Displayed(r, k) == Displayed(reg, k) && (k in r.displayed <==> k in reg.displayed)
    ensures forall i :: 0 <= i < |ids| ==> ids[i] in Displayed(r, key)
    ensures forall i :: 0 <= i < |Displayed(reg, key)| ==> Displayed(reg, key)[i] in Displayed(r, key)
    ensures forall x :: x in Displayed(r, key) ==> x in Displayed(reg, key) || x in ids
    ensures |ids| > 0 ==> NoDup(Displayed(r, key))
  {
    if |ids| == 0 then reg
    else
      var e := Displayed(reg, key);
      assert forall i :: 0 <= i < |ids| ==> (e + ids)[|e| + i] == ids[i];
      assert forall i :: 0 <= i < |e| ==> (e + ids)[i] == e[i];
      Registry(reg.displayed[key := Dedup(e + ids)])
  }

  /** `clear()`: forget every context, or only the given one. */
  function Clear(reg: Registry, context: Option<string>): (r: Registry)
    ensures context.None? ==> forall k :: Displayed(r, k) == []
    ensures context.Some? ==> Displayed(r, context.value) == []
    ensures context.Some? ==> forall k :: k != context.value ==> Displayed(r, k) == Displayed(reg, k)
  {
    if context.None? then EmptyRegistry
    else Registry(reg.displayed - {context.value})
  }

  /** Registration and clearing keep every list duplicate-free. */
  lemma ValidPreserved(reg: Registry, ids: seq<int>, key: string, context: Option<string>)
    requires Valid(reg)
    ensures Valid(Register(reg, ids, key))
    ensures Valid(Clear(reg, context))
  {
    var r := Register(reg, ids, key);
    forall k | k in r.displayed
      ensures NoDup(r.displayed[k])
    {
      assert r.displayed[k] == Displayed(r, k);
    }
  }

  /**
   * On a valid registry, registering appends: the IDs shown before keep their
   * places and order, and the new ones follow.
   */
  lemma {:induction false} RegisterAppends(reg: Registry, ids: seq<int>, key: string)
    requires Valid(reg)
    ensures |Displayed(reg, key)| <= |Displayed(Register(reg, ids, key), key)|
    ensures Displayed(Register(reg, ids, key), key)[..|Displayed(reg, key)|] == Displayed(reg, key)
  {
    var old_ := Displayed(reg, key);
    if |ids| > 0 {
      DedupPrefix(old_, ids);
      DedupOfNoDup(old_);
    }
  }

  /** Registering the same IDs twice has the effect of registering them once. */
  lemma {:induction false} RegisterIdempotent(reg: Registry, ids: seq<int>, key: string)
    ensures Register(Register(reg, ids, key), ids, key) == Register(reg, ids, key)
  {
    if |ids| > 0 {
      var once := Register(reg, ids, key);
      var c := Dedup(Displayed(reg, key) + ids);
      assert once.displayed[key] == c;
      DedupTwice(Displayed(reg, key), ids);
      assert once.displayed[key := c] == once.displayed;
    }
  }

  lemma DedupTwice(e: seq<int>, ids: seq<int>)
    ensures Dedup(Dedup(e + ids) + ids) == Dedup(e + ids)
  {
    var c := Dedup(e + ids);
    assert forall i :: 0 <= i < |ids| ==> (e + ids)[|e| + i] == ids[i];
    DedupAbsorb(c, ids);
    DedupOfNoDup(c);
  }

  /** The list under the registered key, as a value. */
  lemma DisplayedAfter(reg: Registry, ids: seq<int>, key: string)
    ensures Displayed(Register(reg, ids, key), key) == if |ids| == 0 then Displayed(reg, key) else Dedup(Displayed(reg, key) + ids)
  {
  }

  /** Two de-duplicating appends in a row are one append of both batches. */
  lemma DedupBatches(e: seq<int>, a: seq<int>, b: seq<int>)
    ensures var once := if |a| == 0 then e else Dedup(e + a);
      (if |b| == 0 then once else Dedup(once + b)) == (if |a + b| == 0 then e else Dedup(e + (a + b)))
  {
    if |a| == 0 {
      assert a + b == b;
    } else if |b| == 0 {
      assert a + b == a;
    } else {
      DedupBatchesBoth(e, a, b);
    }
  }

  lemma DedupBatchesBoth(e: seq<int>, a: seq<int>, b: seq<int>)
    ensures Dedup(Dedup(e + a) + b) == Dedup(e + (a + b))
  {
    DedupDedupAppend(e + a, b);
    ConcatAssoc(e, a, b);
  }

  /** Registering in two batches equals registering the concatenation once. */
  lemma RegisterBatches(reg: Registry, a: seq<int>, b: seq<int>, key: string)
    ensures Displayed(Register(Register(reg, a, key), b, key), key) == Displayed(Register(reg, a + b, key), key)
  {
    DisplayedAfter(reg, a, key);
    DisplayedAfter(Register(reg, a, key), b, key);
    DisplayedAfter(reg, a + b, key);
    DedupBatches(Displayed(reg, key), a, b);
  }
}

=== FILE: renderer.dfy ===
/**
 * The pure helpers of the listing-cards renderer: the recursive argument
 * merge and the defaults it merges into, the placeholder decision, the
 * selected-terms test, the labels of the tabs actually rendered, the card
 * option classes and the ordinal "Ranked N Place" label.
 */
module Renderer {
  import opened Common
  import opened PhpValue
  import O = Orchestrator

  // ---------------------------------------------------------------------------
  // Recursive argument merge

  /**
   * `parse_args_recursive`: start from the defaults and lay every argument
   * over them; where both the argument and the current entry are arrays the
   * two are merged recursively. A non-array `args` counts as empty; a
   * non-array `defaults` yields the arguments themselves.
   */
  function ParseArgs(args: Value, defaults: Value): Value
    decreases args, |ItemsOf(args)| + 1
  {
    if !defaults.Arr? then Arr(ItemsOf(args))
    else Arr(MergeFrom(args, 0, defaults.items))
  }

  /** The merge loop from the `i`-th argument on. */
  function MergeFrom(args: Value, i: nat, result: seq<(string, Value)>): seq<(string, Value)>
    decreases args, |ItemsOf(args)| - i
  {
    if i >= |ItemsOf(args)| then result
    else
      var e := args.items[i];
      assert e in args.items;
      MergeFrom(args, i + 1, Put(result, e.0, Combine(e.1, Get(result, e.0))))
  }

  /** The value stored for one argument given the current entry under its key. */
  function Combine(v: Value, cur: Option<Value>): Value
    decreases v, |ItemsOf(v)| + 2
  {
    if v.Arr? && cur.Some? && cur.value.Arr? then ParseArgs(v, cur.value) else v
  }

  /** The merge loop never drops a key: the keys it starts from stay a prefix. */
  lemma {:induction false} MergeFromKeys(args: Value, i: nat, result: seq<(string, Value)>)
    ensures |Keys(result)| <= |Keys(MergeFrom(args, i, result))|
    ensures Keys(MergeFrom(args, i, result))[..|Keys(result)|] == Keys(result)
    decreases |ItemsOf(args)| - i
  {
    if i < |ItemsOf(args)| {
      var e := args.items[i];
      var next := Put(result, e.0, Combine(e.1, Get(result, e.0)));
      MergeFromKeys(args, i + 1, next);
      PutKeysPrefix(result, e.0, Combine(e.1, Get(result, e.0)));
      PrefixTrans(Keys(result), Keys(next), Keys(MergeFrom(args, i + 1, next)));
    }
  }

  /**
   * With distinct argument keys, each key ends up as: the default when no
   * argument names it, otherwise the argument combined with the default.
   */
  lemma {:induction false} MergeFromEntries(args: Value, i: nat, result: seq<(string, Value)>, defaults: seq<(string, Value)>, k: string)
    requires args.Arr? && NoDup(Keys(args.items)) && i <= |args.items|
    requires Get(args.items[..i], k).None? ==> Get(result, k) == Get(defaults, k)
    requires Get(args.items[..i], k).Some? ==> Get(result, k) == Some(Combine(Get(args.items[..i], k).value, Get(defaults, k)))
    requires forall j :: i <= j < |args.items| ==> Get(result, args.items[j].0) == Get(defaults, args.items[j].0)
    ensures Get(args.items, k).None? ==> Get(MergeFrom(args, i, result), k) == Get(defaults, k)
    ensures Get(args.items, k).Some? ==>
              Get(MergeFrom(args, i, result), k) == Some(Combine(Get(args.items, k).value, Get(defaults, k)))
    decreases |args.items| - i
  {
    var items := args.items;
    if i == |items| {
      assert items[..i] == items;
    } else {
      var e := items[i];
      MergeStep(items, i, result, defaults, k, Combine);
      MergeFromEntries(args, i + 1, Put(result, e.0, Combine(e.1, Get(result, e.0))), defaults, k);
    }
  }

  /**
   * One merge step keeps the loop invariant of `MergeFromEntries`; `f` is the
   * combining function, kept abstract so that the step is about entries only.
   */
  lemma MergeStep<V>(items: seq<(string, V)>, i: nat, result: seq<(string, V)>, defaults: seq<(string, V)>,
                     k: string, f: (V, Option<V>) -> V)
    requires NoDup(Keys(items)) && i < |items|
    requires Get(items[..i], k).None? ==> Get(result, k) == Get(defaults, k)
    requires Get(items[..i], k).Some? ==> Get(result, k) == Some(f(Get(items[..i], k).value, Get(defaults, k)))
    requires forall j :: i <= j < |items| ==> Get(result, items[j].0) == Get(defaults, items[j].0)
    ensures var next := Put(result, items[i].0, f(items[i].1, Get(result, items[i].0)));
      && (Get(items[..i + 1], k).None? ==> Get(next, k) == Get(defaults, k))
      && (Get(items[..i + 1], k).Some? ==> Get(next, k) == Some(f(Get(items[..i + 1], k).value, Get(defaults, k))))
      && (forall j :: i + 1 <= j < |items| ==> Get(next, items[j].0) == Get(defaults, items[j].0))
  {
    var e := items[i];
    var next := Put(result, e.0, f(e.1, Get(result, e.0)));
    TakeSnoc(items, i);
    GetSnoc(items[..i], e.0, e.1, k);
    FreshKeyAt(items, i);
    LaterKeysUntouched(items, i, result, next, defaults, f(e.1, Get(result, e.0)));
  }

  /** Setting the key at `i` leaves the entries of the later keys as they were. */
  lemma LaterKeysUntouched<V>(items: seq<(string, V)>, i: nat, result: seq<(string, V)>,
                              next: seq<(string, V)>, defaults: seq<(string, V)>, v: V)
    requires NoDup(Keys(items)) && i < |items|
    requires next == Put(result, items[i].0, v)
    requires forall j :: i <= j < |items| ==> Get(result, items[j].0) == Get(defaults, items[j].0)
    ensures forall j :: i + 1 <= j < |items| ==> Get(next, items[j].0) == Get(defaults, items[j].0)
  {
    forall j | i + 1 <= j < |items|
      ensures Get(next, items[j].0) == Get(defaults, items[j].0)
    {
      assert Keys(items)[j] != Keys(items)[i];
    }
  }

  /** In a map with distinct keys, the `i`-th entry is what `Get` finds for its key. */
  lemma {:induction false} GetFirst(m: seq<(string, Value)>, i: nat)
    requires i < |m| && NoDup(Keys(m))
    ensures Get(m, m[i].0) == Some(m[i].1)
  {
    if i > 0 {
      assert Keys(m)[0] != Keys(m)[i];
      assert Keys(m[1..]) == Keys(m)[1..];
      GetFirst(m[1..], i - 1);
    }
  }

  /**
   * The contract of `parse_args_recursive` on array defaults and arguments
   * with distinct keys: every default key survives in its place; a key the
   * arguments do not name keeps its default; a named key takes the argument,
   * merged recursively when both sides are arrays. Non-array arguments count
   * as none, and no arguments give back exactly the defaults.
   */
  lemma ParseArgsSpec(args: Value, defaults: seq<(string, Value)>, k: string)
    requires args.Arr? ==> NoDup(Keys(args.items))
    ensures var r := ParseArgs(args, Arr(defaults));
      && r.Arr?
      && |Keys(defaults)| <= |Keys(r.items)| && Keys(r.items)[..|Keys(defaults)|] == Keys(defaults)
      && (Get(ItemsOf(args), k).None? ==> Get(r.items, k) == Get(defaults, k))
      && (Get(ItemsOf(args), k).Some? ==>
            var v := Get(args.items, k).value;
            var d := Get(defaults, k);
            Get(r.items, k) == Some(if v.Arr? && d.Some? && d.value.Arr? then ParseArgs(v, d.value) else v))
      && (ItemsOf(args) == [] ==> r == Arr(defaults))
  {
    MergeFromKeys(args, 0, defaults);
    if args.Arr? {
      MergeFromEntries(args, 0, defaults, defaults, k);
    }
  }

  /** With non-array defaults the arguments come back as they are (an empty array for non-array arguments). */
  lemma ParseArgsNonArrayDefaults(args: Value, defaults: Value)
    requires !defaults.Arr?
    ensures ParseArgs(args, defaults) == (if args.Arr? then args else Arr([]))
  {
  }

  // ---------------------------------------------------------------------------
  // Render arguments

  /** The request facts the defaults read from WordPress. */
  datatype PageFacts = PageFacts(postId: Value, postType: Value, isAdmin: bool, isPreview: bool)

  /** The default rendering arguments, `card_count` already decided. */
  function DefaultArgs(cardCount: int, facts: PageFacts, renderId: string): (d: seq<(string, Value)>)
    ensures Get(d, "card_count") == Some(Int(cardCount))
    ensures Lookup(Lookup(Arr(d), "context"), "requires_location_data") == Bool(false)
    ensures Get(d, "context").Some? && Get(d, "context").value.Arr?
    ensures Get(d, "user_location") == Some(Arr([]))
  {
    var ctx := [("post_id", facts.postId), ("post_type", facts.postType), ("is_admin", Bool(facts.isAdmin)),
                ("is_preview", Bool(facts.isPreview)), ("requires_location_data", Bool(false))];
    var d := [
      ("action_type", Str("none")),
      ("card_count", Int(cardCount)),
      ("card_options", Arr([("hasBackground", Bool(false)), ("showRank", Bool(true)),
                            ("showAddress", Bool(true)), ("showInsurance", Bool(true))])),
      ("context", Arr(ctx)),
      ("exclude_displayed", Bool(false)),
      ("has_background", Bool(false)),
      ("headline", Arr([("show", Bool(false)), ("text", Str("Featured Facilities Near You")),
                        ("alignment", Str("left")), ("tag", Int(2))])),
      ("slides_to_show", Int(3)),
      ("is_inline", Bool(false)),
      ("layout", Str("three-column")),
      ("render_id", Str(renderId)),
      ("selected_terms", Arr([("amenities", Arr([])), ("clinicalServices", Arr([])), ("levelsOfCare", Arr([])),
                              ("paymentOptions", Arr([])), ("programs", Arr([])), ("treatmentOptions", Arr([]))])),
      ("card_data", Arr([])),
      ("wrapper_classes", Arr([])),
      ("wrapper_attributes", Arr([])),
      ("user_location", Arr([]))
    ];
    GetAt(d, 1);
    GetAt(d, 3);
    GetAt(d, 15);
    GetAt(ctx, 4);
    d
  }

  /** The default card count: 8 for a slider when the caller gave none, else 3. */
  function DefaultCardCount(args: seq<(string, Value)>): int {
    if !IsSet(Arr(args), "card_count") && IsSet(Arr(args), "layout") && Lookup(Arr(args), "layout") == Str("slider") then 8
    else 3
  }

  /** `prepare_args` without the `render_args` filter: the arguments merged over the defaults. */
  function PrepareArgs(args: seq<(string, Value)>, facts: PageFacts, renderId: string): Value {
    ParseArgs(Arr(args), Arr(DefaultArgs(DefaultCardCount(args), facts, renderId)))
  }

  /**
   * The merged card count is the caller's when given, else 8 for a slider
   * layout and 3 for any other.
   */
  lemma PrepareArgsCardCount(args: seq<(string, Value)>, facts: PageFacts, renderId: string)
    requires NoDup(Keys(args))
    ensures var r := PrepareArgs(args, facts, renderId);
      && (Get(args, "card_count").None? && Get(args, "layout") == Some(Str("slider")) ==>
            Lookup(r, "card_count") == Int(8))
      && (Get(args, "card_count").None? && Get(args, "layout") != Some(Str("slider")) ==>
            Lookup(r, "card_count") == Int(3))
      && (Get(args, "card_count").Some? && !Get(args, "card_count").value.Arr? ==>
            Lookup(r, "card_count") == Get(args, "card_count").value)
  {
    var defaults := DefaultArgs(DefaultCardCount(args), facts, renderId);
    ParseArgsSpec(Arr(args), defaults, "card_count");
  }

  // ---------------------------------------------------------------------------
  // Placeholder, selected terms, classes

  /**
   * The block renders a placeholder (for the browser to fill in once it knows
   * the visitor's location) iff the context demands location data with a
   * literal `true` and no user location was given.
   */
  predicate ShouldRenderPlaceholder(args: Value) {
    Lookup(Lookup(args, "context"), "requires_location_data") == Bool(true) && Empty(Lookup(args, "user_location"))
  }

  /** A caller that does not ask for location data never gets the placeholder. */
  lemma NoPlaceholderByDefault(args: seq<(string, Value)>, facts: PageFacts, renderId: string)
    requires NoDup(Keys(args))
    requires Get(args, "context").None?
    ensures !ShouldRenderPlaceholder(PrepareArgs(args, facts, renderId))
  {
    var defaults := DefaultArgs(DefaultCardCount(args), facts, renderId);
    ParseArgsSpec(Arr(args), defaults, "context");
  }

  /**
   * A context entry the caller gives, other than an array, reaches the
   * prepared arguments unchanged: the recursive merge lays it over the
   * default context.
   */
  lemma PreparedContextEntry(args: seq<(string, Value)>, facts: PageFacts, renderId: string,
                             ctx: seq<(string, Value)>, k: string)
    requires NoDup(Keys(args)) && NoDup(Keys(ctx))
    requires Get(args, "context") == Some(Arr(ctx))
    requires Get(ctx, k).Some? && !Get(ctx, k).value.Arr?
    ensures Lookup(Lookup(PrepareArgs(args, facts, renderId), "context"), k) == Get(ctx, k).value
  {
    var defaults := DefaultArgs(DefaultCardCount(args), facts, renderId);
    ParseArgsSpec(Arr(args), defaults, "context");
    ParseArgsSpec(Arr(ctx), Get(defaults, "context").value.items, k);
  }

  /**
   * With a context that states `requires_location_data` and no user location
   * from the caller, the placeholder is rendered exactly when that entry is a
   * literal `true`.
   */
  lemma PlaceholderOfGivenContext(args: seq<(string, Value)>, facts: PageFacts, renderId: string,
                                  ctx: seq<(string, Value)>)
    requires NoDup(Keys(args)) && NoDup(Keys(ctx))
    requires Get(args, "context") == Some(Arr(ctx)) && Get(args, "user_location").None?
    requires Get(ctx, "requires_location_data").Some? && !Get(ctx, "requires_location_data").value.Arr?
    ensures ShouldRenderPlaceholder(PrepareArgs(args, facts, renderId)) <==>
              Get(ctx, "requires_location_data") == Some(Bool(true))
  {
    PreparedContextEntry(args, facts, renderId, ctx, "requires_location_data");
    var defaults := DefaultArgs(DefaultCardCount(args), facts, renderId);
    ParseArgsSpec(Arr(args), defaults, "user_location");
  }

  /**
   * `has_selected_terms`: some group holds a term. A group that is not an
   * array makes `array_merge` throw, modelled as `None`.
   */
  function HasSelectedTerms(sel: Value): (r: Option<bool>)
    ensures sel.Null? ==> r == Some(false)
    ensures sel.Arr? && (forall i :: 0 <= i < |sel.items| ==> sel.items[i].1.Arr?) ==>
              r == Some(exists i :: 0 <= i < |sel.items| && |sel.items[i].1.items| > 0)
    ensures !sel.Null? && !sel.Arr? ==> r.None?
    ensures sel.Arr? && (exists i :: 0 <= i < |sel.items| && !sel.items[i].1.Arr?) ==> r.None?
  {
    if sel.Null? then Some(false)
    else if !sel.Arr? then None
    else GroupsHaveTerm(sel.items)
  }

  function GroupsHaveTerm(groups: seq<(string, Value)>): (r: Option<bool>)
    ensures (forall i :: 0 <= i < |groups| ==> groups[i].1.Arr?) ==>
              r == Some(exists i :: 0 <= i < |groups| && |groups[i].1.items| > 0)
    ensures (exists i :: 0 <= i < |groups| && !groups[i].1.Arr?) ==> r.None?
  {
    if |groups| == 0 then Some(false)
    else
      var rest := GroupsHaveTerm(groups[1..]);
      assert forall i :: 1 <= i < |groups| ==> groups[1..][i - 1] == groups[i];
      if !groups[0].1.Arr? then None
      else if rest.None? then None
      else Some(|groups[0].1.items| > 0 || rest.value)
  }

  /** The non-empty term labels of the rendered cards, tab after tab, in order. */
  function CardLabels(cards: seq<O.Card>): (labels: seq<string>)
    ensures forall l :: l in labels <==>
              exists i :: 0 <= i < |cards| && cards[i].tab.Some? && cards[i].tab.value.caption == l && !PhpEmptyString(l)
  {
    if |cards| == 0 then []
    else
      var c := cards[0];
      var rest := CardLabels(cards[1..]);
      assert forall i :: 1 <= i < |cards| ==> cards[1..][i - 1] == cards[i];
      (if c.tab.Some? && !PhpEmptyString(c.tab.value.caption) then [c.tab.value.caption] else []) + rest
  }

  function TabLabels(tabs: O.Tabs): seq<string> {
    if |tabs| == 0 then [] else CardLabels(tabs[0].1) + TabLabels(tabs[1..])
  }

  /**
   * `extract_selected_terms_from_cards`: the distinct non-empty labels the
   * rendered cards carry, in order of first appearance. The plugin returns
   * them wrapped as `array('extracted' => …)`; the model returns the list
   * itself, the wrapper's only entry.
   */
  function ExtractSelectedTerms(data: O.CardData): (r: seq<string>)
    ensures NoDup(r)
  {
    match data
    case Flat(cards) => Dedup(CardLabels(cards))
    case Tabbed(tabs) => Dedup(TabLabels(tabs))
  }

  /** A label is extracted iff some card of some tab carries it. */
  lemma {:induction false} ExtractSelectedTermsTabs(tabs: O.Tabs, l: string)
    ensures l in ExtractSelectedTerms(O.Tabbed(tabs)) <==>
              exists k, i :: 0 <= k < |tabs| && 0 <= i < |tabs[k].1| && tabs[k].1[i].tab.Some?
                             && tabs[k].1[i].tab.value.caption == l && !PhpEmptyString(l)
  {
    DedupMembers(TabLabels(tabs));
    TabLabelsMember(tabs, l);
  }

  lemma {:induction false} TabLabelsMember(tabs: O.Tabs, l: string)
    ensures l in TabLabels(tabs) <==>
              exists k, i :: 0 <= k < |tabs| && 0 <= i < |tabs[k].1| && tabs[k].1[i].tab.Some?
                             && tabs[k].1[i].tab.value.caption == l && !PhpEmptyString(l)
  {
    if |tabs| > 0 {
      TabLabelsMember(tabs[1..], l);
      if l in TabLabels(tabs) {
        if l in CardLabels(tabs[0].1) {
          var i :| 0 <= i < |tabs[0].1| && tabs[0].1[i].tab.Some? && tabs[0].1[i].tab.value.caption == l && !PhpEmptyString(l);
          assert 0 <= 0 < |tabs|;
        } else {
          assert l in TabLabels(tabs[1..]);
          var k, i :| 0 <= k < |tabs[1..]| && 0 <= i < |tabs[1..][k].1| && tabs[1..][k].1[i].tab.Some?
                      && tabs[1..][k].1[i].tab.value.caption == l && !PhpEmptyString(l);
          assert tabs[1..][k] == tabs[k + 1];
        }
      }
      if exists k, i :: 0 <= k < |tabs| && 0 <= i < |tabs[k].1| && tabs[k].1[i].tab.Some?
                        && tabs[k].1[i].tab.value.caption == l && !PhpEmptyString(l) {
        var k, i :| 0 <= k < |tabs| && 0 <= i < |tabs[k].1| && tabs[k].1[i].tab.Some?
                    && tabs[k].1[i].tab.value.caption == l && !PhpEmptyString(l);
        if k > 0 {
          assert tabs[1..][k - 1] == tabs[k];
        }
      }
    }
  }

  /** A lower-case letter directly followed by an upper-case one: where a hyphen goes. */
  predicate Boundary(s: string, i: int) {
    0 <= i && i + 1 < |s| && IsLowerAscii(s[i]) && IsUpperAscii(s[i + 1])
  }

  /** A hyphen inserted at every lower-to-upper boundary. */
  function Hyphenate(s: string): (r: string)
    ensures |r| >= |s|
  {
    if |s| == 0 then ""
    else if Boundary(s, 0) then [s[0], '-'] + Hyphenate(s[1..])
    else [s[0]] + Hyphenate(s[1..])
  }

  /** The CSS class of a camel-case option key: hyphenated, then lower-cased. */
  function OptionClass(key: string): (c: string)
    ensures forall i :: 0 <= i < |c| ==> !IsUpperAscii(c[i])
  {
    LowerAscii(Hyphenate(key))
  }

  /** All characters except hyphens. */
  function NoHyphens(s: string): (r: string)
    ensures |r| <= |s|
  {
    if |s| == 0 then "" else (if s[0] == '-' then "" else [s[0]]) + NoHyphens(s[1..])
  }

  /** The number of lower-to-upper boundaries. */
  function Boundaries(s: string): nat {
    if |s| < 2 then 0 else (if Boundary(s, 0) then 1 else 0) + Boundaries(s[1..])
  }

  /** Hyphenation adds nothing but hyphens. */
  lemma {:induction false} HyphenateKeepsLetters(key: string)
    ensures NoHyphens(Hyphenate(key)) == NoHyphens(key)
  {
    if |key| > 0 {
      HyphenateKeepsLetters(key[1..]);
      var h := Hyphenate(key[1..]);
      if Boundary(key, 0) {
        assert Hyphenate(key) == [key[0], '-'] + h;
        assert ([key[0], '-'] + h)[1..] == ['-'] + h;
        assert (['-'] + h)[1..] == h;
        assert NoHyphens(['-'] + h) == NoHyphens(h);
        assert NoHyphens([key[0], '-'] + h) == [key[0]] + NoHyphens(h);
      } else {
        assert Hyphenate(key) == [key[0]] + h;
        assert ([key[0]] + h)[1..] == h;
      }
    }
  }

  /** Hyphenation adds one character per boundary. */
  lemma {:induction false} HyphenateLength(key: string)
    ensures |Hyphenate(key)| == |key| + Boundaries(key)
  {
    if |key| > 0 {
      HyphenateLength(key[1..]);
    }
  }

  /** `card_options_to_classes`: the class of every truthy option, in order. */
  function OptionClasses(options: seq<(string, Value)>): (classes: seq<string>)
    ensures |classes| <= |options|
    ensures forall c :: c in classes <==> exists i :: 0 <= i < |options| && Truthy(options[i].1) && c == OptionClass(options[i].0)
  {
    if |options| == 0 then []
    else
      var rest := OptionClasses(options[1..]);
      assert forall i :: 1 <= i < |options| ==> options[1..][i - 1] == options[i];
      (if Truthy(options[0].1) then [OptionClass(options[0].0)] else []) + rest
  }

  // ---------------------------------------------------------------------------
  // Ranked place

  /** PHP's `%` on integers: the remainder takes the sign of the dividend. */
  function PhpMod(a: int, b: int): (r: int)
    requires b > 0
    ensures a >= 0 ==> r == a % b
    ensures -b < r < b
  {
    if a >= 0 then a % b else -((-a) % b)
  }

  /** The English ordinal suffix as `get_ranked_place` chooses it. */
  function OrdinalSuffix(n: int): string {
    if PhpMod(n, 100) in {11, 12, 13} then "th"
    else if PhpMod(n, 10) == 1 then "st"
    else if PhpMod(n, 10) == 2 then "nd"
    else if PhpMod(n, 10) == 3 then "rd"
    else "th"
  }

  /** `get_ranked_place`: "Ranked 21st Place"; nothing for a non-numeric rank (`None`). */
  function RankedPlace(n: Option<int>): string {
    if n.None? then "" else "Ranked " + IntToString(n.value) + OrdinalSuffix(n.value) + " Place"
  }

  /** The ordinal by the English rule on decimal digits: "th" in the teens, else by the last digit. */
  function EnglishOrdinal(n: nat): string {
    var units := n % 10;
    var tens := (n / 10) % 10;
    if tens == 1 then "th" else if units == 1 then "st" else if units == 2 then "nd" else if units == 3 then "rd" else "th"
  }

  /**
   * On non-negative ranks the suffix is the English ordinal, and it repeats
   * every hundred; a negative rank always ends in "th", because PHP's signed
   * remainder of a negative number is never 1, 2 or 3.
   */
  lemma OrdinalSuffixSpec(n: int)
    ensures n >= 0 ==> OrdinalSuffix(n) == EnglishOrdinal(n)
    ensures n >= 0 ==> OrdinalSuffix(n + 100) == OrdinalSuffix(n)
    ensures n < 0 ==> OrdinalSuffix(n) == "th"
  {
    if n >= 0 {
      assert (n % 100) % 10 == n % 10;
      assert (n % 100) / 10 == (n / 10) % 10;
      assert (n + 100) % 100 == n % 100;
      assert (n + 100) % 10 == n % 10;
    }
  }

  /** A non-numeric rank renders nothing; a numeric one always renders a label. */
  lemma RankedPlaceShape(n: Option<int>)
    ensures RankedPlace(n) == "" <==> n.None?
    ensures n.Some? ==> RankedPlace(n)[..7] == "Ranked "
  {
  }
}

=== FILE: taxonomy_dropdown.dfy ===
/**
 * The grouped taxonomy dropdown of the block editor: the aggregation keys of
 * its term query, the selection reducer, and the text the closed dropdown
 * shows.
 */
module TaxonomyDropdown {
  import opened Common

  /** A taxonomy group of the dropdown: its selection key, indexed field and label. */
  datatype Group = Group(key: string, fieldName: string, caption: string)

  /** The groups, in the order the dropdown lists them. */
  const GROUPS: seq<Group> := [
    Group("treatmentOptions", "rmg.treatment.keyword", "Treatment Options"),
    Group("paymentOptions", "rmg.payment.keyword", "Payment Options"),
    Group("programs", "rmg.programs.keyword", "Programs"),
    Group("levelsOfCare", "rmg.levels_of_care.keyword", "Levels of Care"),
    Group("clinicalServices", "rmg.clinical_services.keyword", "Clinical Services"),
    Group("amenities", "rmg.amenities.keyword", "Amenities")
  ]

  function GroupKeys(gs: seq<Group>): (ks: seq<string>)
    ensures |ks| == |gs| && forall i :: 0 <= i < |gs| ==> ks[i] == gs[i].key
  {
    if |gs| == 0 then [] else [gs[0].key] + GroupKeys(gs[1..])
  }

  // ---------------------------------------------------------------------------
  // Aggregation keys

  /** The aggregation key of a field: each `.` becomes `_`, each `[` and `]` is dropped. */
  function AggregationKey(field: string): (k: string)
    ensures '.' !in k && '[' !in k && ']' !in k
    ensures |k| <= |field|
  {
    if |field| == 0 then ""
    else
      var c := field[0];
      var head := if c == '.' then "_" else if c == '[' || c == ']' then "" else [c];
      head + AggregationKey(field[1..])
  }

  /** A field without dots or brackets is its own aggregation key. */
  lemma {:induction false} AggregationKeyOfPlain(field: string)
    requires '.' !in field && '[' !in field && ']' !in field
    ensures AggregationKey(field) == field
    decreases |field|
  {
    if |field| > 0 {
      AggregationKeyOfPlain(field[1..]);
      assert field == [field[0]] + field[1..];
    }
  }

  /** Deriving an aggregation key twice changes nothing. */
  lemma AggregationKeyIdempotent(field: string)
    ensures AggregationKey(AggregationKey(field)) == AggregationKey(field)
  {
    AggregationKeyOfPlain(AggregationKey(field));
  }

  /** Without brackets, the key has the field's length and differs only where the field has a dot. */
  lemma {:induction false} AggregationKeyPositions(field: string)
    requires '[' !in field && ']' !in field
    ensures |AggregationKey(field)| == |field|
    ensures forall i :: 0 <= i < |field| ==> AggregationKey(field)[i] == (if field[i] == '.' then '_' else field[i])
    decreases |field|
  {
    if |field| > 0 {
      AggregationKeyPositions(field[1..]);
    }
  }

  // ---------------------------------------------------------------------------
  // Selections

  /** A group's entry in the selections object: a list of term values, or a value that is not a list. */
  datatype GroupValue = Terms(values: seq<string>) | NotAList

  /** The selections object: group key to selected term values, in key order. */
  type Selections = seq<(string, GroupValue)>

  /** `selections[ key ] || []` for a list or a missing entry. */
  function Selected(sel: Selections, key: string): seq<string> {
    var v := Get(sel, key);
    if v.Some? && v.value.Terms? then v.value.values else []
  }

  /** The list without any occurrence of `x` (`filter( val => val !== x )`). */
  function Without(s: seq<string>, x: string): (r: seq<string>)
    ensures forall y :: y in r <==> y in s && y != x
    ensures |r| <= |s|
  {
    if |s| == 0 then [] else (if s[0] == x then [] else [s[0]]) + Without(s[1..], x)
  }

  /** Every other value keeps its number of occurrences; `x` has none left. */
  lemma {:induction false} WithoutMultiset(s: seq<string>, x: string)
    ensures multiset(Without(s, x)) == multiset(s)[x := 0]
    decreases |s|
  {
    if |s| > 0 {
      WithoutMultiset(s[1..], x);
      assert s == [s[0]] + s[1..];
    }
  }

  lemma {:induction false} WithoutAbsent(s: seq<string>, x: string)
    requires x !in s
    ensures Without(s, x) == s
    decreases |s|
  {
    if |s| > 0 {
      WithoutAbsent(s[1..], x);
      assert s == [s[0]] + s[1..];
    }
  }

  lemma {:induction false} WithoutAppend(s: seq<string>, t: seq<string>, x: string)
    ensures Without(s + t, x) == Without(s, x) + Without(t, x)
    decreases |s|
  {
    if |s| == 0 {
      assert s + t == t;
    } else {
      WithoutAppend(s[1..], t, x);
      var st := s + t;
      assert st[0] == s[0] && st[1..] == s[1..] + t;
    }
  }

  /** The single-select result: every group empty except the chosen one, which holds the term. */
  function OnlySelection(gs: seq<Group>, key: string, term: string): (r: Selections)
    ensures |r| == |gs|
    ensures forall i :: 0 <= i < |gs| ==> r[i] == (gs[i].key, Terms(if gs[i].key == key then [term] else []))
  {
    if |gs| == 0 then []
    else [(gs[0].key, Terms(if gs[0].key == key then [term] else []))] + OnlySelection(gs[1..], key, term)
  }

  /**
   * `handleSelection`: in multi-select mode the term is toggled in its
   * group (removed when selected, appended otherwise; `isSelected` overrides
   * the membership test) and every other entry is kept; in single-select
   * mode the selections become the six groups with only this term.
   */
  function HandleSelection(sel: Selections, term: string, key: string, isSelected: Option<bool>, multiSelect: bool)
    : (r: Selections)
  {
    if multiSelect then
      var current := Selected(sel, key);
      var selected := isSelected.GetOr(term in current);
      Put(sel, key, Terms(if selected then Without(current, term) else current + [term]))
    else OnlySelection(GROUPS, key, term)
  }

  /**
   * In multi-select mode only the target group changes: a selected term
   * (by membership, or as `isSelected` says) leaves it, any other term is
   * appended to it.
   */
  lemma HandleSelectionMulti(sel: Selections, term: string, key: string, isSelected: Option<bool>)
    ensures var r := HandleSelection(sel, term, key, isSelected, true);
      var current := Selected(sel, key);
      var selected := if isSelected.Some? then isSelected.value else term in current;
      && (forall k :: k != key ==> Get(r, k) == Get(sel, k))
      && (selected ==> forall v :: v in Selected(r, key) <==> v in current && v != term)
      && (selected ==> Selected(r, key) == Without(current, term))
      && (!selected ==> Selected(r, key) == current + [term])
  {
  }

  /** Toggling a term that is not selected, twice, restores its group. */
  lemma ToggleTwice(sel: Selections, term: string, key: string)
    requires term !in Selected(sel, key)
    ensures var once := HandleSelection(sel, term, key, None, true);
      && term in Selected(once, key)
      && Selected(HandleSelection(once, term, key, None, true), key) == Selected(sel, key)
  {
    var current := Selected(sel, key);
    WithoutAppend(current, [term], term);
    WithoutAbsent(current, term);
    assert Without([term], term) == [];
  }

  /**
   * In single-select mode the result has exactly the six groups, in order;
   * the chosen group holds just the term and every other group is empty.
   */
  lemma HandleSelectionSingle(sel: Selections, term: string, key: string, isSelected: Option<bool>)
    ensures var r := HandleSelection(sel, term, key, isSelected, false);
      && Keys(r) == GroupKeys(GROUPS)
      && forall i :: 0 <= i < |r| ==> Selected(r, r[i].0) == (if r[i].0 == key then [term] else [])
  {
    var r := HandleSelection(sel, term, key, isSelected, false);
    GroupKeysDistinct();
    forall i | 0 <= i < |r|
      ensures Selected(r, r[i].0) == (if r[i].0 == key then [term] else [])
    {
      GetAt(r, i);
    }
  }

  lemma GroupKeysDistinct()
    ensures NoDup(GroupKeys(GROUPS))
  {
    GroupKeysValue();
    GroupKeyLiteralsDistinct();
  }

  lemma GroupKeysValue()
    ensures GroupKeys(GROUPS) == ["treatmentOptions", "paymentOptions", "programs", "levelsOfCare", "clinicalServices", "amenities"]
  {
  }

  lemma GroupKeyLiteralsDistinct()
    ensures NoDup(["treatmentOptions", "paymentOptions", "programs", "levelsOfCare", "clinicalServices", "amenities"])
  {
    var ks := ["treatmentOptions", "paymentOptions", "programs", "levelsOfCare", "clinicalServices", "amenities"];
    forall i, j | 0 <= i < j < |ks|
      ensures ks[i] != ks[j]
    {
      assert ks[i][0] != ks[j][0] || |ks[i]| != |ks[j]|;
    }
  }

  // ---------------------------------------------------------------------------
  // Display text

  /** The number of selected terms over every entry (entries that are not lists count 0). */
  function TotalSelections(sel: Selections): nat {
    if |sel| == 0 then 0
    else (match sel[0].1 case Terms(vs) => |vs| case NotAList => 0) + TotalSelections(sel[1..])
  }

  /** The selections of two different keys are both counted in the total. */
  lemma {:induction false} TotalCountsTwo(sel: Selections, k1: string, k2: string)
    requires k1 != k2
    ensures TotalSelections(sel) >= |Selected(sel, k1)| + |Selected(sel, k2)|
    decreases |sel|
  {
    if |sel| > 0 {
      TotalCountsTwo(sel[1..], k1, k2);
      TotalCountsOne(sel[1..], k1);
      TotalCountsOne(sel[1..], k2);
    }
  }

  lemma {:induction false} TotalCountsOne(sel: Selections, k: string)
    ensures TotalSelections(sel) >= |Selected(sel, k)|
    decreases |sel|
  {
    if |sel| > 0 {
      TotalCountsOne(sel[1..], k);
    }
  }

  /** A loaded term of a group: its value and label. */
  datatype Term = Term(value: string, caption: string)

  /** The label of the first loaded term with this value, if any. */
  function FindLabel(terms: seq<Term>, value: string): Option<string> {
    if |terms| == 0 then None
    else if terms[0].value == value then Some(terms[0].caption)
    else FindLabel(terms[1..], value)
  }

  /** "Group: label" for the first group, in dropdown order, that has a selection. */
  function SingleText(gs: seq<Group>, sel: Selections, loaded: string -> seq<Term>): Option<string> {
    if |gs| == 0 then None
    else
      var vs := Selected(sel, gs[0].key);
      if |vs| > 0 then
        Some(gs[0].caption + ": " + FindLabel(loaded(gs[0].key), vs[0]).GetOr(vs[0]))
      else SingleText(gs[1..], sel, loaded)
  }

  const OPTIONS_SELECTED := " options selected"

  /**
   * `getDisplayText`: the placeholder without selections; for a single one,
   * "Group: label" (the raw value when the term is not loaded); otherwise
   * the count, "N options selected". `loaded` gives each group's loaded terms.
   */
  function GetDisplayText(sel: Selections, loaded: string -> seq<Term>, placeholder: string): (text: string)
  {
    var total := TotalSelections(sel);
    if total == 0 then placeholder
    else if total == 1 && SingleText(GROUPS, sel, loaded).Some? then SingleText(GROUPS, sel, loaded).value
    else NatToString(total) + OPTIONS_SELECTED
  }

  /**
   * A single selected term in group `gs[j]`: every earlier group is empty,
   * so the text names that group and the term.
   */
  lemma {:induction false} SingleTextFinds(gs: seq<Group>, sel: Selections, loaded: string -> seq<Term>, j: nat, v: string)
    requires j < |gs| && Selected(sel, gs[j].key) == [v] && TotalSelections(sel) == 1
    requires forall i :: 0 <= i < j ==> gs[i].key != gs[j].key
    ensures SingleText(gs, sel, loaded) == Some(gs[j].caption + ": " + FindLabel(loaded(gs[j].key), v).GetOr(v))
    decreases j
  {
    if j > 0 {
      TotalCountsTwo(sel, gs[0].key, gs[j].key);
      SingleTextFinds(gs[1..], sel, loaded, j - 1, v);
    }
  }

  /**
   * No selection shows the placeholder; one selected term of a group shows
   * "Group: label", falling back to the raw value; more show their count.
   */
  lemma GetDisplayTextSpec(sel: Selections, loaded: string -> seq<Term>, placeholder: string, j: nat, v: string)
    requires j < |GROUPS|
    ensures TotalSelections(sel) == 0 ==> GetDisplayText(sel, loaded, placeholder) == placeholder
    ensures TotalSelections(sel) > 1 ==>
              GetDisplayText(sel, loaded, placeholder) == NatToString(TotalSelections(sel)) + OPTIONS_SELECTED
    ensures TotalSelections(sel) == 1 && Selected(sel, GROUPS[j].key) == [v] ==>
              GetDisplayText(sel, loaded, placeholder)
              == GROUPS[j].caption + ": " + FindLabel(loaded(GROUPS[j].key), v).GetOr(v)
  {
    if TotalSelections(sel) == 1 && Selected(sel, GROUPS[j].key) == [v] {
      GroupKeysDistinct();
      assert forall i :: 0 <= i < j ==> GroupKeys(GROUPS)[i] != GroupKeys(GROUPS)[j];
      SingleTextFinds(GROUPS, sel, loaded, j, v);
    }
  }

  /**
   * One selection under a key that is not a group falls through to the
   * count: "1 options selected".
   */
  lemma SingleOutsideGroups(sel: Selections, loaded: string -> seq<Term>, placeholder: string)
    requires TotalSelections(sel) == 1
    requires forall i :: 0 <= i < |GROUPS| ==> Selected(sel, GROUPS[i].key) == []
    ensures GetDisplayText(sel, loaded, placeholder) == "1" + OPTIONS_SELECTED
  {
    SingleTextNone(GROUPS, sel, loaded);
  }

  lemma {:induction false} SingleTextNone(gs: seq<Group>, sel: Selections, loaded: string -> seq<Term>)
    requires forall i :: 0 <= i < |gs| ==> Selected(sel, gs[i].key) == []
    ensures SingleText(gs, sel, loaded).None?
    decreases |gs|
  {
    if |gs| > 0 {
      SingleTextNone(gs[1..], sel, loaded);
    }
  }
}
